=== FILE: README.md ===
# Chart ingestion and note storage, modelled in Dafny

This project models the part of the rhythm game that turns guitar charts
into note grids and then stores them:

- **The MIDI loader's guitar-note classifier** (`src/NotesLoaderMID.cpp`).
  It decodes the Phase Shift sysex messages that open and close tap and
  open-note sections. It picks the track roles and the HOPO rule set of a
  MIDI file (Guitar Hero or Rock Band), and finds the pitch window of each
  difficulty. It pairs note-on and note-off events into notes. It decides,
  note by note, whether a note becomes a tap, a gem (strummed) or a HOPO
  (hammer-on/pull-off). The decision depends on forced-HOPO and
  forced-strum markers, chords, and the HOPO window taken from `song.ini`.
  The reader applies sysex codes as the loop is written. Whether `char` is
  signed on the platform is a parameter, `signedChars`.
- **The `.chart` text reader** (`src/NotesLoaderChart.cpp`):
  - the line tokeniser;
  - the difficulty names;
  - the header's resolution, HOPO window and tick count;
  - the note-section pass. This pass corrects overlapping sustains,
    demotes HOPOs that turn out to be chords to gems, and turns notes on
    tap rows into taps. A forced mark keeps the HOPOs of its row and makes
    every other cell of the row a gem. A note placed later within one
    tick of the mark has its HOPO decision inverted.
- **The storage life cycle of a `Steps` record** (`src/Steps.cpp`). Its
  note data lives in one of three places:
  - a filled grid;
  - the compressed SM text;
  - only on disk, behind a file name.

  An autogen record takes its grid from a parent. The model covers the
  hash, the setters and getters of both forms, `Decompress` and
  `Compress`, detaching from the parent, the loader dispatch on the file
  extension, the difficulty inference, edit-description truncation, and
  the one-shot radar cache.
- **A style's column tables** (`stepmania/src/Style.cpp`):
  - the track map behind a player's view of the grid;
  - the two lookups between game inputs and columns.

Shared representations:

- **The note grid** is a map from (track, row) to a note. An absent cell is
  the empty note.
- **`BeatToNoteRow(tick / resolution)`** is a function parameter, `rowOf`.
  Both classifiers decide on ticks, so their properties are stated in ticks.
- **C truncating division** is `CInt.Div`.
- **A `string`** is the byte sequence of the source's `std::string`, one
  `char` per byte. Lengths, `size()` and `Rage::head` therefore count
  bytes, and no UTF-8 text is decoded.
- **Collaborators of `Steps`** whose code is not part of this model are
  fields of the record `StepsStorage.Env`:
  - the game manager's track counts;
  - the SM-text codec and the string hash;
  - the autogen transforms;
  - the individual simfile loaders;
  - the radar calculation;
  - the step-editor flag.

  What the model needs from them is stated as hypotheses on `Env`
  (`LoadersFit`, `CodecRoundTrips`, `TransformsFit`). These appear as `requires` where they
  are used; they are not axioms.

Files:

- `common.dfy`: option type, C division, difficulties, `song.ini` settings, the grid.
- `chart_text.dfy`: tokeniser, `atoi`, difficulty names.
- `chart_header.dfy`, `chart_notes.dfy`: the `.chart` reader.
- `midi_events.dfy`, `midi_sysex.dfy`, `midi_organizer.dfy`, `midi_guitar.dfy`, `midi_tracks.dfy`: the MIDI loader.
- `steps.dfy`: `Steps`.
- `style.dfy`: `Style`.

## Model

| member | source | states |
|---|---|---|
| CInt.Div | src/NotesLoaderChart.cpp:196 | C `/` truncates toward zero: the magnitude is the quotient of the magnitudes, the sign is the product of the signs, and it agrees with floor division on non-negative operands |
| NoteGrid.Place | src/NotesLoaderMID.cpp:313-338 | `placeNote`: categories 1/2/3 write a tap, gem or HOPO at the start cell, held exactly when end > start; any other category writes the empty note; no other cell changes, and valid grids stay valid |
| NoteGrid.IntendedKeepsLength | src/NotesLoaderMID.cpp:313-338 | Re-placing a note with its own duration keeps that duration and gives the requested category |
| NoteGrid.RowTaps | src/NotesLoaderMID.cpp:422-429 | The notes of one row, column by column, as `addGHRBNote` copies them before it changes anything |
| ChartText.RemoveTabs | src/NotesLoaderChart.cpp:65-76 | The line without its tabs: no tab remains, and a line without tabs is unchanged |
| ChartText.GetLineWords | src/NotesLoaderChart.cpp:65-76 | `getLineWords`: every word is non-empty, contains no whitespace and no tab |
| ChartText.WordsKeepText | src/NotesLoaderChart.cpp:65-76 | Splitting loses no character: the words concatenated are the line's non-space characters |
| ChartText.NonSpaceDropsTabs | src/NotesLoaderChart.cpp:67-70 | Removing tabs before splitting changes no non-space character |
| ChartText.LineWordsKeepText | src/NotesLoaderChart.cpp:65-76 | The words of a line concatenated are exactly its non-whitespace characters |
| ChartText.WordsOfJoin | src/NotesLoaderChart.cpp:65-76 | Round trip: splitting words joined by single spaces gives the same words back |
| ChartText.LineWordsOfJoin | src/NotesLoaderChart.cpp:65-76 | Round trip through the whole tokeniser, tab removal included |
| ChartText.JoinHasNoTabs | src/NotesLoaderChart.cpp:65-76 | Words joined by spaces carry no tab |
| ChartText.Atoi | src/NotesLoaderChart.cpp:190-191 | C `atoi`: a leading digit gives a non-negative value, and a string that does not start with a sign, space or digit gives 0 |
| ChartText.AtoiOfIntToString | src/NotesLoaderChart.cpp:190-191 | Round trip: `atoi` of the decimal text of any integer, followed by anything that is not a digit, is that integer |
| ChartText.DifficultyToString | src/NotesLoaderChart.cpp:463-481 | `difficultyToString`: Easy, Medium, Hard and Challenge have names; every other difficulty is "Unknown" |
| ChartText.ParseDifficulty | src/NotesLoaderChart.cpp:483-496 | `parseDifficulty`: "Expert" anywhere gives Challenge; otherwise "Hard", then "Medium", then "Easy" decide in that order; Invalid exactly when none of the four occurs; a named result's name occurs in the string |
| ChartText.ParseDifficultyOfName | src/NotesLoaderChart.cpp:463-496 | Round trip: parsing the name of a named difficulty gives it back; "Unknown" parses as Invalid |
| ChartHeader.StripQuotes | src/NotesLoaderChart.cpp:307 | `substr(1, size-2)`: the value between the first and the last character |
| ChartHeader.StripQuotesOfQuoted | src/NotesLoaderChart.cpp:305-315 | Round trip: stripping a quoted value gives the value |
| ChartHeader.ChartHopoWindowAsWritten | src/NotesLoaderChart.cpp:334-376 | The HOPO window as the code computes it: frequencies 1 and 3 give 0; every other case agrees with the corrected table |
| ChartHeader.AsWrittenWindowCollapses | src/NotesLoaderChart.cpp:352-364 | As written, frequencies 1 and 3 give a window of 0 at every resolution; at resolution 480, frequency 1 gives a smaller window than frequency 2, where the comments promise 180 and 90 |
| ChartHeader.ChartHopoWindow | src/NotesLoaderChart.cpp:334-376 | The corrected window: resolution/4 without `song.ini`; the earlier window when the ini names no frequency; never above resolution/2 once a frequency is named |
| ChartHeader.ChartHopoWindowOrdered | src/NotesLoaderChart.cpp:345-370 | Corrected windows shrink from frequency 0 to 4; an unlisted frequency is frequency 2; no `song.ini` also gives the frequency-2 window |
| ChartHeader.WindowIgnoresPrior | src/NotesLoaderChart.cpp:334-376 | Without `song.ini`, or with a named frequency, the window does not depend on the earlier one, both as written and corrected |
| ChartHeader.TickCount | src/NotesLoaderChart.cpp:378-381 | The tick-count segment is the resolution capped at 48, and equals the resolution exactly when that is at most 48 |
| ChartHeader.QuotedValue | src/NotesLoaderChart.cpp:297-303 | The third word onwards, joined and stripped of its quotes, loses only the two quote characters |
| ChartHeader.HeaderLine | src/NotesLoaderChart.cpp:305-404 | Only a `Resolution` line changes the resolution or the window, which is then the as-written window (0 for frequencies 1 and 3) and the tick count for that resolution; without song parsing the title, artist and tick count are untouched; unknown keys change nothing |
| ChartHeader.ReadHeader | src/NotesLoaderChart.cpp:285-405 | The resolution is that of the last `Resolution` line before the closing brace, or the starting one; the tick count always belongs to the current resolution; the window is the starting one or the as-written window of the current resolution |
| ChartHeader.ParseHeader | src/NotesLoaderChart.cpp:279-407 | From the defaults 192/120 of `ReadBuf`: the resolution is that of the last `Resolution` line, or 192; a tick count appears only when song info is parsed and is at most 48; the window is the default or the as-written window for the final resolution |
| ChartNotes.AddNote | src/NotesLoaderChart.cpp:38-63 | `addNote`: categories 1..3 as `placeNote`, held exactly when end > start; any other category leaves the grid unchanged; only the start cell changes |
| ChartNotes.Initial | src/NotesLoaderChart.cpp:84-101 | Six tracks, every previous mark and length -1, no HOPO flags, no forced, tap or chord row |
| ChartNotes.FlipCell | src/NotesLoaderChart.cpp:132-137 | One cell of a forced row becomes a HOPO if it was one and a gem otherwise, with its length; nothing else changes |
| ChartNotes.Reclassify | src/NotesLoaderChart.cpp:132-137 | The forced-row loop changes only columns l..4 of that row |
| ChartNotes.ReclassifyValues | src/NotesLoaderChart.cpp:132-137 | After the forced-row loop every column 0..4 holds its flipped note, empty cells included |
| ChartNotes.TapCell | src/NotesLoaderChart.cpp:148-155 | One cell of a tap row becomes a tap of the same length if it holds a note; an empty cell stays empty |
| ChartNotes.Retap | src/NotesLoaderChart.cpp:148-155 | The tap-row loop changes only columns l..4 of that row |
| ChartNotes.RetapValues | src/NotesLoaderChart.cpp:148-155 | After the tap-row loop every occupied column 0..4 is a tap of its length |
| ChartNotes.ForcedRow | src/NotesLoaderChart.cpp:124-137 | "E *" and "N 5": record the forced mark, flip every column of the row, and change no other cell or per-column state |
| ChartNotes.TapRow | src/NotesLoaderChart.cpp:141-156 | "E T": record the tap mark, turn the row's notes into taps, and change nothing else |
| ChartNotes.Sustain | src/NotesLoaderChart.cpp:190-201 | When prevMark + prevLength + 1 >= mark, the earlier note is rewritten (HOPO if it was) ending resolution/8 before the new mark, and its length is recorded; otherwise nothing changes |
| ChartNotes.DemoteColumn | src/NotesLoaderChart.cpp:205-214 | Chord demotion of one column: a HOPO on another column within a tick becomes a gem of its length, loses its flag, and sets the chord row |
| ChartNotes.Demote | src/NotesLoaderChart.cpp:205-214 | Over all columns: exactly the demoted flags are cleared; the chord row moves to the mark iff some column is demoted; only demoted notes change |
| ChartNotes.DemoteGems | src/NotesLoaderChart.cpp:205-214 | Every demoted HOPO is rewritten as a gem of its recorded length |
| ChartNotes.HopoScanFrom | src/NotesLoaderChart.cpp:234-256 | The search loop from column k with its two early exits, as a closed formula |
| ChartNotes.HopoScan | src/NotesLoaderChart.cpp:234-256 | The search loop from column k: it answers HOPO only when a column from k on is a HOPO partner (or one was already found), no previous mark from k on is within a tick, and, when any column is examined, the note follows no chord it was part of and no chord row is within a tick |
| ChartNotes.HopoScanMeaning | src/NotesLoaderChart.cpp:232-256 | The loop decides exactly `ShouldBeHopo`: no column and no chord row within a tick, not following its own chord, and some column inside the HOPO window while the note changes column |
| ChartNotes.PlaceNew | src/NotesLoaderChart.cpp:216-265 | Near a tap row the note is a tap and its flag is cleared; otherwise it is a HOPO iff `ShouldBeHopo` differs from "near a forced row", and the flag records that |
| ChartNotes.NoteLineStages | src/NotesLoaderChart.cpp:190-265 | A note line is sustain correction, then chord demotion, then placing the new note |
| ChartNotes.NoteLine | src/NotesLoaderChart.cpp:190-269 | After a note line the note becomes its column's previous mark and length and the previous track; forced and tap rows are untouched |
| ChartNotes.NoteLineNewNote | src/NotesLoaderChart.cpp:216-268 | The new note of a whole line: a tap near a tap row; otherwise a HOPO exactly when `ShouldBeHopo` of the state before the line differs from "near a forced row" |
| ChartNotes.NoteLineDemotionFlags | src/NotesLoaderChart.cpp:205-214 | Over a whole line, other columns lose their HOPO flag exactly when demoted, and the chord row moves iff a column is demoted |
| ChartNotes.NoteLineDemotionNotes | src/NotesLoaderChart.cpp:205-214 | Over a whole line, every demoted HOPO ends up a gem of its recorded length |
| ChartNotes.NoteLineSustain | src/NotesLoaderChart.cpp:193-201 | Over a whole line, an overlapping earlier note on the column ends resolution/8 before the new mark |
| ChartNotes.NoteLineFrame | src/NotesLoaderChart.cpp:190-269 | A note line changes no cell except the new note, its column's previous note, and demoted notes |
| ChartNotes.ChordRowKeepsDecision | src/NotesLoaderChart.cpp:209 | Moving the chord row during demotion never changes the new note's HOPO decision |
| ChartNotes.SameColumnNeverHopo | src/NotesLoaderChart.cpp:237 | A note on the same column as the note just before it is a HOPO iff a forced row is within a tick |
| ChartNotes.ChordNeverHopo | src/NotesLoaderChart.cpp:241-259 | A note within a tick of any previous mark or of the chord row is a HOPO iff a forced row is within a tick |
| ChartNotes.TapRowOverrides | src/NotesLoaderChart.cpp:217-222 | Near a tap row the new note is a tap or tap hold and its HOPO flag is cleared, whatever the HOPO rules or forced rows say |
| ChartNotes.NoteSectionLine | src/NotesLoaderChart.cpp:121-270 | One content line keeps the reader's invariant (six tracks, valid notes, frets only); a line that is neither "E" nor "N" changes nothing |
| ChartNotes.ReadSection | src/NotesLoaderChart.cpp:107-272 | The section loop keeps the invariant through skipped braces and content lines until the end or a closing brace |
| ChartNotes.ParseNoteSection | src/NotesLoaderChart.cpp:78-275 | `parseNoteSection`: six tracks, every note valid, nothing ever written to the sixth track |
| MidiEvents.SafeTimeSignature | src/NotesLoaderMID.cpp:710-714 | A zero numerator or denominator becomes 4, and a non-zero one is kept |
| MidiSysex.CharValue | src/NotesLoaderMID.cpp:32 | A payload byte read as `char`: negative for bytes 0x80 and up where `char` is signed, the byte itself otherwise |
| MidiSysex.DifficultyCode | src/NotesLoaderMID.cpp:61-65 | Only Easy, Medium, Hard and Challenge have an open-note difficulty byte |
| MidiSysex.DifficultyCodeInjective | src/NotesLoaderMID.cpp:40-43 | Different difficulties have different bytes |
| MidiSysex.TranslateSysex | src/NotesLoaderMID.cpp:32-84 | `translateSysex`: -1 or 1..4; anything but -1 needs the header 50 53 00 00; codes 1/2 need FF 04; codes 3/4 need 01 and the difficulty's byte; stop codes need 00 F7. Conversely, with the header: bytes 4-5 selecting no message give -1; a selected message gives its start code unless byte 7 reads as F7; then byte 6 = 00 gives the stop code, 01 the start code, anything else -1 |
| MidiSysex.HeaderFacts | src/NotesLoaderMID.cpp:49-52 | A readable payload whose header matches has the common header and bytes 4-5, and bytes 6-7 too when bytes 4-5 select a message |
| MidiSysex.BadHeaderIgnored | src/NotesLoaderMID.cpp:49-52 | A payload with any other header is ignored |
| MidiSysex.EncodeSysex | src/NotesLoaderMID.cpp:36-46 | The eight-byte message for a tap or open-note start or stop: header, indicator, difficulty, trailer F7 |
| MidiSysex.DecodeEncodeUnsigned | src/NotesLoaderMID.cpp:32-84 | Round trip with unsigned bytes: each message decodes to its own code; an open-note message for another difficulty is ignored |
| MidiSysex.DecodeEncodeSigned | src/NotesLoaderMID.cpp:57-80 | With signed `char` the round trip fails: tap messages are ignored, and an open-note stop reads as a start |
| MidiSysex.ApplySysexCode | src/NotesLoaderMID.cpp:575-582 | The event loop as written: codes above 2 set the tap section, codes 1 and 2 the open section, odd codes switch on |
| MidiSysex.OpenMessagesDriveTapSection | src/NotesLoaderMID.cpp:575-582 | As written, open-note start and stop messages switch the tap section |
| MidiSysex.TapMessagesDriveOpenSection | src/NotesLoaderMID.cpp:575-582 | As written, tap start and stop messages switch the open-note section |
| MidiSysex.ApplySysexCodeIntended | src/NotesLoaderMID.cpp:26-31 | The corrected loop: only tap codes change the tap section and only open-note codes change the open section |
| MidiSysex.MessagesDriveTheirSections | src/NotesLoaderMID.cpp:26-84 | Every message, decoded and applied, does what its name says: tap start/stop set/clear the tap section; open start/stop for the loaded difficulty set/clear the open section; other difficulties change nothing |
| MidiOrganizer.CompareToString | src/NotesLoaderMID.cpp:166-177 | `compareToString` is true exactly when the NUL-terminated buffer equals the string |
| MidiOrganizer.FirstImportant | src/NotesLoaderMID.cpp:210-215 | The skip loop stops at the first track name, tempo or time signature |
| MidiOrganizer.UnknownNameThenNote | src/NotesLoaderMID.cpp:261-272 | A track with an unrecognised name followed by a note event is read: it becomes the other track and the beat track is untouched |
| MidiOrganizer.OrganizeMidi | src/NotesLoaderMID.cpp:179-280 | `organizeMidi`: the rule set is never Unknown; a one-track file is guitar and beat with GH rules; otherwise RB rules iff some track is drums or vocals, and six frets iff some track is a GHL part |
| MidiOrganizer.ScanTrackRules | src/NotesLoaderMID.cpp:241-253 | One track makes the rules RB iff they were or the track is drums or vocals; it never makes them GH |
| MidiOrganizer.ScanTrackFrets | src/NotesLoaderMID.cpp:225-236 | One track makes the chart six-fret iff it was or the track is a GHL part |
| MidiOrganizer.ScanDownRules | src/NotesLoaderMID.cpp:204-274 | Over the tracks scanned: RB iff it started RB or some scanned track is drums or vocals |
| MidiOrganizer.ScanTrack | src/NotesLoaderMID.cpp:206-273 | One pass of the track loop: a track that does not start with a meta event changes nothing, and a track never sets or clears GH rules |
| MidiOrganizer.ScanTrackFrame | src/NotesLoaderMID.cpp:206-273 | Each role is assigned only by a track carrying it: guitar, bass, drums, vocals, events, venue and the unknown track are left alone by every other track |
| MidiOrganizer.ScanDown | src/NotesLoaderMID.cpp:204-274 | Tracks n-1 down to 0: the scan never sets or clears GH rules, which only the default after the loop chooses |
| MidiOrganizer.ScanDownFrets | src/NotesLoaderMID.cpp:204-274 | Over the tracks scanned: six frets iff it started so or some scanned track is a GHL part |
| MidiOrganizer.ScanTrackGuitar | src/NotesLoaderMID.cpp:221-227 | A guitar-named track becomes the guitar track at its name event; other tracks leave it |
| MidiOrganizer.ScanDownGuitarNamed | src/NotesLoaderMID.cpp:204-274 | The guitar track chosen always carries a guitar name; there is none iff none was given and no scanned track has one |
| MidiOrganizer.GuitarTrackIsNamed | src/NotesLoaderMID.cpp:179-280 | In a file of several tracks the guitar track is guitar-named, and absent exactly when no track is |
| MidiGuitar.NoteRange | src/NotesLoaderMID.cpp:283-307 | Pitch windows [60,66], [72,78], [84,90], [96,102], with the lower bound 2 less for six frets; other difficulties get (0, 0) |
| MidiGuitar.RemapColumn | src/NotesLoaderMID.cpp:413-417 | Six-fret charts (seven columns) shift MIDI columns 0..6 down by one, so the open note, MIDI column 0, becomes -1; the forced markers 7 and 8 and every five-fret column stay put |
| MidiGuitar.NoteColumn | src/NotesLoaderMID.cpp:473-474 | Inside an open section, and for a six-fret open note, the note goes to the last (open) column; otherwise to its own column, which stays within the grid |
| MidiGuitar.NoteRangesDisjoint | src/NotesLoaderMID.cpp:283-307 | The windows of successive difficulties do not overlap |
| MidiGuitar.NewGuitarData | src/NotesLoaderMID.cpp:133-157 | `getNewGuitarData`: every previous mark and marker -1, no section open, the given resolution, window, rules and frets |
| MidiGuitar.WindowScan | src/NotesLoaderMID.cpp:355-380 | The scan finds whether some column is inside the window, and the latest previous mark and its column |
| MidiGuitar.CheckHopoConditions | src/NotesLoaderMID.cpp:341-394 | `checkHOPOConditions` in full: a forced strum gives false; then a forced HOPO gives true; then a chord row gives false; else true iff another column's previous note is inside the window, except under RB rules when this column holds the latest mark |
| MidiGuitar.Highest | src/NotesLoaderMID.cpp:422-429 | The highest occupied column of the row, or -1 exactly when the row is empty |
| MidiGuitar.ForceHopoRow | src/NotesLoaderMID.cpp:435-451 | On a forced-HOPO row the highest note becomes a HOPO of its length and every other note is removed; only that row changes |
| MidiGuitar.ForceStrumRow | src/NotesLoaderMID.cpp:459-467 | On a forced-strum row every note becomes a gem of its length; empty cells stay empty; only that row changes |
| MidiGuitar.RealEnd | src/NotesLoaderMID.cpp:404-412 | A note longer than resolution/2 ends resolution/8 early; a shorter one ends at its start (not held) |
| MidiGuitar.ForcedHopoNote | src/NotesLoaderMID.cpp:432-454 | A forced-HOPO marker rewrites its row and records the forced mark; it never touches the previous-note state |
| MidiGuitar.ForcedStrumNote | src/NotesLoaderMID.cpp:456-470 | A forced-strum marker rewrites its row and records the forced mark; it never touches the previous-note state |
| MidiGuitar.NormalNote | src/NotesLoaderMID.cpp:476-529 | A normal note keeps the state valid and changes only its own row |
| MidiGuitar.Record | src/NotesLoaderMID.cpp:527-528 | The note becomes its column's previous mark and the previous track; other columns keep theirs |
| MidiGuitar.AddGhrbNote | src/NotesLoaderMID.cpp:397-533 | `addGHRBNote` keeps the state valid, keeps the grid valid, and changes only the note's row |
| MidiGuitar.TapSectionPlacesTaps | src/NotesLoaderMID.cpp:476-480 | In a tap section a normal note is category 1 and becomes its column's previous mark |
| MidiGuitar.LoneNoteFollowsHopoTest | src/NotesLoaderMID.cpp:518-523 | A normal note on an empty row outside a tap section is a HOPO exactly when `checkHOPOConditions` says so, and a gem otherwise |
| MidiGuitar.ChordRowMakesGems | src/NotesLoaderMID.cpp:484-517 | A note joining an occupied row (not forced) is a gem, the row's highest note is no HOPO any more, and the row becomes the chord row |
| MidiGuitar.ForcedChordKeepsHighest | src/NotesLoaderMID.cpp:489-504 | On a forced-HOPO chord a lower note is dropped with no change at all; a higher one replaces the highest note and inherits its HOPO-ness |
| MidiTracks.GhrbRelease | src/NotesLoaderMID.cpp:598-615 | A release with no open note, or at or before its start, changes nothing and the note stays open; a later release closes the slot and adds the note exactly as `addGHRBNote` does from the start tick to the release tick |
| MidiTracks.GhrbStep | src/NotesLoaderMID.cpp:570-618 | Pitches outside the window and non-note, non-sysex events change nothing; a note-on opens a slot only if it is free; a release (note-off, or note-on with velocity 0) after the slot's start closes the slot and adds the note through `addGHRBNote`, and any other release changes nothing; sysex changes only the sections, decoded with the platform's `char` and applied as the loop is written |
| MidiTracks.SysexStepSetsSections | src/NotesLoaderMID.cpp:571-583 | In the reader a message changes only the sections, as `MidiSysex.AsWrittenEffect` lists. With unsigned `char`, open-note messages for the loaded difficulty drive the tap section and tap messages drive the open-note section. With signed `char`, tap messages are ignored and both open-note messages switch the tap section on |
| MidiSysex.MessagesAsWritten | src/NotesLoaderMID.cpp:32-84 | Decoding and applying each message on either platform gives the message-by-message effect `AsWrittenEffect`, which is written independently of the code table |
| MidiTracks.GhrbFold | src/NotesLoaderMID.cpp:568-621 | The event loop keeps the state valid and the grid well formed |
| MidiTracks.GhrbNotesFromTrack | src/NotesLoaderMID.cpp:539-626 | `getGHRBNotesFromTrack`: 6 or 7 tracks by fret type, a valid grid, and a blank grid for an empty track; sysex handling as written, for either signedness of `char` |
| MidiTracks.RelevantOnly | src/NotesLoaderMID.cpp:584-589 | The sysex events and in-window note events of a track, in order |
| MidiTracks.IrrelevantEventsIgnored | src/NotesLoaderMID.cpp:584-589 | Reading a track gives the same result as reading only its sysex events and in-window notes |
| MidiTracks.GenericStep | src/NotesLoaderMID.cpp:645-679 | Non-note events change nothing; a note-on opens column pitch mod cols if that is free; a note-off of an open column ending on a later row frees it and writes, at the start row and nowhere else, a hold of the spanned rows under 24 rows or else a tap; a note-off on the same or an earlier row, or of a free column, changes nothing |
| MidiTracks.GenericPressRelease | src/NotesLoaderMID.cpp:631-684 | On an empty track, a press and a later release give exactly one note in column pitch mod cols at the press row, a hold under 24 rows and a tap from 24 on; a release on no later row leaves the track empty |
| MidiTracks.GenericFold | src/NotesLoaderMID.cpp:643-681 | The event loop keeps the grid valid and every note a tap or a short hold |
| MidiTracks.GenericNotesFromTrack | src/NotesLoaderMID.cpp:631-684 | `getGenericNotesFromTrack`: `cols` tracks, valid notes, each a tap or a hold of fewer than 24 rows |
| MidiTracks.MidiHopoWindow | src/NotesLoaderMID.cpp:750-794 | `parseINI`'s window: resolution/3 + 10 without `song.ini`; the earlier window when the ini names no frequency |
| MidiTracks.MidiLoaderHopoWindow | src/NotesLoaderMID.cpp:972-976 | The loader starts from resolution/3 + 10, so without `song.ini`, or with one naming no frequency, the window is resolution/3 + 10, halved by `eighthnote_hopo = 1` |
| MidiTracks.MidiEighthNoteHalves | src/NotesLoaderMID.cpp:792-794 | `eighthnote_hopo = 1` halves the window the frequency chose; `0` leaves it |
| MidiTracks.MidiHopoWindowOrdered | src/NotesLoaderMID.cpp:754-789 | Frequencies 0, 1, 2, 3, 5 give ever wider windows; an unlisted frequency, or none, behaves as frequency 2 |
| StepsStorage.GetSMNoteData | src/Steps.cpp:227-242 | "" when there is neither text nor grid; the stored text when there is one; else the grid's encoding, which is then cached and nothing else changes |
| StepsStorage.SetSMNoteData | src/Steps.cpp:217-224 | The grid is emptied and unfilled, the text stored, the hash reset; the parent and metadata are kept |
| StepsStorage.SMNoteDataRoundTrip | src/Steps.cpp:217-242 | Round trip: the text just set is the text read back, and reading it changes nothing |
| StepsStorage.GetSMNoteDataIdempotent | src/Steps.cpp:227-242 | Reading the text twice gives the same text and the same record |
| StepsStorage.GetHash | src/Steps.cpp:84-98 | Precedence: the parent's hash; a cached hash; 0 with no data; else the hash of the text, caching text and hash and nothing else |
| StepsStorage.AutogenHashIsRootHash | src/Steps.cpp:86-87 | An autogen record's hash is that of the root of its parent chain |
| StepsStorage.GetHashIdempotent | src/Steps.cpp:84-98 | Asking for the hash twice gives the same hash and record |
| StepsStorage.RunLoader | src/Steps.cpp:116 | A loader that fails leaves the record; one that succeeds stores its text or grid and resets the hash, keeping identity and radar flag |
| StepsStorage.Lower | src/Steps.cpp:110 | `make_lower` lowers A-Z and keeps every other character, at the same length |
| StepsStorage.ReplaceAll | src/Steps.cpp:129 | A path that does not contain the pattern is unchanged |
| StepsStorage.FallbackPathUnchanged | src/Steps.cpp:127-131 | The SM fallback tries a path without `.ssc` unchanged |
| StepsStorage.GetNoteDataFromSimfile | src/Steps.cpp:105-180 | A failed load leaves the record as it was; a load never changes identity, parentless metadata or the radar flag |
| StepsStorage.DispatchTable | src/Steps.cpp:110-179 | Which loaders each lower-cased extension tries, in order and on which path, with `.ssc` replaced by `.sm` for the SSC fallback and `false` for any other extension |
| StepsStorage.FromCompressed | src/Steps.cpp:443-455 | Non-empty text is decoded with the type's track count into a filled grid; empty text changes nothing |
| StepsStorage.Decompress | src/Steps.cpp:387-456 | No-op when filled; always filled with a parent; a record with neither file nor text is unchanged; text is decoded; with only a file name, a failed disk load leaves the record as it was and a successful one decodes the loaded text; parent, metadata and identity are kept |
| StepsStorage.Autogen | src/Steps.cpp:400-425 | The lights cabinet takes the lights copy and kickbox types the kickbox generator; under `TransformsFit` the grid has the steps type's track count |
| StepsStorage.GetNoteData | src/Steps.cpp:195-208 | The filled grid, or a blank grid of the type's width when decompression leaves none |
| StepsStorage.DecompressIdempotent | src/Steps.cpp:389-390 | Decompressing twice is decompressing once, including after a disk load |
| StepsStorage.DecompressReloads | src/Steps.cpp:430-441 | A disk load that leaves neither text nor grid leaves a record whose next decompression does the same |
| StepsStorage.LoadKeepsShape | src/Steps.cpp:430-441 | Such a load leaves the record as it was, with the grid emptied and the hash reset |
| StepsStorage.LoadOfSamePath | src/Steps.cpp:430-441 | Loading again from the loaded record's path is a fixed point of `Decompress` |
| StepsStorage.Compress | src/Steps.cpp:458-499 | Lights with a grid keep it and drop the text; otherwise in the editor nothing happens; otherwise the grid is dropped; a record with its own file, not from a profile, drops the text too; without an own file (or from a profile) the text is the grid's encoding; hash and parent never change |
| StepsStorage.CompressRoundTrip | src/Steps.cpp:490-498 | For a parentless record with no own file (or from a profile), given the codec round trip, `GetNoteData` after `Compress` is the grid before |
| StepsStorage.Detach | src/Steps.cpp:511-517 | The parent's description, style, difficulty, meter, radar values and credit are copied, and the parent is dropped |
| StepsStorage.DeAutogen | src/Steps.cpp:503-521 | No-op without a parent; otherwise detach, and with `bCopyNoteData` decompress first and compress after |
| StepsStorage.DeAutogenKeepsNotes | src/Steps.cpp:503-521 | Copying the parent's data keeps the notes: under the codec and transform hypotheses, an autogen record without text of its own or an own file reads after `DeAutogen(true)` the grid it read through its parent |
| StepsStorage.SetNoteData | src/Steps.cpp:182-193 | Detached, filled with the new grid, text cleared, hash 0, parent's metadata copied |
| StepsStorage.SetNoteDataRoundTrip | src/Steps.cpp:182-215 | Round trip: the grid set is the grid read back, and the hash is that of its encoding |
| StepsStorage.SetSMNoteDataHash | src/Steps.cpp:84-98 | After setting the text the hash is the hash of that text |
| StepsStorage.DifficultyForMeter | src/Steps.cpp:293-299 | Meter 1 is Beginner, up to 3 Easy, up to 6 Medium, else Hard: Beginner iff 1, Hard iff above 6 |
| StepsStorage.MeterOrdersDifficulty | src/Steps.cpp:295-298 | A higher meter never gives a lower difficulty; a meter below 1 gives Easy |
| StepsStorage.TidyDifficulty | src/Steps.cpp:290-299 | A valid difficulty is kept; else the description's difficulty if valid; else the meter's; never Invalid |
| StepsStorage.TidyDifficultyIdempotent | src/Steps.cpp:290-299 | Tidying twice is tidying once |
| StepsStorage.MakeValidEditDescription | src/Steps.cpp:580-588 | Truncated to the maximum length in bytes, returning true iff it was longer; the result is a prefix of the original |
| StepsStorage.EditDescriptionIdempotent | src/Steps.cpp:580-588 | A valid description is left alone and reported unchanged |
| StepsStorage.CalculateRadarValues | src/Steps.cpp:305-327 | No-op with a parent; just-loaded cached values are kept once and the flag cleared; otherwise values are computed from the grid |
| StepsStorage.SetCachedRadarValues | src/Steps.cpp:635-640 | Detach, store the values, mark them just loaded |
| StepsStorage.RadarSkippedOnce | src/Steps.cpp:309-316 | Cached values survive exactly one calculation; the next computes them from the grid |
| StyleColumns.TransformGuardOffByOne | stepmania/src/Style.cpp:26 | The written guard admits player 2, which has no table row; the corrected guard admits exactly the rows there are |
| StyleColumns.TrackMap | stepmania/src/Style.cpp:28-33 | `iNewToOriginalTrack`: one entry per column, each the track of the player's column |
| StyleColumns.GetTransformedNoteDataForStyle | stepmania/src/Style.cpp:24-36 | `colsPerPlayer` tracks; column c shows the track its column info names, empty when that track does not exist |
| StyleColumns.SharedTrackSameNotes | stepmania/src/Style.cpp:28-35 | Two columns fed by the same track show the same notes |
| StyleColumns.GameInputToColumn | stepmania/src/Style.cpp:57-67 | A column iff the entry is not `NO_MAPPING` and no entry up to the button is `END_MAPPING`; the column is then the entry |
| StyleColumns.StyleInputToGameInput | stepmania/src/Style.cpp:38-55 | The first button in scan order that plays the column, among the scanned buttons (own controller only for one-side styles, before the end mark); none means no scanned button plays it |
| StyleColumns.InputRoundTrip | stepmania/src/Style.cpp:38-67 | Round trip: a scanned button playing column c (not `NO_MAPPING`) maps back to c |
| StyleColumns.FindsEveryColumn | stepmania/src/Style.cpp:38-67 | Completeness: for every scanned button with a column, the scan for that column finds it or an earlier button with the same column |

## Left out

- File and directory I/O is not modelled: `ReadFile`, `ReadBuf`'s walk over the sections of a file, `LoadFromDir`, `getMusicFiles`, `createLyricsFile`. `ReadBuf`'s starting resolution 192 and window 120 are kept, in `ChartHeader.InitialHeader`.
- `song.ini` is read by `IniFile`, which is not part of this model. Its `hopofreq` and `eighthnote_hopo` values are the parameter `SongIni`. The artist, name and frets values of `parseINI` are not modelled.
- MIDI byte parsing (`MidiFile`) is not part of this model. A track is a sequence of `MidiEvent` values.
- Floating point is not modelled:
  - `atof` offsets, previews and BPMs;
  - `PredictMeter`, `GetDisplayBpms`, `HasSignificantTimingChanges`, `GetMinAndMaxColX`, `getTimeString`.
- `BeatToNoteRow` is the parameter `rowOf`. Nothing is assumed about it.
- MidiTracks.MidiHopoWindow: frequency 4 computes `resolution / 1.5` in floating point. Its integer result is the parameter `mostHopos`, so no contract covers that case.
- NoteGrid.LoadTransformed: `NoteData::LoadTransformed` is not part of this model. A track-map entry naming no track of the original is assumed to give an empty track, and so is the matching clause of `StyleColumns.GetTransformedNoteDataForStyle`.
- `TimingData` segment construction is not modelled (`parseBeatTrack`, `parseEventTrack`, `parseSyncTrack`, `parseEvents`). The only part kept is the replacement of a zero time-signature field by 4, in `MidiEvents.SafeTimeSignature`.
- `NoteData` and `NoteDataUtil` are not part of this model:
  - `NoteData`'s hold bookkeeping (merging and clearing cells under a hold) is not modelled. A hold is its head cell with a duration.
  - `placeNote`/`addNote` with the empty note is simplified: it clears the cell.
  - The SM-text codec, the hash, and the autogen transforms (sliding window, stretch removal, lights, kickbox) are functions in `StepsStorage.Env`.
  - The radar calculation (composite, couple and single cases) is also a function in `StepsStorage.Env`.
  - The codec round trip is the hypothesis `CodecRoundTrips`.
  - The autogen transforms' track counts are the hypothesis `TransformsFit`: the lights and sliding-window copies give the count they are asked for, the kickbox generator that of its steps type, and stretch removal keeps the count.
- The kickbox autogen's timing-data and radar inputs are folded into `Env.kickbox`.
- `GAMEMAN`, `GAMESTATE` and `INPUTMAPPER` are parameters: the track counts, `m_bInStepEditor`, and the buttons per controller. `LOG` warnings are dropped.
- Steps.h is not part of this model. Three things from it are assumed:
  - `DeAutogen()` defaults to copying the note data;
  - `Real()` is the parent;
  - `MAX_STEPS_DESCRIPTION_LENGTH` is the parameter `maxLength`.
- The individual simfile loaders are not part of this model. A loader that fails is assumed to leave the record unchanged. `GetExtension` is the parameter `extensionOf`, and `Rage::replace` is taken to replace every occurrence.
- The parent is held by value. The cache a parent fills while its child decompresses is not written back to the parent.
- The parts of `TidyUpData` outside the difficulty inference are not modelled: the steps-type name, the meter prediction and the warning.
- These `Steps` members are not modelled, because none of them decides where the note data lives: `AutogenFrom`, `CopyFrom`, `CreateBlank`, the metadata setters other than through `DeAutogen`, `GetMusicPath`, `HasAttacks` and `ChangeFilenamesForCustomSong`.
- `FAIL_M` in `StyleInputToGameInput` is modelled as `None`.
- Lua bindings, `ColToButtonName` and memory management are not modelled.
- Input on which the source has undefined behaviour is excluded by preconditions:
  - `ChartNotes.LineReadable` excludes note lines with too few words or a track outside 0..5.
  - `ChartHeader.HeaderLineReadable` excludes `Resolution` lines, and with song parsing also `Offset`, `PreviewStart` and `PreviewEnd` lines, that have no third word: the source then indexes past its words.
  - `MidiOrganizer.Scannable` excludes three cases. A track that starts with a meta event but has no track name, tempo or time signature makes the skip loop run off the track. A track name without a NUL is read past its buffer. An unrecognised name on the last event makes the source follow a null `pNext`.
  - `MidiSysex.Readable` excludes a sysex payload the decoder would read past: one that ends before its first header mismatch, one with the full header but fewer than 6 bytes, and one whose bytes 4-5 select a message but that has fewer than 8 bytes.
- The header's `Difficulty` line is ignored, as in the source.
- ChartHeader.HeaderLine: the `std::out_of_range` exception is dropped. `Name`, `Charter`, `MusicStream` and (with song parsing) `Artist` lines with only two words make `substr(1, …)` on an empty value throw it. `ChartHeader.HeaderLineReadable` excludes these lines instead of modelling the exception.
- ChartText.Atoi: overflow is not modelled. It is undefined in C, and the model's value is unbounded.
- MidiOrganizer.ScanTrack: `MidiFile.h` is not part of this model. The source reads `subType` from whatever event it reaches. The model takes a non-meta event's `subType` never to equal the track-name, tempo or time-signature code.
- MidiTracks.GhrbNotesFromTrack: its contract states the shape of the grid only. The per-note behaviour is stated per step, by `MidiTracks.GhrbStep`, `MidiGuitar.AddGhrbNote` and the lemmas next to them.
- MidiTracks.GenericNotesFromTrack: its contract states the shape of every note. Which note each press and release produce is stated per step by `MidiTracks.GenericStep`, and for one note by `MidiTracks.GenericPressRelease`.
- ChartNotes.ParseNoteSection: its contract states the grid invariant. The HOPO, chord, sustain, forced and tap rules are stated per line, by the `NoteLine…` lemmas, `ChartNotes.ForcedRow` and `ChartNotes.TapRow`.
- ChartHeader.ParseHeader: its window contract allows the default window. A file with no `Resolution` line keeps 192/120.

## Findings

| source | as written | input that shows it | evidently intended | confidence | as-written member | corrected member |
|---|---|---|---|---|---|---|
| src/NotesLoaderChart.cpp:354-363 | `*resolution * (3 / 8)` and `*resolution * (3 / 16)`: integer `3/8` and `3/16` are 0, so the window is 0 | `hopofreq = 1` at resolution 480 gives a window of 0 | 3/8 and 3/16 of the resolution, as the comments give it (about 180 and 90 at 480) | high; not executed | ChartHeader.ChartHopoWindowAsWritten, ChartHeader.AsWrittenWindowCollapses | ChartHeader.ChartHopoWindow, ChartHeader.ChartHopoWindowOrdered |
| stepmania/src/Style.cpp:26 | `ASSERT(pn >= 0 && pn <= NUM_PLAYERS)` | `pn = 2` passes the assertion and reads `m_ColumnInfo[2]`, past the two player rows | `pn < NUM_PLAYERS`, as `StyleInputToGameInput` asserts at line 40 | high; not executed | StyleColumns.TransformGuardAsWritten, StyleColumns.TransformGuardOffByOne | StyleColumns.TransformGuard, StyleColumns.GetTransformedNoteDataForStyle |
| src/NotesLoaderMID.cpp:575-582 | Codes above 2 set the tap section and codes 1/2 the open section; `translateSysex` returns 1/2 for tap messages and 3/4 for open-note messages | The open-note start message 50 53 00 00 03 01 01 F7 on Expert turns the tap section on | Tap messages drive the tap section and open-note messages the open section, as the table at lines 26-31 says | medium; not executed | MidiSysex.ApplySysexCode, MidiSysex.OpenMessagesDriveTapSection, MidiTracks.SysexStepSetsSections | MidiSysex.ApplySysexCodeIntended, MidiSysex.MessagesDriveTheirSections |
| src/NotesLoaderMID.cpp:57-75 | The payload is `const char *`; it is compared with `unsigned char` constants 0xFF and 0xF7 | Where `char` is signed, the tap start message 50 53 00 00 FF 04 01 F7 gives -1, and an open-note stop gives 3 | The bytes compared as unsigned values, so every message decodes to its code | medium; not executed | MidiSysex.TranslateSysex, MidiSysex.DecodeEncodeSigned | MidiSysex.DecodeEncodeUnsigned |

=== FILE: chart_header.dfy ===
/** The `[Song]` section of a `.chart` file (`parseHeader`): the title,
    charter and music file, the resolution in ticks per beat, the HOPO
    window derived from it and `song.ini`, and the tick-count segment. */
module ChartHeader {
  import opened Wrappers
  import opened CInt
  import opened IniSettings
  import opened ChartText
  import opened ChartNotes

  /** `wholeString.substr(1, wholeString.size() - 2)`: the text between the
      first and the last character, which are the quotes around a value.  A
      single character gives the empty string. */
  function StripQuotes(s: string): (r: string)
    requires |s| >= 1
    ensures |s| >= 2 ==> s == [s[0]] + r + [s[|s| - 1]]
    ensures |s| == 1 ==> r == ""
  {
    if |s| == 1 then "" else s[1..|s| - 1]
  }

  /** A quoted value is read back without its quotes. */
  lemma StripQuotesOfQuoted(x: string)
    ensures StripQuotes("\"" + x + "\"") == x
  {
    var s := "\"" + x + "\"";
    assert s[1..|s| - 1] == x;
  }

  /** `parseHeader`'s HOPO window as written.  For frequencies 1 and 3 the
      factor `3 / 8` (and `3 / 16`) is integer division and already 0, so
      the window is 0 whatever the resolution. */
  function ChartHopoWindowAsWritten(resolution: int, prior: int, ini: SongIni): (w: int)
    ensures ini.Ini? && ini.hopofreq in {Some(1), Some(3)} ==> w == 0
    ensures ini.Ini? && ini.hopofreq !in {Some(1), Some(3)} ==> w == ChartHopoWindow(resolution, prior, ini)
    ensures ini.NoIni? ==> w == ChartHopoWindow(resolution, prior, ini)
  {
    match ini
    case NoIni => Div(resolution, 4)
    case Ini(freq, eighth) =>
      var w0 :=
        if freq.None? then prior
        else match freq.value
          case 0 => Div(resolution, 2)
          case 1 => resolution * Div(3, 8)
          case 3 => resolution * Div(3, 16)
          case 4 => Div(resolution, 8)
          case _ => Div(resolution, 4);
      if eighth == Some(true) then Div(w0, 2) else w0
  }

  /** The HOPO window the comments beside each case give (240, 180, 120, 90
      and 60 ticks at resolution 480): three eighths and three sixteenths
      of the resolution for frequencies 1 and 3.  Starting from `prior`,
      which a `song.ini` without `hopofreq` keeps. */
  function ChartHopoWindow(resolution: int, prior: int, ini: SongIni): (w: int)
    ensures ini == NoIni ==> w == Div(resolution, 4)
    ensures ini.Ini? && ini.hopofreq.None? && ini.eighthNoteHopo != Some(true) ==> w == prior
    ensures resolution >= 0 && ini.Ini? && ini.hopofreq.Some? ==> 0 <= w <= Div(resolution, 2)
  {
    match ini
    case NoIni => Div(resolution, 4)
    case Ini(freq, eighth) =>
      var w0 :=
        if freq.None? then prior
        else match freq.value
          case 0 => Div(resolution, 2)
          case 1 => Div(resolution * 3, 8)
          case 3 => Div(resolution * 3, 16)
          case 4 => Div(resolution, 8)
          case _ => Div(resolution, 4);
      if eighth == Some(true) then Div(w0, 2) else w0
  }

  /** As written, frequencies 1 and 3 give a window of 0 for every
      resolution, where the corrected table gives 180 and 90 at 480. */
  lemma AsWrittenWindowCollapses(resolution: int, prior: int, eighth: Option<bool>)
    ensures ChartHopoWindowAsWritten(resolution, prior, Ini(Some(1), eighth)) == 0
    ensures ChartHopoWindowAsWritten(resolution, prior, Ini(Some(3), eighth)) == 0
    ensures ChartHopoWindowAsWritten(480, prior, Ini(Some(1), None)) < ChartHopoWindowAsWritten(480, prior, Ini(Some(2), None))
    ensures ChartHopoWindow(480, prior, Ini(Some(1), None)) == 180
    ensures ChartHopoWindow(480, prior, Ini(Some(3), None)) == 90
  {
  }

  /** With a non-negative resolution the corrected windows shrink from
      frequency 0 to 4, an unlisted frequency behaves as 2, and with no
      `song.ini` the window is the frequency-2 one. */
  lemma ChartHopoWindowOrdered(resolution: int, prior: int)
    requires resolution >= 0
    ensures var W := (f: int) => ChartHopoWindow(resolution, prior, Ini(Some(f), None));
      W(0) >= W(1) >= W(2) >= W(3) >= W(4) >= 0
    ensures forall f :: f !in {0, 1, 3, 4} ==>
      ChartHopoWindow(resolution, prior, Ini(Some(f), None)) == ChartHopoWindow(resolution, prior, Ini(Some(2), None))
    ensures ChartHopoWindow(resolution, prior, NoIni) == ChartHopoWindow(resolution, prior, Ini(Some(2), None))
  {
    EighthsOrdered(resolution);
  }

  lemma EighthsOrdered(x: int)
    requires x >= 0
    ensures x / 2 >= (x * 3) / 8 >= x / 4 >= (x * 3) / 16 >= x / 8 >= 0
  {
    var q, m := x / 16, x % 16;
    assert x == 16 * q + m;
    assert x / 2 == 8 * q + m / 2;
    assert (x * 3) / 8 == 6 * q + (m * 3) / 8;
    assert x / 4 == 4 * q + m / 4;
    assert (x * 3) / 16 == 3 * q + (m * 3) / 16;
    assert x / 8 == 2 * q + m / 8;
  }

  /** A window that does not depend on the window before it: no `song.ini`,
      or one that names a frequency.  Both as written and corrected. */
  lemma WindowIgnoresPrior(resolution: int, prior: int, ini: SongIni)
    ensures ini.NoIni? || ini.hopofreq.Some? ==>
      ChartHopoWindow(resolution, prior, ini) == ChartHopoWindow(resolution, 0, ini)
    ensures ini.NoIni? || ini.hopofreq.Some? ==>
      ChartHopoWindowAsWritten(resolution, prior, ini) == ChartHopoWindowAsWritten(resolution, 0, ini)
  {
  }

  /** The tick-count segment: the resolution, capped at 48. */
  function TickCount(resolution: int): (r: int)
    ensures r <= 48
    ensures r == resolution || r == 48
    ensures resolution <= 48 <==> r == resolution
  {
    if resolution <= 48 then resolution else 48
  }

  /** What the header yields: the values kept for the steps, and the song
      fields written only when the whole song is parsed. */
  datatype Header = Header(
    name: string,
    charter: string,
    musicFile: string,
    resolution: int,
    hopoResolution: int,
    title: Option<string>,
    artist: Option<string>,
    tickCount: Option<int>)

  /** The defaults the reader starts from: resolution 192 and window 120. */
  function InitialHeader(): Header
  {
    Header("", "", "", 192, 120, None, None, None)
  }

  /** The lines whose value the reader takes from the third word need a
      third word (on a shorter line the reader indexes past its words). */
  predicate HeaderLineReadable(w: seq<string>, parseSongInfo: bool)
    requires |w| > 0
  {
    (|| w[0] in {"Name", "Charter", "MusicStream", "Resolution"}
     || (w[0] in {"Artist", "Offset", "PreviewStart", "PreviewEnd"} && parseSongInfo)) ==> |w| >= 3
  }

  /** The value of a `Key = value` line: the words from the third on,
      joined by single spaces, without the surrounding quotes. */
  function QuotedValue(w: seq<string>): (r: string)
    requires |w| >= 3 && Word(w[2])
    ensures |r| + 2 >= |w[2]|
  {
    assert w[2..][0] == w[2];
    StripQuotes(Join(w[2..]))
  }

  /** One content line of the header. */
  function HeaderLine(h: Header, w: seq<string>, dir: string, ini: SongIni, parseSongInfo: bool): (r: Header)
    requires |w| > 0 && forall i :: 0 <= i < |w| ==> Word(w[i])
    requires HeaderLineReadable(w, parseSongInfo)
    ensures w[0] != "Resolution" ==> r.resolution == h.resolution && r.hopoResolution == h.hopoResolution
    ensures w[0] == "Resolution" ==>
      && r.resolution == Atoi(w[2])
      && r.hopoResolution == ChartHopoWindowAsWritten(Atoi(w[2]), h.hopoResolution, ini)
      && r.tickCount == (if parseSongInfo then Some(TickCount(Atoi(w[2]))) else h.tickCount)
    ensures !parseSongInfo ==> r.title == h.title && r.artist == h.artist && r.tickCount == h.tickCount
    ensures w[0] !in {"Name", "Charter", "MusicStream", "Resolution", "Artist"} ==> r == h
  {
    if w[0] == "Name" then
      var title := QuotedValue(w);
      h.(name := title, title := if parseSongInfo then Some(title) else h.title)
    else if w[0] == "Artist" && parseSongInfo then
      h.(artist := Some(QuotedValue(w)))
    else if w[0] == "Charter" then
      h.(charter := QuotedValue(w))
    else if w[0] == "Resolution" then
      var resolution := Atoi(w[2]);
      h.(resolution := resolution,
         hopoResolution := ChartHopoWindowAsWritten(resolution, h.hopoResolution, ini),
         tickCount := if parseSongInfo then Some(TickCount(resolution)) else h.tickCount)
    else if w[0] == "MusicStream" then
      h.(musicFile := dir + QuotedValue(w))
    else h
  }

  predicate HeaderReadable(lines: seq<string>, parseSongInfo: bool)
    decreases |lines|
  {
    |lines| == 0 ||
    var w := GetLineWords(lines[0]);
    match KindOf(w)
    case EndOfSection => true
    case SkipLine => HeaderReadable(lines[1..], parseSongInfo)
    case ContentLine => HeaderLineReadable(w, parseSongInfo) && HeaderReadable(lines[1..], parseSongInfo)
  }

  /** The tick count, when set, belongs to the current resolution. */
  predicate TickCountAgrees(h: Header)
  {
    h.tickCount.None? || h.tickCount == Some(TickCount(h.resolution))
  }

  /** The window is the one the defaults gave, or the one the reader
      computes (as written) for the current resolution. */
  predicate WindowAgrees(h: Header, start: Header, ini: SongIni)
  {
    (h.resolution == start.resolution && h.hopoResolution == start.hopoResolution)
    || h.hopoResolution == ChartHopoWindowAsWritten(h.resolution, 0, ini)
  }

  /** The resolution the header ends with: that of the last `Resolution`
      line before the closing brace, or `current` when there is none. */
  function LastResolution(lines: seq<string>, current: int): int
    decreases |lines|
  {
    if |lines| == 0 then current
    else
      var w := GetLineWords(lines[0]);
      match KindOf(w)
      case EndOfSection => current
      case SkipLine => LastResolution(lines[1..], current)
      case ContentLine => LastResolution(lines[1..], if w[0] == "Resolution" && |w| >= 3 then Atoi(w[2]) else current)
  }

  /** `parseHeader` from `h` on: the lines up to the closing brace. */
  function ReadHeader(lines: seq<string>, h: Header, dir: string, ini: SongIni, parseSongInfo: bool): (r: Header)
    requires HeaderReadable(lines, parseSongInfo)
    ensures TickCountAgrees(h) && (parseSongInfo || h.tickCount.None?) ==> TickCountAgrees(r)
    ensures !parseSongInfo ==> r.tickCount == h.tickCount && r.title == h.title && r.artist == h.artist
    ensures (ini.NoIni? || ini.hopofreq.Some?) ==> WindowAgrees(r, h, ini)
    ensures r.resolution == LastResolution(lines, h.resolution)
    decreases |lines|
  {
    if |lines| == 0 then h
    else
      var w := GetLineWords(lines[0]);
      match KindOf(w)
      case EndOfSection => h
      case SkipLine => ReadHeader(lines[1..], h, dir, ini, parseSongInfo)
      case ContentLine =>
        var h1 := HeaderLine(h, w, dir, ini, parseSongInfo);
        WindowIgnoresPrior(h1.resolution, h.hopoResolution, ini);
        var r := ReadHeader(lines[1..], h1, dir, ini, parseSongInfo);
        r
  }

  /** The header as `ReadBuf` reads it, from the defaults. */
  function ParseHeader(lines: seq<string>, dir: string, ini: SongIni, parseSongInfo: bool): (r: Header)
    requires HeaderReadable(lines, parseSongInfo)
    ensures TickCountAgrees(r)
    ensures r.tickCount.Some? ==> parseSongInfo && r.tickCount.value <= 48
    ensures r.resolution == LastResolution(lines, 192)
    ensures (ini.NoIni? || ini.hopofreq.Some?) ==>
      (r.resolution == 192 && r.hopoResolution == 120) || r.hopoResolution == ChartHopoWindowAsWritten(r.resolution, 0, ini)
  {
    ReadHeader(lines, InitialHeader(), dir, ini, parseSongInfo)
  }
}

=== FILE: chart_notes.dfy ===
/** The note section of a `.chart` file (`parseNoteSection`): one forward
    pass over the lines of a section, carrying per-column arrays of the
    previous note's mark, length and HOPO flag.  Marks are ticks; the row
    of a tick is the parameter `rowOf`, which stands for
    `BeatToNoteRow((float)tick / resolution)`. */
module ChartNotes {
  import opened CInt
  import opened NoteGrid
  import opened ChartText

  /** `addNote`: a note of category 1 (tap/hold), 2 (gem/gem hold) or 3
      (HOPO/HOPO hold), held exactly when `end > start`; any other category
      leaves the grid as it was. */
  function AddNote(g: NoteData, track: int, start: int, end: int, category: int): (r: NoteData)
    ensures 1 <= category <= 3 ==> Get(r, (track, start)) == Intended(category, start, end)
    ensures 1 <= category <= 3 ==> CategoryOf(Get(r, (track, start)).kind) == category
    ensures 1 <= category <= 3 ==> (IsHeld(Get(r, (track, start)).kind) <==> end > start)
    ensures !(1 <= category <= 3) ==> r == g
    ensures SameExcept(g, r, {(track, start)})
    ensures r.cells.Keys <= g.cells.Keys + {(track, start)}
    ensures WellFormed(g) && 0 <= track < g.tracks ==> WellFormed(r)
  {
    if 1 <= category <= 3 then Place(g, track, start, end, category) else g
  }

  /** The reader's state: the grid (six tracks, five of them frets) and the
      arrays and markers of the source, -1 meaning "none yet". */
  datatype ChartState = ChartState(
    notes: NoteData,
    prevMark: seq<int>,
    prevLength: seq<int>,
    prevHopo: seq<bool>,
    prevTrack: int,
    lastForcedRow: int,
    lastTapRow: int,
    lastChordRow: int)

  /** No note is ever written outside the five fret columns. */
  ghost predicate FretsOnly(g: NoteData)
  {
    forall c :: c in g.cells ==> 0 <= c.0 < 5
  }

  /** The grid the reader builds: six tracks, valid notes, none on the
      sixth track. */
  ghost predicate GridInv(g: NoteData)
  {
    g.tracks == 6 && WellFormed(g) && FretsOnly(g)
  }

  ghost predicate Inv(st: ChartState)
  {
    && GridInv(st.notes)
    && |st.prevMark| == 5 && |st.prevLength| == 5 && |st.prevHopo| == 5
    && -1 <= st.prevTrack < 5
  }

  function Initial(): (st: ChartState)
    ensures Inv(st)
  {
    ChartState(Blank(6), [-1, -1, -1, -1, -1], [-1, -1, -1, -1, -1], [false, false, false, false, false], -1, -1, -1, -1)
  }

  /** Two ticks at most one apart (the source's tolerance for rounding). */
  predicate Near(a: int, b: int)
  {
    Abs(a - b) <= 1
  }

  // ----- forced rows ("E *", "N 5") and tap rows ("E T") -----

  /** Grids `a` and `b` agree everywhere except on columns lo..hi-1 of one
      row. */
  ghost predicate SameOffRow(a: NoteData, b: NoteData, row: int, lo: int, hi: int)
  {
    a.tracks == b.tracks && forall c: Cell :: !(c.1 == row && lo <= c.0 < hi) ==> Get(a, c) == Get(b, c)
  }

  /** What a forced row makes of a cell's note: a HOPO (or HOPO hold) if it
      was one, a gem (or gem hold) of the same length otherwise. */
  function Flipped(tn: TapNote, row: int): TapNote
  {
    Intended(if IsHopo(tn) then 3 else 2, row, row + tn.duration)
  }

  /** One cell of a forced row. */
  function FlipCell(g: NoteData, l: int, row: int): (r: NoteData)
    requires 0 <= l < 5 && GridInv(g)
    ensures GridInv(r)
    ensures Get(r, (l, row)) == Flipped(Get(g, (l, row)), row)
    ensures SameExcept(g, r, {(l, row)})
  {
    var tn := Get(g, (l, row));
    AddNote(g, l, row, row + tn.duration, if IsHopo(tn) then 3 else 2)
  }

  /** Columns l..4 of a forced row: each cell is written again as a HOPO if
      it was one and as a gem otherwise, empty cells included. */
  function Reclassify(g: NoteData, row: int, l: nat): (r: NoteData)
    requires l <= 5 && GridInv(g)
    ensures GridInv(r)
    ensures SameOffRow(g, r, row, l, 5)
    decreases 5 - l
  {
    if l == 5 then g
    else
      Reclassify(FlipCell(g, l, row), row, l + 1)
  }

  lemma {:induction false} ReclassifyValues(g: NoteData, row: int, l: nat)
    requires l <= 5 && GridInv(g)
    ensures forall j :: l <= j < 5 ==> Get(Reclassify(g, row, l), (j, row)) == Flipped(Get(g, (j, row)), row)
    decreases 5 - l
  {
    if l < 5 {
      var g1 := FlipCell(g, l, row);
      var r := Reclassify(g1, row, l + 1);
      ReclassifyValues(g1, row, l + 1);
      forall j | l <= j < 5 ensures Get(r, (j, row)) == Flipped(Get(g, (j, row)), row) {
        if j == l {
          assert Get(r, (l, row)) == Get(g1, (l, row));
        } else {
          assert Get(g1, (j, row)) == Get(g, (j, row));
        }
      }
    }
  }

  /** What a tap row makes of a cell's note: a tap (or tap hold of the
      same length) if there is one. */
  function Tapped(tn: TapNote, row: int): TapNote
  {
    if tn == TapEmpty then TapEmpty else Intended(1, row, row + tn.duration)
  }

  /** One cell of a tap row. */
  function TapCell(g: NoteData, l: int, row: int): (r: NoteData)
    requires 0 <= l < 5 && GridInv(g)
    ensures GridInv(r)
    ensures Get(r, (l, row)) == Tapped(Get(g, (l, row)), row)
    ensures SameExcept(g, r, {(l, row)})
  {
    var tn := Get(g, (l, row));
    if tn != TapEmpty then AddNote(g, l, row, row + tn.duration, 1) else g
  }

  /** Columns l..4 of a tap row: every occupied cell becomes a tap (or tap
      hold of the same length); empty cells stay empty. */
  function Retap(g: NoteData, row: int, l: nat): (r: NoteData)
    requires l <= 5 && GridInv(g)
    ensures GridInv(r)
    ensures SameOffRow(g, r, row, l, 5)
    decreases 5 - l
  {
    if l == 5 then g
    else
      Retap(TapCell(g, l, row), row, l + 1)
  }

  lemma {:induction false} RetapValues(g: NoteData, row: int, l: nat)
    requires l <= 5 && GridInv(g)
    ensures forall j :: l <= j < 5 ==> Get(Retap(g, row, l), (j, row)) == Tapped(Get(g, (j, row)), row)
    decreases 5 - l
  {
    if l < 5 {
      var g1 := TapCell(g, l, row);
      var r := Retap(g1, row, l + 1);
      RetapValues(g1, row, l + 1);
      forall j | l <= j < 5 ensures Get(r, (j, row)) == Tapped(Get(g, (j, row)), row) {
        if j == l {
          assert Get(r, (l, row)) == Get(g1, (l, row));
        } else {
          assert Get(g1, (j, row)) == Get(g, (j, row));
        }
      }
    }
  }

  /** "E *" and "N 5": remember the forced mark and flip nothing yet, but
      rewrite the row already read. */
  function ForcedRow(st: ChartState, mark: int, rowOf: int -> int): (r: ChartState)
    requires Inv(st)
    ensures Inv(r)
    ensures r == st.(notes := r.notes, lastForcedRow := mark)
    ensures forall j :: 0 <= j < 5 ==> Get(r.notes, (j, rowOf(mark))) == Flipped(Get(st.notes, (j, rowOf(mark))), rowOf(mark))
    ensures SameOffRow(st.notes, r.notes, rowOf(mark), 0, 5)
  {
    ReclassifyValues(st.notes, rowOf(mark), 0);
    st.(notes := Reclassify(st.notes, rowOf(mark), 0), lastForcedRow := mark)
  }

  /** "E T": remember the tap mark and turn the notes of that row into taps. */
  function TapRow(st: ChartState, mark: int, rowOf: int -> int): (r: ChartState)
    requires Inv(st)
    ensures Inv(r)
    ensures r == st.(notes := r.notes, lastTapRow := mark)
    ensures forall j :: 0 <= j < 5 ==> Get(r.notes, (j, rowOf(mark))) == Tapped(Get(st.notes, (j, rowOf(mark))), rowOf(mark))
    ensures SameOffRow(st.notes, r.notes, rowOf(mark), 0, 5)
  {
    RetapValues(st.notes, rowOf(mark), 0);
    st.(notes := Retap(st.notes, rowOf(mark), 0), lastTapRow := mark)
  }

  // ----- a note line "N t length" -----

  /** The previous note on column t has not ended one tick before this one. */
  predicate Overlaps(st: ChartState, t: int, mark: int)
    requires |st.prevMark| == 5 && |st.prevLength| == 5 && 0 <= t < 5
  {
    st.prevLength[t] + st.prevMark[t] + 1 >= mark
  }

  /** Sustain correction: an earlier note on the same column that would run
      into this one is written again, ending a 32nd note (resolution/8)
      before this mark. */
  function Sustain(st: ChartState, t: int, mark: int, resolution: int, rowOf: int -> int): (r: ChartState)
    requires Inv(st) && 0 <= t < 5
    ensures Inv(r)
    ensures r == st.(notes := r.notes, prevLength := r.prevLength)
    ensures Overlaps(st, t, mark) ==>
      && r.prevLength == st.prevLength[t := mark - st.prevMark[t] - Div(resolution, 8)]
      && Get(r.notes, (t, rowOf(st.prevMark[t])))
         == Intended(if st.prevHopo[t] then 3 else 2, rowOf(st.prevMark[t]), rowOf(mark - Div(resolution, 8)))
    ensures !Overlaps(st, t, mark) ==> r == st
    ensures SameExcept(st.notes, r.notes, {(t, rowOf(st.prevMark[t]))})
  {
    if st.prevLength[t] + st.prevMark[t] + 1 >= mark then
      var pm := st.prevMark[t];
      var cleared := SetTap(st.notes, (t, rowOf(pm)), TapEmpty);
      var len := mark - pm - Div(resolution, 8);
      assert pm + len == mark - Div(resolution, 8);
      var notes := AddNote(cleared, t, rowOf(pm), rowOf(pm + len), if st.prevHopo[t] then 3 else 2);
      st.(notes := notes, prevLength := st.prevLength[t := len])
    else st
  }

  /** Column j held a HOPO, is not this note's column, and its previous mark
      is within a tick of this note: the two form a chord. */
  predicate Demotes(st: ChartState, t: int, mark: int, j: int)
    requires |st.prevMark| == 5 && |st.prevHopo| == 5 && 0 <= j < 5
  {
    st.prevHopo[j] && j != t && Near(mark, st.prevMark[j])
  }

  /** The gem a demoted column's previous note becomes. */
  function AsGem(st: ChartState, j: int, rowOf: int -> int): TapNote
    requires |st.prevMark| == 5 && |st.prevLength| == 5 && 0 <= j < 5
  {
    Intended(2, rowOf(st.prevMark[j]), rowOf(st.prevMark[j] + st.prevLength[j]))
  }

  lemma AsGemSame(a: ChartState, b: ChartState, j: int, rowOf: int -> int)
    requires |a.prevMark| == 5 && |a.prevLength| == 5 && |b.prevMark| == 5 && |b.prevLength| == 5 && 0 <= j < 5
    requires a.prevMark[j] == b.prevMark[j] && a.prevLength[j] == b.prevLength[j]
    ensures AsGem(a, j, rowOf) == AsGem(b, j, rowOf)
  {
  }

  /** Cell c is the previous note of a column from k on that is demoted. */
  ghost predicate DemotedCell(st: ChartState, t: int, mark: int, rowOf: int -> int, k: nat, c: Cell)
    requires |st.prevMark| == 5 && |st.prevHopo| == 5
  {
    k <= c.0 < 5 && Demotes(st, t, mark, c.0) && c.1 == rowOf(st.prevMark[c.0])
  }

  /** Chord demotion, columns k..4: an earlier HOPO that turns out to be
      part of a chord with this note is written again as a gem, loses its
      HOPO flag, and the chord row is remembered. */
  function Demote(st: ChartState, t: int, mark: int, rowOf: int -> int, k: nat): (r: ChartState)
    requires Inv(st) && 0 <= t < 5 && k <= 5
    ensures Inv(r)
    ensures r == st.(notes := r.notes, prevHopo := r.prevHopo, lastChordRow := r.lastChordRow)
    ensures forall j :: 0 <= j < 5 ==> r.prevHopo[j] == (st.prevHopo[j] && !(k <= j && Demotes(st, t, mark, j)))
    ensures (exists j :: k <= j < 5 && Demotes(st, t, mark, j)) ==> r.lastChordRow == mark
    ensures !(exists j :: k <= j < 5 && Demotes(st, t, mark, j)) ==> r.lastChordRow == st.lastChordRow
    ensures r.notes.tracks == st.notes.tracks
    ensures forall c: Cell :: !DemotedCell(st, t, mark, rowOf, k, c) ==> Get(r.notes, c) == Get(st.notes, c)
    decreases 5 - k
  {
    if k == 5 then st
    else
      var st1 := DemoteColumn(st, t, mark, rowOf, k);
      Demote(st1, t, mark, rowOf, k + 1)
  }

  /** Each demoted column's previous note is rewritten as a gem of its
      length. */
  lemma {:induction false} DemoteGems(st: ChartState, t: int, mark: int, rowOf: int -> int, k: nat, j: int)
    requires Inv(st) && 0 <= t < 5 && k <= j < 5
    requires Demotes(st, t, mark, j)
    ensures Get(Demote(st, t, mark, rowOf, k).notes, (j, rowOf(st.prevMark[j]))) == AsGem(st, j, rowOf)
    decreases 5 - k
  {
    var st1 := DemoteColumn(st, t, mark, rowOf, k);
    if j == k {
      assert !DemotedCell(st1, t, mark, rowOf, k + 1, (j, rowOf(st.prevMark[j])));
    } else {
      DemoteGems(st1, t, mark, rowOf, k + 1, j);
      AsGemSame(st1, st, j, rowOf);
    }
  }

  /** Chord demotion of column k alone. */
  function DemoteColumn(st: ChartState, t: int, mark: int, rowOf: int -> int, k: nat): (r: ChartState)
    requires Inv(st) && 0 <= t < 5 && k < 5
    ensures Inv(r)
    ensures r == st.(notes := r.notes, prevHopo := r.prevHopo, lastChordRow := r.lastChordRow)
    ensures r.prevHopo == st.prevHopo[k := st.prevHopo[k] && !Demotes(st, t, mark, k)]
    ensures r.lastChordRow == if Demotes(st, t, mark, k) then mark else st.lastChordRow
    ensures Demotes(st, t, mark, k) ==> Get(r.notes, (k, rowOf(st.prevMark[k]))) == AsGem(st, k, rowOf)
    ensures r.notes.tracks == st.notes.tracks
    ensures forall c: Cell :: !DemotedCell(st, t, mark, rowOf, k, c) || c.0 != k ==> Get(r.notes, c) == Get(st.notes, c)
    ensures forall j :: k < j < 5 ==> Demotes(r, t, mark, j) == Demotes(st, t, mark, j)
  {
    if Demotes(st, t, mark, k) then
      var pm, len := st.prevMark[k], st.prevLength[k];
      st.(lastChordRow := mark,
          notes := AddNote(st.notes, k, rowOf(pm), rowOf(pm + len), 2),
          prevHopo := st.prevHopo[k := false])
    else st
  }

  /** The previous note was on another column and the two previous marks
      of this column and of the previous note's column form a chord. */
  predicate FollowsChord(pm: seq<int>, t: int, prevTrack: int)
    requires |pm| == 5 && 0 <= t < 5 && -1 <= prevTrack < 5
  {
    prevTrack != -1 && pm[t] != -1 && pm[prevTrack] != -1 && Near(pm[t], pm[prevTrack]) && prevTrack != t
  }

  /** Column j's previous note is close enough before or after this one to
      make it a HOPO, and this note changes column. */
  predicate HopoPartner(pm: seq<int>, t: int, prevTrack: int, mark: int, hopoResolution: int, j: int)
    requires |pm| == 5 && 0 <= j < 5
  {
    Abs(mark - pm[j]) - 1 <= hopoResolution && t != prevTrack && pm[j] != -1
  }

  /** The search loop for `ShouldBeHOPO` from column k on, with its two
      early exits. */
  function HopoScan(pm: seq<int>, t: int, prevTrack: int, mark: int, hopoResolution: int, lastChordRow: int,
                    k: nat, found: bool): (r: bool)
    requires |pm| == 5 && 0 <= t < 5 && -1 <= prevTrack < 5 && k <= 5
    ensures r ==> found || exists j :: k <= j < 5 && HopoPartner(pm, t, prevTrack, mark, hopoResolution, j)
    ensures r ==> forall j :: k <= j < 5 ==> !Near(mark, pm[j])
    ensures r && k < 5 ==> !FollowsChord(pm, t, prevTrack) && !(Near(lastChordRow, mark) && lastChordRow != -1)
    decreases 5 - k
  {
    if k == 5 then found
    else
      var found1 := found || HopoPartner(pm, t, prevTrack, mark, hopoResolution, k);
      if Near(mark, pm[k]) || (Near(lastChordRow, mark) && lastChordRow != -1) then false
      else if FollowsChord(pm, t, prevTrack) then false
      else HopoScan(pm, t, prevTrack, mark, hopoResolution, lastChordRow, k + 1, found1)
  }

  /** When a note is a HOPO before the forced-row flip: no column's previous
      mark and no chord row is within a tick, it does not follow a chord it
      was part of, and some column's previous mark lies within the HOPO
      window while the note changes column. */
  predicate ShouldBeHopo(pm: seq<int>, t: int, prevTrack: int, mark: int, hopoResolution: int, lastChordRow: int)
    requires |pm| == 5 && 0 <= t < 5 && -1 <= prevTrack < 5
  {
    && (forall j :: 0 <= j < 5 ==> !Near(mark, pm[j]))
    && !(Near(lastChordRow, mark) && lastChordRow != -1)
    && !FollowsChord(pm, t, prevTrack)
    && exists j :: 0 <= j < 5 && HopoPartner(pm, t, prevTrack, mark, hopoResolution, j)
  }

  lemma {:induction false} HopoScanFrom(pm: seq<int>, t: int, prevTrack: int, mark: int, hopoResolution: int,
                                        lastChordRow: int, k: nat, found: bool)
    requires |pm| == 5 && 0 <= t < 5 && -1 <= prevTrack < 5 && k < 5
    ensures HopoScan(pm, t, prevTrack, mark, hopoResolution, lastChordRow, k, found)
         == (&& (forall j :: k <= j < 5 ==> !Near(mark, pm[j]))
             && !(Near(lastChordRow, mark) && lastChordRow != -1)
             && !FollowsChord(pm, t, prevTrack)
             && (found || exists j :: k <= j < 5 && HopoPartner(pm, t, prevTrack, mark, hopoResolution, j)))
    decreases 5 - k
  {
    if k < 4 {
      HopoScanFrom(pm, t, prevTrack, mark, hopoResolution, lastChordRow, k + 1,
                   found || HopoPartner(pm, t, prevTrack, mark, hopoResolution, k));
    }
  }

  /** The loop with early exits decides exactly `ShouldBeHopo`. */
  lemma HopoScanMeaning(pm: seq<int>, t: int, prevTrack: int, mark: int, hopoResolution: int, lastChordRow: int)
    requires |pm| == 5 && 0 <= t < 5 && -1 <= prevTrack < 5
    ensures HopoScan(pm, t, prevTrack, mark, hopoResolution, lastChordRow, 0, false)
         == ShouldBeHopo(pm, t, prevTrack, mark, hopoResolution, lastChordRow)
  {
    HopoScanFrom(pm, t, prevTrack, mark, hopoResolution, lastChordRow, 0, false);
  }

  predicate TapNear(st: ChartState, mark: int)
  {
    Near(st.lastTapRow, mark) && st.lastTapRow != -1
  }

  predicate ForcedNear(st: ChartState, mark: int)
  {
    Near(st.lastForcedRow, mark) && st.lastForcedRow != -1
  }

  /** Whether the new note becomes a HOPO when no tap row is near: the
      `ShouldBeHopo` decision, inverted on a forced row. */
  predicate NewNoteHopo(st: ChartState, t: int, mark: int, hopoResolution: int)
    requires |st.prevMark| == 5 && 0 <= t < 5 && -1 <= st.prevTrack < 5
  {
    ShouldBeHopo(st.prevMark, t, st.prevTrack, mark, hopoResolution, st.lastChordRow) != ForcedNear(st, mark)
  }

  /** Writes the new note: a tap near a tap row, otherwise a HOPO or a gem. */
  function PlaceNew(st: ChartState, t: int, mark: int, length: int, hopoResolution: int, rowOf: int -> int): (r: ChartState)
    requires Inv(st) && 0 <= t < 5
    ensures Inv(r)
    ensures r == st.(notes := r.notes, prevHopo := r.prevHopo)
    ensures TapNear(st, mark) ==>
      && Get(r.notes, (t, rowOf(mark))) == Intended(1, rowOf(mark), rowOf(mark + length))
      && r.prevHopo == st.prevHopo[t := false]
    ensures !TapNear(st, mark) ==>
      var h := NewNoteHopo(st, t, mark, hopoResolution);
      && Get(r.notes, (t, rowOf(mark))) == Intended(if h then 3 else 2, rowOf(mark), rowOf(mark + length))
      && r.prevHopo == st.prevHopo[t := h]
    ensures SameExcept(st.notes, r.notes, {(t, rowOf(mark))})
  {
    if Abs(st.lastTapRow - mark) <= 1 && st.lastTapRow != -1 then
      st.(notes := AddNote(st.notes, t, rowOf(mark), rowOf(mark + length), 1), prevHopo := st.prevHopo[t := false])
    else
      var sb := HopoScan(st.prevMark, t, st.prevTrack, mark, hopoResolution, st.lastChordRow, 0, false);
      HopoScanMeaning(st.prevMark, t, st.prevTrack, mark, hopoResolution, st.lastChordRow);
      var h := if Abs(st.lastForcedRow - mark) <= 1 && st.lastForcedRow != -1 then !sb else sb;
      st.(notes := AddNote(st.notes, t, rowOf(mark), rowOf(mark + length), if h then 3 else 2), prevHopo := st.prevHopo[t := h])
  }

  /** The cells a note line may write: the new note, the previous note of
      its column, and the previous notes of demoted columns. */
  ghost predicate Touched(st: ChartState, t: int, mark: int, rowOf: int -> int, c: Cell)
    requires |st.prevMark| == 5 && |st.prevHopo| == 5 && 0 <= t < 5
  {
    c == (t, rowOf(mark)) || c == (t, rowOf(st.prevMark[t])) || DemotedCell(st, t, mark, rowOf, 0, c)
  }

  /** A note line "N t length" at `mark` for a fret column t in 0..4: the
      sustain correction, chord demotion, the new note, and the new note
      becoming the previous one. */
  function NoteLine(st: ChartState, t: int, mark: int, length: int, resolution: int, hopoResolution: int, rowOf: int -> int)
    : (r: ChartState)
    requires Inv(st) && 0 <= t < 5
    ensures Inv(r)
    ensures r.prevMark == st.prevMark[t := mark] && r.prevLength == st.prevLength[t := length] && r.prevTrack == t
    ensures r.lastForcedRow == st.lastForcedRow && r.lastTapRow == st.lastTapRow
  {
    Advance(Placed(st, t, mark, length, resolution, hopoResolution, rowOf), st.prevMark, t, mark, length)
  }

  /** The state after the three stages of a note line, before the note
      becomes the previous one. */
  function Placed(st: ChartState, t: int, mark: int, length: int, resolution: int, hopoResolution: int, rowOf: int -> int)
    : (r: ChartState)
    requires Inv(st) && 0 <= t < 5
    ensures Inv(r) && r.prevMark == st.prevMark
    ensures r.lastForcedRow == st.lastForcedRow && r.lastTapRow == st.lastTapRow
  {
    NoteLineStages(st, t, mark, length, resolution, hopoResolution, rowOf).2
  }

  /** The note at `mark` on column t becomes the previous note. */
  function Advance(s: ChartState, marks: seq<int>, t: int, mark: int, length: int): (r: ChartState)
    requires Inv(s) && s.prevMark == marks && 0 <= t < 5
    ensures Inv(r) && r.notes == s.notes && r.prevHopo == s.prevHopo
    ensures r.prevMark == marks[t := mark] && r.prevLength == s.prevLength[t := length] && r.prevTrack == t
    ensures r.lastForcedRow == s.lastForcedRow && r.lastTapRow == s.lastTapRow && r.lastChordRow == s.lastChordRow
  {
    s.(prevMark := s.prevMark[t := mark], prevTrack := t, prevLength := s.prevLength[t := length])
  }

  /** The three intermediate states of a note line. */
  function NoteLineStages(st: ChartState, t: int, mark: int, length: int, resolution: int, hopoResolution: int,
                          rowOf: int -> int)
    : (r: (ChartState, ChartState, ChartState))
    requires Inv(st) && 0 <= t < 5
    ensures Inv(r.0) && Inv(r.1) && Inv(r.2)
    ensures r.0 == Sustain(st, t, mark, resolution, rowOf)
    ensures r.1 == Demote(r.0, t, mark, rowOf, 0)
    ensures r.2 == PlaceNew(r.1, t, mark, length, hopoResolution, rowOf)
  {
    var s1 := Sustain(st, t, mark, resolution, rowOf);
    var s2 := Demote(s1, t, mark, rowOf, 0);
    (s1, s2, PlaceNew(s2, t, mark, length, hopoResolution, rowOf))
  }

  /** The new note: a tap near a tap row; otherwise a HOPO exactly when
      `ShouldBeHopo` holds of the state before the line, inverted near a
      forced row.  Its HOPO flag is remembered. */
  lemma NoteLineNewNote(st: ChartState, t: int, mark: int, length: int, resolution: int, hopoResolution: int,
                        rowOf: int -> int)
    requires Inv(st) && 0 <= t < 5
    ensures var r := NoteLine(st, t, mark, length, resolution, hopoResolution, rowOf);
      && (TapNear(st, mark) ==>
           && Get(r.notes, (t, rowOf(mark))) == Intended(1, rowOf(mark), rowOf(mark + length))
           && !r.prevHopo[t])
      && (!TapNear(st, mark) ==>
           var h := NewNoteHopo(st, t, mark, hopoResolution);
           && Get(r.notes, (t, rowOf(mark))) == Intended(if h then 3 else 2, rowOf(mark), rowOf(mark + length))
           && r.prevHopo[t] == h)
  {
    var (s1, s2, s3) := NoteLineStages(st, t, mark, length, resolution, hopoResolution, rowOf);
    assert forall j :: 0 <= j < 5 ==> Demotes(s1, t, mark, j) == Demotes(st, t, mark, j);
    ChordRowKeepsDecision(st, s2, t, mark, hopoResolution);
  }

  /** Chord demotion, flags: every earlier HOPO on another column within a
      tick of the new note loses its flag and the chord row moves to the new
      mark; other flags are kept. */
  lemma NoteLineDemotionFlags(st: ChartState, t: int, mark: int, length: int, resolution: int, hopoResolution: int,
                              rowOf: int -> int)
    requires Inv(st) && 0 <= t < 5
    ensures var r := NoteLine(st, t, mark, length, resolution, hopoResolution, rowOf);
      && (forall j :: 0 <= j < 5 && j != t ==> r.prevHopo[j] == (st.prevHopo[j] && !Demotes(st, t, mark, j)))
      && ((exists j :: 0 <= j < 5 && Demotes(st, t, mark, j)) ==> r.lastChordRow == mark)
      && (!(exists j :: 0 <= j < 5 && Demotes(st, t, mark, j)) ==> r.lastChordRow == st.lastChordRow)
  {
    var (s1, s2, s3) := NoteLineStages(st, t, mark, length, resolution, hopoResolution, rowOf);
    assert forall j :: 0 <= j < 5 ==> Demotes(s1, t, mark, j) == Demotes(st, t, mark, j);
  }

  /** Chord demotion, notes: every demoted HOPO is written again as a gem
      of its recorded length. */
  lemma NoteLineDemotionNotes(st: ChartState, t: int, mark: int, length: int, resolution: int, hopoResolution: int,
                              rowOf: int -> int, j: int)
    requires Inv(st) && 0 <= t < 5 && 0 <= j < 5
    requires Demotes(st, t, mark, j)
    ensures Get(NoteLine(st, t, mark, length, resolution, hopoResolution, rowOf).notes, (j, rowOf(st.prevMark[j])))
         == AsGem(st, j, rowOf)
  {
    var (s1, s2, s3) := NoteLineStages(st, t, mark, length, resolution, hopoResolution, rowOf);
    assert s1.prevMark[j] == st.prevMark[j] && s1.prevHopo[j] == st.prevHopo[j];
    assert Demotes(s1, t, mark, j);
    assert s1.prevLength[j] == st.prevLength[j];
    AsGemSame(s1, st, j, rowOf);
    DemoteGems(s1, t, mark, rowOf, 0, j);
    assert Get(s2.notes, (j, rowOf(st.prevMark[j]))) == AsGem(st, j, rowOf);
    assert (j, rowOf(st.prevMark[j])) != (t, rowOf(mark));
  }

  /** Sustain correction: when the previous note of the column runs into
      the new one, it is written again ending resolution/8 ticks before the
      new mark (unless the new note lands on its very row). */
  lemma NoteLineSustain(st: ChartState, t: int, mark: int, length: int, resolution: int, hopoResolution: int,
                        rowOf: int -> int)
    requires Inv(st) && 0 <= t < 5
    requires Overlaps(st, t, mark) && rowOf(st.prevMark[t]) != rowOf(mark)
    ensures Get(NoteLine(st, t, mark, length, resolution, hopoResolution, rowOf).notes, (t, rowOf(st.prevMark[t])))
         == Intended(if st.prevHopo[t] then 3 else 2, rowOf(st.prevMark[t]), rowOf(mark - Div(resolution, 8)))
  {
    var (s1, s2, s3) := NoteLineStages(st, t, mark, length, resolution, hopoResolution, rowOf);
    assert !DemotedCell(s1, t, mark, rowOf, 0, (t, rowOf(st.prevMark[t])));
  }

  /** A note line writes no cell other than the new note, the previous note
      of its column and the previous notes of demoted columns. */
  lemma NoteLineFrame(st: ChartState, t: int, mark: int, length: int, resolution: int, hopoResolution: int,
                      rowOf: int -> int)
    requires Inv(st) && 0 <= t < 5
    ensures forall c: Cell :: !Touched(st, t, mark, rowOf, c) ==>
      Get(NoteLine(st, t, mark, length, resolution, hopoResolution, rowOf).notes, c) == Get(st.notes, c)
  {
    var (s1, s2, s3) := NoteLineStages(st, t, mark, length, resolution, hopoResolution, rowOf);
    forall c: Cell | !Touched(st, t, mark, rowOf, c)
      ensures Get(s3.notes, c) == Get(st.notes, c)
    {
      assert !DemotedCell(s1, t, mark, rowOf, 0, c);
    }
  }

  /** Chord demotion never changes the HOPO decision for the new note: it
      only moves the chord row onto a mark that is already a chord. */
  lemma ChordRowKeepsDecision(st: ChartState, s2: ChartState, t: int, mark: int, hopoResolution: int)
    requires Inv(st) && Inv(s2) && 0 <= t < 5
    requires s2.prevMark == st.prevMark && s2.prevTrack == st.prevTrack && s2.lastForcedRow == st.lastForcedRow
    requires (exists j :: 0 <= j < 5 && Demotes(st, t, mark, j)) ==> s2.lastChordRow == mark
    requires !(exists j :: 0 <= j < 5 && Demotes(st, t, mark, j)) ==> s2.lastChordRow == st.lastChordRow
    ensures NewNoteHopo(s2, t, mark, hopoResolution) == NewNoteHopo(st, t, mark, hopoResolution)
  {
    if exists j :: 0 <= j < 5 && Demotes(st, t, mark, j) {
      var j :| 0 <= j < 5 && Demotes(st, t, mark, j);
      assert Near(mark, st.prevMark[j]);
    }
  }

  /** A note on the same column as the note just before it is never a HOPO,
      unless a forced row flips it. */
  lemma SameColumnNeverHopo(st: ChartState, t: int, mark: int, length: int, resolution: int, hopoResolution: int,
                            rowOf: int -> int)
    requires Inv(st) && 0 <= t < 5
    requires t == st.prevTrack && !TapNear(st, mark)
    ensures IsHopo(Get(NoteLine(st, t, mark, length, resolution, hopoResolution, rowOf).notes, (t, rowOf(mark))))
        <==> ForcedNear(st, mark)
  {
    NoteLineNewNote(st, t, mark, length, resolution, hopoResolution, rowOf);
  }

  /** A note within a tick of any column's previous mark, or of the last
      chord row, is part of a chord and not a HOPO, unless a forced row
      flips it. */
  lemma ChordNeverHopo(st: ChartState, t: int, mark: int, length: int, resolution: int, hopoResolution: int,
                       rowOf: int -> int, j: int)
    requires Inv(st) && 0 <= t < 5 && 0 <= j < 5
    requires Near(mark, st.prevMark[j]) || (Near(st.lastChordRow, mark) && st.lastChordRow != -1)
    requires !TapNear(st, mark)
    ensures IsHopo(Get(NoteLine(st, t, mark, length, resolution, hopoResolution, rowOf).notes, (t, rowOf(mark))))
        <==> ForcedNear(st, mark)
  {
    NoteLineNewNote(st, t, mark, length, resolution, hopoResolution, rowOf);
  }

  /** Near a tap row the new note is a tap or tap hold, whatever the HOPO
      rules and any forced row say. */
  lemma TapRowOverrides(st: ChartState, t: int, mark: int, length: int, resolution: int, hopoResolution: int,
                        rowOf: int -> int)
    requires Inv(st) && 0 <= t < 5
    requires TapNear(st, mark)
    ensures var r := NoteLine(st, t, mark, length, resolution, hopoResolution, rowOf);
      CategoryOf(Get(r.notes, (t, rowOf(mark))).kind) == 1 && !r.prevHopo[t]
  {
    NoteLineNewNote(st, t, mark, length, resolution, hopoResolution, rowOf);
  }

  // ----- lines and sections -----

  /** The words a line must have for the reader to stay within them: three
      words at least, a fourth after "E" or "N", a note column 0..5, and a
      length after a fret note. */
  predicate LineReadable(w: seq<string>)
  {
    && |w| >= 3
    && (w[2] == "E" ==> |w| >= 4)
    && (w[2] == "N" ==> |w| >= 4 && 0 <= Atoi(w[3]) <= 5 && (Atoi(w[3]) != 5 ==> |w| >= 5))
  }

  /** One content line of a note section. */
  function NoteSectionLine(st: ChartState, w: seq<string>, resolution: int, hopoResolution: int, rowOf: int -> int)
    : (r: ChartState)
    requires Inv(st) && LineReadable(w)
    ensures Inv(r)
    ensures w[2] != "E" && w[2] != "N" ==> r == st
  {
    if w[2] == "E" then
      var st1 := if w[3] == "*" then ForcedRow(st, Atoi(w[0]), rowOf) else st;
      if w[3] == "T" then TapRow(st1, Atoi(w[0]), rowOf) else st1
    else if w[2] == "N" then
      var t := Atoi(w[3]);
      if t == 5 then ForcedRow(st, Atoi(w[0]), rowOf)
      else NoteLine(st, t, Atoi(w[0]), Atoi(w[4]), resolution, hopoResolution, rowOf)
    else st
  }

  /** What a section reader does with a line: stop at the end of the text
      or at a closing brace, skip an opening brace, read anything else. */
  datatype LineKind = EndOfSection | SkipLine | ContentLine

  function KindOf(w: seq<string>): LineKind
    requires forall i :: 0 <= i < |w| ==> Word(w[i])
  {
    if |w| == 0 then EndOfSection
    else if (assert Word(w[0]); w[0][0] == '{') then SkipLine
    else if w[0][0] == '}' then EndOfSection
    else ContentLine
  }

  /** Every content line up to the end of the section is readable. */
  predicate SectionReadable(lines: seq<string>)
    decreases |lines|
  {
    |lines| == 0 ||
    var w := GetLineWords(lines[0]);
    match KindOf(w)
    case EndOfSection => true
    case SkipLine => SectionReadable(lines[1..])
    case ContentLine => LineReadable(w) && SectionReadable(lines[1..])
  }

  function ReadSection(lines: seq<string>, st: ChartState, resolution: int, hopoResolution: int, rowOf: int -> int)
    : (r: ChartState)
    requires Inv(st) && SectionReadable(lines)
    ensures Inv(r)
    decreases |lines|
  {
    if |lines| == 0 then st
    else
      var w := GetLineWords(lines[0]);
      match KindOf(w)
      case EndOfSection => st
      case SkipLine => ReadSection(lines[1..], st, resolution, hopoResolution, rowOf)
      case ContentLine =>
        ReadSection(lines[1..], NoteSectionLine(st, w, resolution, hopoResolution, rowOf), resolution, hopoResolution, rowOf)
  }

  /** `parseNoteSection`: six tracks, every note valid, nothing ever on the
      sixth track. */
  function ParseNoteSection(lines: seq<string>, resolution: int, hopoResolution: int, rowOf: int -> int): (r: NoteData)
    requires SectionReadable(lines)
    ensures r.tracks == 6
    ensures WellFormed(r) && FretsOnly(r)
  {
    ReadSection(lines, Initial(), resolution, hopoResolution, rowOf).notes
  }
}

=== FILE: chart_text.dfy ===
/** The text layer of the `.chart` reader: splitting a line into words
    (`getLineWords`), C's `atoi` on a word, and the mapping between
    difficulties and the names used in section headers (`parseDifficulty`,
    `difficultyToString`). */
module ChartText {
  import opened Difficulties

  /** The characters `std::istream` skips between words: space, tab,
      newline, vertical tab, form feed and carriage return. */
  predicate IsSpace(c: char)
  {
    c == ' ' || ('\t' <= c <= '\r')
  }

  /** A word as the stream extracts it: non-empty, without whitespace. */
  predicate Word(w: string)
  {
    |w| > 0 && forall i :: 0 <= i < |w| ==> !IsSpace(w[i])
  }

  /** The characters of `s` that are not whitespace, in order. */
  function NonSpace(s: string): string
  {
    if |s| == 0 then "" else (if IsSpace(s[0]) then "" else [s[0]]) + NonSpace(s[1..])
  }

  function Concat(ws: seq<string>): string
  {
    if |ws| == 0 then "" else ws[0] + Concat(ws[1..])
  }

  /** The words joined with one space between neighbours. */
  function Join(ws: seq<string>): (s: string)
    ensures |ws| > 0 ==> |s| >= |ws[0]|
  {
    if |ws| == 0 then "" else if |ws| == 1 then ws[0] else ws[0] + " " + Join(ws[1..])
  }

  /** The line with every tab removed. */
  function RemoveTabs(s: string): (r: string)
    ensures |r| <= |s|
    ensures forall i :: 0 <= i < |r| ==> r[i] != '\t'
    ensures (forall i :: 0 <= i < |s| ==> s[i] != '\t') ==> r == s
  {
    if |s| == 0 then ""
    else if s[0] == '\t' then RemoveTabs(s[1..])
    else [s[0]] + RemoveTabs(s[1..])
  }

  /** The length of the run of non-whitespace characters `s` starts with. */
  function WordLength(s: string): (n: nat)
    ensures n <= |s|
    ensures forall i :: 0 <= i < n ==> !IsSpace(s[i])
    ensures n < |s| ==> IsSpace(s[n])
  {
    if |s| == 0 || IsSpace(s[0]) then 0 else 1 + WordLength(s[1..])
  }

  /** Extracting words from a stream until it is exhausted. */
  function Words(s: string): (ws: seq<string>)
    ensures forall i :: 0 <= i < |ws| ==> Word(ws[i])
    ensures |ws| <= |s|
    decreases |s|
  {
    if |s| == 0 then []
    else if IsSpace(s[0]) then Words(s[1..])
    else
      var n := WordLength(s);
      [s[..n]] + Words(s[n..])
  }

  /** `getLineWords`: the words of a line once its tabs are removed.  No
      word is empty or holds a tab or other whitespace. */
  function GetLineWords(line: string): (ws: seq<string>)
    ensures forall i :: 0 <= i < |ws| ==> Word(ws[i])
    ensures forall i, j :: 0 <= i < |ws| && 0 <= j < |ws[i]| ==> ws[i][j] != '\t'
  {
    Words(RemoveTabs(line))
  }

  lemma {:induction false} NonSpaceAppend(a: string, b: string)
    ensures NonSpace(a + b) == NonSpace(a) + NonSpace(b)
    decreases |a|
  {
    if |a| > 0 {
      assert (a + b)[0] == a[0];
      assert (a + b)[1..] == a[1..] + b;
      NonSpaceAppend(a[1..], b);
    } else {
      assert a + b == b;
    }
  }

  lemma {:induction false} NonSpaceOfWord(w: string)
    requires forall i :: 0 <= i < |w| ==> !IsSpace(w[i])
    ensures NonSpace(w) == w
    decreases |w|
  {
    if |w| > 0 {
      NonSpaceOfWord(w[1..]);
      assert w == [w[0]] + w[1..];
    }
  }

  /** Splitting loses nothing but whitespace: the words, laid end to end,
      are exactly the non-whitespace characters of the text. */
  lemma {:induction false} WordsKeepText(s: string)
    ensures Concat(Words(s)) == NonSpace(s)
    decreases |s|
  {
    if |s| > 0 {
      if IsSpace(s[0]) {
        WordsKeepText(s[1..]);
      } else {
        var n := WordLength(s);
        WordsKeepText(s[n..]);
        assert s == s[..n] + s[n..];
        NonSpaceAppend(s[..n], s[n..]);
        NonSpaceOfWord(s[..n]);
        assert ([s[..n]] + Words(s[n..]))[1..] == Words(s[n..]);
      }
    }
  }

  lemma {:induction false} NonSpaceDropsTabs(s: string)
    ensures NonSpace(RemoveTabs(s)) == NonSpace(s)
    decreases |s|
  {
    if |s| > 0 {
      NonSpaceDropsTabs(s[1..]);
      if s[0] != '\t' {
        assert ([s[0]] + RemoveTabs(s[1..]))[1..] == RemoveTabs(s[1..]);
      }
    }
  }

  /** The words of a line are exactly its non-whitespace text. */
  lemma LineWordsKeepText(line: string)
    ensures Concat(GetLineWords(line)) == NonSpace(line)
  {
    WordsKeepText(RemoveTabs(line));
    NonSpaceDropsTabs(line);
  }

  lemma {:induction false} WordLengthOfWord(w: string, t: string)
    requires forall i :: 0 <= i < |w| ==> !IsSpace(w[i])
    requires |t| == 0 || IsSpace(t[0])
    ensures WordLength(w + t) == |w|
    decreases |w|
  {
    if |w| > 0 {
      assert (w + t)[1..] == w[1..] + t;
      WordLengthOfWord(w[1..], t);
    } else {
      assert w + t == t;
    }
  }

  /** Splitting undoes joining with single spaces. */
  lemma {:induction false} WordsOfJoin(ws: seq<string>)
    requires forall i :: 0 <= i < |ws| ==> Word(ws[i])
    ensures Words(Join(ws)) == ws
    decreases |ws|
  {
    if |ws| == 1 {
      WordLengthOfWord(ws[0], "");
      assert ws[0] + "" == ws[0];
      assert ws[0][|ws[0]|..] == "";
    } else if |ws| > 1 {
      var w, rest := ws[0], Join(ws[1..]);
      var s := w + " " + rest;
      WordLengthOfWord(w, " " + rest);
      assert s == w + (" " + rest);
      assert s[..|w|] == w;
      assert s[|w|..] == " " + rest;
      assert (" " + rest)[1..] == rest;
      WordsOfJoin(ws[1..]);
    }
  }

  /** A tab-free line built from words and single spaces splits back into
      those words. */
  lemma LineWordsOfJoin(ws: seq<string>)
    requires forall i :: 0 <= i < |ws| ==> Word(ws[i])
    ensures GetLineWords(Join(ws)) == ws
  {
    JoinHasNoTabs(ws);
    WordsOfJoin(ws);
  }

  lemma {:induction false} JoinHasNoTabs(ws: seq<string>)
    requires forall i :: 0 <= i < |ws| ==> Word(ws[i])
    ensures forall i :: 0 <= i < |Join(ws)| ==> Join(ws)[i] != '\t'
    decreases |ws|
  {
    if |ws| > 1 {
      JoinHasNoTabs(ws[1..]);
      var j := Join(ws);
      forall i | 0 <= i < |j| ensures j[i] != '\t' {
        if i < |ws[0]| {
          assert j[i] == ws[0][i];
        } else if i > |ws[0]| {
          assert j[i] == Join(ws[1..])[i - |ws[0]| - 1];
        }
      }
    }
  }

  // ----- atoi -----

  predicate IsDigit(c: char)
  {
    '0' <= c <= '9'
  }

  function DigitValue(c: char): nat
    requires IsDigit(c)
  {
    c as int - '0' as int
  }

  function DigitChar(d: nat): (c: char)
    requires d < 10
    ensures IsDigit(c) && DigitValue(c) == d
  {
    ('0' as int + d) as char
  }

  /** The length of the run of digits `s` starts with. */
  function DigitRun(s: string): (n: nat)
    ensures n <= |s|
    ensures forall i :: 0 <= i < n ==> IsDigit(s[i])
    ensures n < |s| ==> !IsDigit(s[n])
  {
    if |s| == 0 || !IsDigit(s[0]) then 0 else 1 + DigitRun(s[1..])
  }

  /** The decimal value of a string of digits. */
  function DigitsValue(ds: string): nat
    requires forall i :: 0 <= i < |ds| ==> IsDigit(ds[i])
  {
    if |ds| == 0 then 0 else DigitsValue(ds[..|ds| - 1]) * 10 + DigitValue(ds[|ds| - 1])
  }

  /** C's `atoi`: leading whitespace, an optional sign, then as many digits
      as follow; no digits gives 0.  Overflow (undefined in C) is not
      modelled: the value is unbounded. */
  function Atoi(s: string): (r: int)
    ensures |s| > 0 && IsDigit(s[0]) ==> r >= 0
    ensures |s| == 0 || (!IsSpace(s[0]) && !IsDigit(s[0]) && s[0] != '-' && s[0] != '+') ==> r == 0
  {
    SignedValue(s[LeadingSpace(s)..])
  }

  function SignedValue(t: string): int
  {
    if |t| > 0 && t[0] == '-' then -(UnsignedValue(t[1..]) as int)
    else if |t| > 0 && t[0] == '+' then UnsignedValue(t[1..])
    else UnsignedValue(t)
  }

  /** The value of the digits `u` starts with. */
  function UnsignedValue(u: string): nat
  {
    DigitsValue(u[..DigitRun(u)])
  }

  function LeadingSpace(s: string): (n: nat)
    ensures n <= |s|
    ensures n < |s| ==> !IsSpace(s[n])
    ensures |s| > 0 && !IsSpace(s[0]) ==> n == 0
  {
    if |s| == 0 || !IsSpace(s[0]) then 0 else 1 + LeadingSpace(s[1..])
  }

  /** The decimal digits of a natural number, without leading zeros. */
  function NatToString(n: nat): (s: string)
    ensures |s| > 0 && forall i :: 0 <= i < |s| ==> IsDigit(s[i])
  {
    if n < 10 then [DigitChar(n)] else NatToString(n / 10) + [DigitChar(n % 10)]
  }

  function IntToString(i: int): string
  {
    if i < 0 then "-" + NatToString(-i) else NatToString(i)
  }

  lemma {:induction false} NatToStringValue(n: nat)
    ensures DigitsValue(NatToString(n)) == n
  {
    if n >= 10 {
      var s := NatToString(n);
      assert s[..|s| - 1] == NatToString(n / 10);
      NatToStringValue(n / 10);
    }
  }

  lemma DigitRunOfDigits(ds: string, rest: string)
    requires forall i :: 0 <= i < |ds| ==> IsDigit(ds[i])
    requires |rest| == 0 || !IsDigit(rest[0])
    ensures DigitRun(ds + rest) == |ds|
  {
    var s := ds + rest;
    var n := DigitRun(s);
    assert forall k :: 0 <= k < |ds| ==> s[k] == ds[k];
    assert |ds| < |s| ==> s[|ds|] == rest[0];
  }

  /** `atoi` reads back any number written in decimal, whatever non-digit
      text follows it. */
  lemma AtoiOfIntToString(i: int, rest: string)
    requires |rest| == 0 || !IsDigit(rest[0])
    ensures Atoi(IntToString(i) + rest) == i
  {
    var n: nat := if i < 0 then -i else i;
    var ds := NatToString(n);
    var t := ds + rest;
    UnsignedOfDigits(ds, rest);
    NatToStringValue(n);
    assert UnsignedValue(t) == n;
    assert t[0] == ds[0];
    if i < 0 {
      var s := "-" + t;
      assert IntToString(i) + rest == s;
      assert s[0] == '-' && s[1..] == t;
      assert LeadingSpace(s) == 0;
      assert s[0..] == s;
      assert SignedValue(s) == -(n as int);
    } else {
      assert IntToString(i) + rest == t;
      assert LeadingSpace(t) == 0;
      assert t[0..] == t;
      assert SignedValue(t) == n;
    }
  }

  lemma UnsignedOfDigits(ds: string, rest: string)
    requires forall i :: 0 <= i < |ds| ==> IsDigit(ds[i])
    requires |rest| == 0 || !IsDigit(rest[0])
    ensures UnsignedValue(ds + rest) == DigitsValue(ds)
  {
    DigitRunOfDigits(ds, rest);
    assert (ds + rest)[..|ds|] == ds;
  }

  // ----- difficulty names -----

  /** `sub` occurs in `s` (`std::string::find` succeeds). */
  predicate Contains(s: string, sub: string)
  {
    exists i :: 0 <= i <= |s| && OccursAt(s, sub, i)
  }

  predicate OccursAt(s: string, sub: string, i: nat)
  {
    i + |sub| <= |s| && s[i..i + |sub|] == sub
  }

  /** `difficultyToString`: the names of the four guitar difficulties. */
  function DifficultyToString(d: Difficulty): (name: string)
    ensures d in {Easy, Medium, Hard, Challenge} <==> name != "Unknown"
  {
    match d
    case Challenge => "Expert"
    case Hard => "Hard"
    case Medium => "Medium"
    case Easy => "Easy"
    case _ => "Unknown"
  }

  /** `parseDifficulty`: the first of Expert, Hard, Medium, Easy that occurs
      anywhere in the section name. */
  function ParseDifficulty(s: string): (d: Difficulty)
    ensures d in {Easy, Medium, Hard, Challenge, Invalid}
    ensures d != Invalid ==> Contains(s, DifficultyToString(d))
    ensures Contains(s, "Expert") ==> d == Challenge
    ensures !Contains(s, "Expert") && Contains(s, "Hard") ==> d == Hard
    ensures !Contains(s, "Expert") && !Contains(s, "Hard") && Contains(s, "Medium") ==> d == Medium
    ensures !Contains(s, "Expert") && !Contains(s, "Hard") && !Contains(s, "Medium") && Contains(s, "Easy") ==> d == Easy
    ensures d == Invalid <==>
      !Contains(s, "Expert") && !Contains(s, "Hard") && !Contains(s, "Medium") && !Contains(s, "Easy")
  {
    if Contains(s, "Expert") then Challenge
    else if Contains(s, "Hard") then Hard
    else if Contains(s, "Medium") then Medium
    else if Contains(s, "Easy") then Easy
    else Invalid
  }

  lemma ContainsItself(s: string)
    ensures Contains(s, s)
  {
    assert s[0..|s|] == s;
    assert OccursAt(s, s, 0);
  }

  /** A string without a word's first character, or shorter than the word,
      does not contain it. */
  lemma {:induction false} Absent(s: string, sub: string)
    requires |sub| > 0 && (sub[0] !in s || |sub| > |s|)
    ensures !Contains(s, sub)
  {
    forall i | 0 <= i <= |s|
      ensures !OccursAt(s, sub, i)
    {
      if i + |sub| <= |s| {
        assert s[i..i + |sub|][0] == s[i];
        assert s[i] in s;
      }
    }
  }

  /** Parsing the name of a difficulty gives the difficulty back, and the
      name every other difficulty gets ("Unknown") parses as invalid. */
  lemma ParseDifficultyOfName(d: Difficulty)
    ensures d in {Easy, Medium, Hard, Challenge} ==> ParseDifficulty(DifficultyToString(d)) == d
    ensures d !in {Easy, Medium, Hard, Challenge} ==> ParseDifficulty(DifficultyToString(d)) == Invalid
  {
    var s := DifficultyToString(d);
    ContainsItself(s);
    if d == Medium {
      Absent(s, "Expert");
      Absent(s, "Hard");
    } else if d == Easy {
      Absent(s, "Expert");
      Absent(s, "Hard");
      Absent(s, "Medium");
    } else if d == Hard {
      Absent(s, "Expert");
    } else if d != Challenge {
      Absent(s, "Expert");
      Absent(s, "Hard");
      Absent(s, "Medium");
      Absent(s, "Easy");
    }
  }
}

=== FILE: common.dfy ===
/** Small shared vocabulary: an optional value, C integer division,
    difficulty slots and the note grid both chart loaders write into. */
module Wrappers {

  /** The conventional optional value, used for null pointers and
      "not found" results of the source. */
  datatype Option<+T> = None | Some(value: T)
}

module CInt {

  function Abs(x: int): nat
  {
    if x < 0 then -x else x
  }

  /** Integer division as C and C++ define it: the quotient is truncated
      toward zero, so its magnitude is the quotient of the magnitudes and
      its sign is the product of the operands' signs.  Dafny's own `/` is
      Euclidean and differs for a negative dividend. */
  function Div(a: int, b: int): (q: int)
    requires b != 0
    ensures Abs(q) == Abs(a) / Abs(b)
    ensures q > 0 ==> (a > 0 <==> b > 0)
    ensures q < 0 ==> (a > 0 <==> b < 0)
    ensures a >= 0 && b > 0 ==> q == a / b
  {
    QuotientFacts(Abs(a), Abs(b));
    var n := Abs(a) / Abs(b);
    if (a >= 0) == (b > 0) then n else -n
  }

  lemma QuotientFacts(x: int, y: int)
    requires x >= 0 && y > 0
    ensures x / y >= 0
    ensures x / y > 0 ==> x >= y
  {
  }
}

module Difficulties {

  /** The difficulty slots a chart can occupy; `Invalid` is the unset value. */
  datatype Difficulty = Beginner | Easy | Medium | Hard | Challenge | Edit | Invalid
}

/** The two `song.ini` values the loaders read, in section `[song]`. */
module IniSettings {
  import opened Wrappers

  /** `NoIni` when the file cannot be read; otherwise each key is present
      or not. */
  datatype SongIni = NoIni | Ini(hopofreq: Option<int>, eighthNoteHopo: Option<bool>)
}

/** The note grid (`NoteData`): a fixed number of tracks, each a sparse
    map from row to tap note.  An absent cell is the empty tap note.  A
    hold note is stored in its head cell together with its length in rows. */
module NoteGrid {

  datatype TapKind = Empty | Tap | HoldHead | Gem | GemHold | Hopo | HopoHold

  predicate IsHeld(k: TapKind)
  {
    k == HoldHead || k == GemHold || k == HopoHold
  }

  datatype TapNote = TapNote(kind: TapKind, duration: int)

  const TapEmpty: TapNote := TapNote(Empty, 0)

  /** (track, row) */
  type Cell = (int, int)

  datatype NoteData = NoteData(tracks: nat, cells: map<Cell, TapNote>)

  /** A grid with `n` tracks and no notes (`SetNumTracks` on a cleared grid). */
  function Blank(n: nat): NoteData
  {
    NoteData(n, map[])
  }

  /** A stored note is never empty, and is held exactly when it has a length. */
  predicate ValidTap(tn: TapNote)
  {
    tn.kind != Empty && tn.duration >= 0 && (IsHeld(tn.kind) <==> tn.duration > 0)
  }

  /** Every stored note lies on one of the grid's tracks and is valid. */
  predicate WellFormed(g: NoteData)
  {
    forall c :: c in g.cells ==> 0 <= c.0 < g.tracks && ValidTap(g.cells[c])
  }

  function Get(g: NoteData, c: Cell): TapNote
  {
    if c in g.cells then g.cells[c] else TapEmpty
  }

  predicate IsHopo(tn: TapNote)
  {
    tn.kind == Hopo || tn.kind == HopoHold
  }

  /** The note category the loaders work with: 1 tap/hold, 2 gem/gem hold,
      3 HOPO/HOPO hold, 0 for the empty note. */
  function CategoryOf(k: TapKind): int
  {
    match k
    case Empty => 0
    case Tap => 1
    case HoldHead => 1
    case Gem => 2
    case GemHold => 2
    case Hopo => 3
    case HopoHold => 3
  }

  /** Grids `a` and `b` agree on every cell other than `except`. */
  ghost predicate SameExcept(a: NoteData, b: NoteData, except: set<Cell>)
  {
    a.tracks == b.tracks && forall c :: c !in except ==> Get(a, c) == Get(b, c)
  }

  /** `SetTapNote`: writing the empty note erases the cell. */
  function SetTap(g: NoteData, c: Cell, tn: TapNote): (r: NoteData)
    ensures Get(r, c) == (if tn.kind == Empty then TapEmpty else tn)
    ensures SameExcept(g, r, {c})
    ensures r.cells.Keys <= g.cells.Keys + {c}
    ensures WellFormed(g) && 0 <= c.0 < g.tracks && (tn.kind == Empty || ValidTap(tn)) ==> WellFormed(r)
  {
    if tn.kind == Empty then NoteData(g.tracks, g.cells - {c})
    else NoteData(g.tracks, g.cells[c := tn])
  }

  function SingleKindOf(category: int): TapKind
  {
    if category == 1 then Tap
    else if category == 2 then Gem
    else if category == 3 then Hopo
    else Empty
  }

  function HeldKindOf(category: int): TapKind
  {
    if category == 1 then HoldHead
    else if category == 2 then GemHold
    else if category == 3 then HopoHold
    else Empty
  }

  /** The note a loader means when it asks for category `category` between
      rows `start` and `end`: a hold exactly when `end > start`. */
  function Intended(category: int, start: int, end: int): TapNote
  {
    if !(1 <= category <= 3) then TapEmpty
    else if end > start then TapNote(HeldKindOf(category), end - start)
    else TapNote(SingleKindOf(category), 0)
  }

  /** Re-placing a valid note with its own length keeps the length and
      takes the new category. */
  lemma IntendedKeepsLength(category: int, row: int, tn: TapNote)
    requires 1 <= category <= 3
    ensures Intended(category, row, row + tn.duration) != TapEmpty
    ensures CategoryOf(Intended(category, row, row + tn.duration).kind) == category
    ensures ValidTap(tn) ==> Intended(category, row, row + tn.duration).duration == tn.duration
  {
  }

  /** Writes a note of the given category at (track, start): a hold head
      (`AddHoldNote`) when `end > start`, a single tap (`SetTapNote`)
      otherwise.  A category outside 1..3 writes the empty note. */
  function Place(g: NoteData, track: int, start: int, end: int, category: int): (r: NoteData)
    ensures Get(r, (track, start)) == Intended(category, start, end)
    ensures 1 <= category <= 3 ==> CategoryOf(Get(r, (track, start)).kind) == category
    ensures 1 <= category <= 3 ==> (IsHeld(Get(r, (track, start)).kind) <==> end > start)
    ensures SameExcept(g, r, {(track, start)})
    ensures r.cells.Keys <= g.cells.Keys + {(track, start)}
    ensures WellFormed(g) && 0 <= track < g.tracks ==> WellFormed(r)
  {
    SetTap(g, (track, start), Intended(category, start, end))
  }

  /** The notes of tracks 0..n-1 at one row. */
  function RowTaps(g: NoteData, row: int, n: nat): (taps: seq<TapNote>)
    ensures |taps| == n
    ensures forall i :: 0 <= i < n ==> taps[i] == Get(g, (i, row))
  {
    seq(n, i requires 0 <= i < n => Get(g, (i, row)))
  }

  /** The column-remapping copy (`LoadTransformed`): new track c takes every
      note of original track `trackMap[c]`; a map entry naming no track of
      the original leaves the new track empty. */
  function LoadTransformed(original: NoteData, n: nat, trackMap: seq<int>): (r: NoteData)
    requires |trackMap| == n
    ensures r.tracks == n
    ensures forall c: Cell :: 0 <= c.0 < n && 0 <= trackMap[c.0] < original.tracks ==>
      Get(r, c) == Get(original, (trackMap[c.0], c.1))
    ensures forall c: Cell :: 0 <= c.0 < n && !(0 <= trackMap[c.0] < original.tracks) ==> Get(r, c) == TapEmpty
    ensures forall c: Cell :: !(0 <= c.0 < n) ==> Get(r, c) == TapEmpty
    ensures WellFormed(original) ==> WellFormed(r)
  {
    var keys := set k, t | k in original.cells && 0 <= t < n && trackMap[t] == k.0 && 0 <= k.0 < original.tracks :: (t, k.1);
    NoteData(n, map c | c in keys :: original.cells[(trackMap[c.0], c.1)])
  }
}

=== FILE: midi_events.dfy ===
/** The parsed MIDI file as the loader sees it: a list of tracks, each an
    ordered list of events.  Reading the bytes of a `.mid` file into this
    form is done by the MIDI file reader, which is not part of this model. */
module MidiEvents {

  /** A raw byte of a sysex payload or a MIDI data byte. */
  newtype byte = x: int | 0 <= x < 256

  datatype NoteSub = NoteOn | NoteOff | OtherNoteSub

  /** Meta events.  A track-name event carries the raw character buffer the
      reader produced, which ends with a NUL character. */
  datatype MetaSub =
    | TrackName(buffer: seq<char>)
    | Tempo
    | TimeSignature(numerator: int, denominator: int)
    | Text(text: seq<char>)
    | Lyric(text: seq<char>)
    | OtherMeta

  datatype MidiEvent =
    | NoteEvent(tick: int, sub: NoteSub, pitch: byte, velocity: byte)
    | SysexEvent(tick: int, payload: seq<byte>)
    | MetaEvent(tick: int, meta: MetaSub)
    | OtherEvent(tick: int)

  datatype MidiFile = MidiFile(ticksPerBeat: int, tracks: seq<seq<MidiEvent>>)

  /** Time signatures with a zero numerator or denominator are read as 4
      (`parseBeatTrack`); the rest of the tempo map is not modelled. */
  function SafeTimeSignature(numerator: int, denominator: int): (r: (int, int))
    ensures r.0 != 0 && r.1 != 0
    ensures numerator != 0 ==> r.0 == numerator
    ensures denominator != 0 ==> r.1 == denominator
  {
    (if numerator == 0 then 4 else numerator, if denominator == 0 then 4 else denominator)
  }
}

=== FILE: midi_guitar.dfy ===
/** The stateful Guitar Hero / Rock Band note classifier of the MIDI loader:
    pitch windows (`getNoteRangeForDifficulty`), the per-column state
    (`GuitarData`), the HOPO test (`checkHOPOConditions`) and note placement
    (`addGHRBNote`). */
module MidiGuitar {
  import opened CInt
  import opened Difficulties
  import opened NoteGrid
  import opened MidiOrganizer

  /** Grid columns: five frets and an open column, or six frets and an
      open column. */
  function ColsFor(frets: ChartFrets): nat
  {
    if frets == FiveFrets then 6 else 7
  }

  /** MIDI pitches of one difficulty: the grid columns plus the forced-HOPO
      and forced-strum markers (plus the open note for six frets). */
  function BonusCols(frets: ChartFrets): nat
  {
    if frets == SixFrets then 2 else 1
  }

  /** `getNoteRangeForDifficulty`, with the caller's initial (0, 0) for a
      difficulty it has no range for. */
  function NoteRange(diff: Difficulty, frets: ChartFrets): (range: (int, int))
    ensures diff in {Easy, Medium, Hard, Challenge} ==>
      range.1 - range.0 + 1 == ColsFor(frets) + BonusCols(frets)
    ensures diff in {Easy, Medium, Hard, Challenge} ==> range.1 % 12 == 6 && 60 <= range.1 <= 102
    ensures diff !in {Easy, Medium, Hard, Challenge} ==> range == (0, 0)
  {
    var ghl := frets == SixFrets;
    match diff
    case Easy => (if ghl then 58 else 60, 66)
    case Medium => (if ghl then 70 else 72, 78)
    case Hard => (if ghl then 82 else 84, 90)
    case Challenge => (if ghl then 94 else 96, 102)
    case _ => (0, 0)
  }

  /** The four windows are disjoint and ordered by difficulty. */
  lemma NoteRangesDisjoint(frets: ChartFrets)
    ensures NoteRange(Easy, frets).1 < NoteRange(Medium, frets).0
    ensures NoteRange(Medium, frets).1 < NoteRange(Hard, frets).0
    ensures NoteRange(Hard, frets).1 < NoteRange(Challenge, frets).0
  {
  }

  datatype GuitarData = GuitarData(
    prevNoteMark: seq<int>,
    prevNoteTrack: int,
    lastForcedHopo: int,
    lastForcedStrum: int,
    lastChordRow: int,
    resolution: int,
    hopoResolution: int,
    cols: nat,
    inTapSection: bool,
    inOpenSection: bool,
    rules: HopoRules,
    frets: ChartFrets)

  predicate Valid(gd: GuitarData)
  {
    gd.cols == ColsFor(gd.frets) && |gd.prevNoteMark| == gd.cols
  }

  /** `getNewGuitarData`: every mark unset (-1), no section active. */
  function NewGuitarData(resolution: int, hopoResolution: int, rules: HopoRules, frets: ChartFrets): (gd: GuitarData)
    ensures Valid(gd)
    ensures forall k :: 0 <= k < gd.cols ==> gd.prevNoteMark[k] == -1
    ensures gd.prevNoteTrack == -1 && gd.lastForcedHopo == -1 && gd.lastForcedStrum == -1 && gd.lastChordRow == -1
    ensures !gd.inTapSection && !gd.inOpenSection
    ensures gd.resolution == resolution && gd.hopoResolution == hopoResolution && gd.rules == rules && gd.frets == frets
  {
    var cols := ColsFor(frets);
    GuitarData(seq(cols, _ => -1), -1, -1, -1, -1, resolution, hopoResolution, cols, false, false, rules, frets)
  }

  /** The scan in `checkHOPOConditions` over columns 0..k-1: whether some
      other column's previous note lies inside the HOPO window, and the
      latest previous mark (starting from -1) with its column. */
  function WindowScan(gd: GuitarData, col: int, mark: int, k: nat): (res: (bool, int, int))
    requires Valid(gd) && k <= gd.cols
    ensures res.0 <==> exists j :: 0 <= j < k && InWindow(gd, col, mark, j)
    ensures res.1 >= -1 && forall j :: 0 <= j < k ==> gd.prevNoteMark[j] <= res.1
    ensures res.2 == -1 <==> res.1 == -1
    ensures res.2 != -1 ==> 0 <= res.2 < k && gd.prevNoteMark[res.2] == res.1
  {
    if k == 0 then (false, -1, -1)
    else
      var (should, latest, latestTrack) := WindowScan(gd, col, mark, k - 1);
      var m := gd.prevNoteMark[k - 1];
      (should || InWindow(gd, col, mark, k - 1),
       if m > latest then m else latest,
       if m > latest then k - 1 else latestTrack)
  }

  /** Column `j` held a note no more than the HOPO window before `mark`. */
  predicate InWindow(gd: GuitarData, col: int, mark: int, j: nat)
    requires Valid(gd) && j < gd.cols
  {
    mark - gd.prevNoteMark[j] <= gd.hopoResolution && col != j && gd.prevNoteMark[j] != -1
  }

  /** Under RB rules a note in the column of the latest previous note
      follows the chord it was part of. */
  predicate FollowsOwnChord(gd: GuitarData, col: int)
    requires Valid(gd) && 0 <= col < gd.cols
  {
    gd.rules == RbRules && gd.prevNoteMark[col] > -1
    && forall k :: 0 <= k < gd.cols ==> gd.prevNoteMark[k] <= gd.prevNoteMark[col]
  }

  /** `checkHOPOConditions`: forced strum beats forced HOPO beats chord; then
      a HOPO iff another column's previous note is inside the window, unless
      under RB rules this column holds the latest previous note. */
  function CheckHopoConditions(col: int, mark: int, gd: GuitarData): (r: bool)
    requires Valid(gd) && 0 <= col < gd.cols
    ensures gd.lastForcedStrum == mark ==> !r
    ensures gd.lastForcedStrum != mark && gd.lastForcedHopo == mark && mark != -1 ==> r
    ensures r <==>
      gd.lastForcedStrum != mark &&
      ((gd.lastForcedHopo == mark && mark != -1) ||
       (!(gd.lastChordRow == mark && mark != -1)
        && (exists j :: 0 <= j < gd.cols && InWindow(gd, col, mark, j))
        && !FollowsOwnChord(gd, col)))
  {
    if gd.lastForcedStrum == mark then false
    else if gd.lastForcedHopo == mark && gd.lastForcedHopo != -1 then true
    else if gd.lastChordRow == mark && gd.lastChordRow != -1 then false
    else
      var (should, latest, latestTrack) := WindowScan(gd, col, mark, gd.cols);
      if gd.rules == RbRules && latestTrack != -1 && gd.prevNoteMark[col] != -1
        && latest != -1 && gd.prevNoteMark[col] == latest
      then false
      else should
  }

  /** Column index of the highest occupied cell among `taps`, or -1. */
  function Highest(taps: seq<TapNote>): (h: int)
    ensures -1 <= h < |taps|
    ensures h == -1 <==> forall i :: 0 <= i < |taps| ==> taps[i] == TapEmpty
    ensures h != -1 ==> taps[h] != TapEmpty && forall i :: h < i < |taps| ==> taps[i] == TapEmpty
  {
    if |taps| == 0 then -1
    else if taps[|taps| - 1] != TapEmpty then |taps| - 1
    else Highest(taps[..|taps| - 1])
  }

  /** The cells of tracks 0..n-1 at one row. */
  function RowCells(row: int, n: nat): (cells: set<Cell>)
    ensures forall c :: c in cells <==> 0 <= c.0 < n && c.1 == row
  {
    set t | 0 <= t < n :: (t, row)
  }

  /** The forced-HOPO rewrite of one row, tracks 0..n-1: the highest
      occupied column becomes a HOPO of the same length, every other
      occupied column is cleared. */
  function ForceHopoRow(g: NoteData, row: int, taps: seq<TapNote>, highest: int, n: nat): (r: NoteData)
    requires n <= |taps|
    requires forall t :: 0 <= t < n ==> taps[t] == Get(g, (t, row))
    ensures SameExcept(g, r, RowCells(row, n))
    ensures forall t :: 0 <= t < n ==>
      Get(r, (t, row)) == (if taps[t] != TapEmpty && t == highest then Intended(3, row, row + taps[t].duration) else TapEmpty)
    ensures WellFormed(g) && n <= g.tracks ==> WellFormed(r)
  {
    if n == 0 then g
    else
      var g1 := ForceHopoRow(g, row, taps, highest, n - 1);
      var t := n - 1;
      assert Get(g1, (t, row)) == taps[t];
      if taps[t] == TapEmpty then g1
      else if t == highest then Place(g1, t, row, row + taps[t].duration, 3)
      else SetTap(g1, (t, row), TapEmpty)
  }

  /** The forced-strum rewrite of one row: every occupied column becomes a
      gem of the same length. */
  function ForceStrumRow(g: NoteData, row: int, taps: seq<TapNote>, n: nat): (r: NoteData)
    requires n <= |taps|
    requires forall t :: 0 <= t < n ==> taps[t] == Get(g, (t, row))
    ensures SameExcept(g, r, RowCells(row, n))
    ensures forall t :: 0 <= t < n ==>
      Get(r, (t, row)) == (if taps[t] == TapEmpty then TapEmpty else Intended(2, row, row + taps[t].duration))
    ensures WellFormed(g) && n <= g.tracks ==> WellFormed(r)
  {
    if n == 0 then g
    else
      var g1 := ForceStrumRow(g, row, taps, n - 1);
      var t := n - 1;
      assert Get(g1, (t, row)) == taps[t];
      if taps[t] == TapEmpty then g1
      else Place(g1, t, row, row + taps[t].duration, 2)
  }

  /** MIDI column `col` marks a forced HOPO / a forced strum. */
  predicate ForcedHopoMarker(col: int, cols: nat)
  {
    (col == 5 && cols == 6) || (col == 7 && cols == 7)
  }

  predicate ForcedStrumMarker(col: int, cols: nat)
  {
    (col == 6 && cols == 6) || (col == 8 && cols == 7)
  }

  /** The column remap of six-fret charts: their MIDI windows put the open
      note first. */
  function RemapColumn(col: int, cols: nat): (c: int)
    ensures cols != 7 ==> c == col
    ensures cols == 7 && 0 <= col < 7 ==> -1 <= c < 6 && (c == -1 <==> col == 0)
    ensures cols == 7 && 0 <= col < 7 ==> c + 1 == col
    ensures col >= 7 ==> c == col
  {
    if cols == 7 && col < 7 then col - 1 else col
  }

  /** The grid column a normal note lands in. */
  function NoteColumn(col: int, gd: GuitarData): (c: int)
    ensures gd.inOpenSection ==> c == gd.cols - 1
    ensures gd.cols == 7 && col == -1 ==> c == 6
    ensures !gd.inOpenSection && col != -1 ==> c == col
    ensures Valid(gd) && -1 <= col < gd.cols - 1 && (col == -1 ==> gd.cols == 7) ==> 0 <= c < gd.cols
  {
    if gd.inOpenSection || (col == -1 && gd.cols == 7) then gd.cols - 1 else col
  }

  /** The end tick actually used: a note held for at most half a beat is a
      tap, a longer one is shortened by a 32nd note. */
  function RealEnd(start: int, end: int, resolution: int): (e: int)
    ensures end - start > Div(resolution, 2) ==> e == end - Div(resolution, 8)
    ensures end - start <= Div(resolution, 2) ==> e == start
  {
    if end - start > Div(resolution, 2) then end - Div(resolution, 8) else start
  }

  /** `addGHRBNote`: adds the note held in MIDI column `col` from tick
      `start` to tick `end`; `rowOf` converts a tick to a grid row. */
  function AddGhrbNote(notes: NoteData, col: int, start: int, end: int, gd: GuitarData, rowOf: int -> int)
    : (r: (NoteData, GuitarData))
    requires Valid(gd) && notes.tracks == gd.cols
    requires 0 <= col < gd.cols + BonusCols(gd.frets)
    ensures Valid(r.1) && r.0.tracks == gd.cols
    ensures r.1.cols == gd.cols && r.1.frets == gd.frets
    ensures WellFormed(notes) ==> WellFormed(r.0)
    ensures SameExcept(notes, r.0, RowCells(rowOf(start), gd.cols))
  {
    var c := RemapColumn(col, gd.cols);
    if ForcedHopoMarker(c, gd.cols) then ForcedHopoNote(notes, start, gd, rowOf)
    else if ForcedStrumMarker(c, gd.cols) then ForcedStrumNote(notes, start, gd, rowOf)
    else NormalNote(notes, NoteColumn(c, gd), start, RealEnd(start, end, gd.resolution), gd, rowOf)
  }

  /** A forced-HOPO marker: on an occupied row exactly one note survives,
      in the highest occupied column, as a HOPO of the length it had; the
      marker's tick is recorded and no mark moves. */
  function ForcedHopoNote(notes: NoteData, start: int, gd: GuitarData, rowOf: int -> int): (r: (NoteData, GuitarData))
    requires Valid(gd) && notes.tracks == gd.cols
    ensures r.1 == gd.(lastForcedHopo := start)
    ensures r.0.tracks == gd.cols
    ensures WellFormed(notes) ==> WellFormed(r.0)
    ensures SameExcept(notes, r.0, RowCells(rowOf(start), gd.cols))
    ensures var row := rowOf(start); var h := Highest(RowTaps(notes, row, gd.cols));
      && (forall t :: 0 <= t < gd.cols ==> (Get(r.0, (t, row)) != TapEmpty <==> t == h))
      && (h != -1 ==> IsHopo(Get(r.0, (h, row))))
      && (h != -1 && WellFormed(notes) ==> Get(r.0, (h, row)).duration == Get(notes, (h, row)).duration)
      && (forall t :: 0 <= t < gd.cols && Get(notes, (t, row)) != TapEmpty ==> t <= h)
  {
    var row := rowOf(start);
    var taps := RowTaps(notes, row, gd.cols);
    var h := Highest(taps);
    var g := if h != -1 then ForceHopoRow(notes, row, taps, h, gd.cols) else notes;
    assert h != -1 && WellFormed(notes) ==> ValidTap(notes.cells[(h, row)]) by {
      if h != -1 && WellFormed(notes) {
        assert (h, row) in notes.cells;
      }
    }
    (g, gd.(lastForcedHopo := start))
  }

  /** The occupied cells of a well-formed grid hold valid notes. */
  lemma RowTapsValid(notes: NoteData, row: int, n: nat)
    ensures WellFormed(notes) ==>
      forall t :: 0 <= t < n && RowTaps(notes, row, n)[t] != TapEmpty ==> ValidTap(RowTaps(notes, row, n)[t])
  {
    if WellFormed(notes) {
      forall t | 0 <= t < n && RowTaps(notes, row, n)[t] != TapEmpty
        ensures ValidTap(RowTaps(notes, row, n)[t])
      {
        assert (t, row) in notes.cells;
      }
    }
  }

  /** A forced-strum marker: every occupied cell of the row becomes a gem
      of the length it had, empty cells stay empty, and no mark moves. */
  function ForcedStrumNote(notes: NoteData, start: int, gd: GuitarData, rowOf: int -> int): (r: (NoteData, GuitarData))
    requires Valid(gd) && notes.tracks == gd.cols
    ensures r.1 == gd.(lastForcedStrum := start)
    ensures r.0.tracks == gd.cols
    ensures WellFormed(notes) ==> WellFormed(r.0)
    ensures SameExcept(notes, r.0, RowCells(rowOf(start), gd.cols))
    ensures var row := rowOf(start);
      forall t :: 0 <= t < gd.cols ==>
        && (Get(r.0, (t, row)) == TapEmpty <==> Get(notes, (t, row)) == TapEmpty)
        && (Get(notes, (t, row)) != TapEmpty ==> CategoryOf(Get(r.0, (t, row)).kind) == 2)
        && (Get(notes, (t, row)) != TapEmpty && WellFormed(notes) ==>
              Get(r.0, (t, row)).duration == Get(notes, (t, row)).duration)
  {
    var row := rowOf(start);
    var taps := RowTaps(notes, row, gd.cols);
    var g := if Highest(taps) != -1 then ForceStrumRow(notes, row, taps, gd.cols) else notes;
    RowTapsValid(notes, row, gd.cols);
    assert forall t :: 0 <= t < gd.cols && taps[t] != TapEmpty ==> Get(g, (t, row)) == Intended(2, row, row + taps[t].duration);
    forall t | 0 <= t < gd.cols && taps[t] != TapEmpty {
      IntendedKeepsLength(2, row, taps[t]);
    }
    (g, gd.(lastForcedStrum := start))
  }

  /** A normal note in grid column `nc` from tick `start` to `realEnd`. */
  function NormalNote(notes: NoteData, nc: int, start: int, realEnd: int, gd: GuitarData, rowOf: int -> int)
    : (r: (NoteData, GuitarData))
    requires Valid(gd) && notes.tracks == gd.cols && 0 <= nc < gd.cols
    ensures Valid(r.1) && r.0.tracks == gd.cols
    ensures r.1.cols == gd.cols && r.1.frets == gd.frets
    ensures WellFormed(notes) ==> WellFormed(r.0)
    ensures SameExcept(notes, r.0, RowCells(rowOf(start), gd.cols))
  {
    var startRow := rowOf(start);
    var endRow := rowOf(realEnd);
    var taps := RowTaps(notes, startRow, gd.cols);
    var highest := Highest(taps);
    if gd.inTapSection then
      (Place(notes, nc, startRow, endRow, 1), Record(gd, nc, start))
    else if highest != -1 then
      var wasHopo := IsHopo(taps[highest]);
      if start == gd.lastForcedHopo then
        if nc < highest then (notes, gd)
        else
          var g := Place(SetTap(notes, (highest, startRow), TapEmpty), nc, startRow, endRow, if wasHopo then 3 else 2);
          (g, Record(gd.(lastChordRow := start), nc, start))
      else
        var g1 := if wasHopo then Place(notes, highest, startRow, startRow + taps[highest].duration, 2) else notes;
        (Place(g1, nc, startRow, endRow, 2), Record(gd.(lastChordRow := start), nc, start))
    else
      var isHopo := CheckHopoConditions(nc, start, gd);
      (Place(notes, nc, startRow, endRow, if isHopo then 3 else 2), Record(gd, nc, start))
  }

  /** The bookkeeping after a normal note: its column's mark and the last
      column used. */
  function Record(gd: GuitarData, col: int, start: int): (r: GuitarData)
    requires Valid(gd) && 0 <= col < gd.cols
    ensures Valid(r)
    ensures r == gd.(prevNoteMark := r.prevNoteMark, prevNoteTrack := col)
    ensures r.prevNoteMark[col] == start
    ensures forall k :: 0 <= k < gd.cols && k != col ==> r.prevNoteMark[k] == gd.prevNoteMark[k]
  {
    gd.(prevNoteMark := gd.prevNoteMark[col := start], prevNoteTrack := col)
  }

  /** Inside a tap section a normal note is a tap or hold (category 1), and
      it becomes the latest mark of its column. */
  lemma TapSectionPlacesTaps(notes: NoteData, col: int, start: int, end: int, gd: GuitarData, rowOf: int -> int)
    requires Valid(gd) && notes.tracks == gd.cols
    requires 0 <= col < gd.cols + BonusCols(gd.frets)
    requires !ForcedHopoMarker(RemapColumn(col, gd.cols), gd.cols) && !ForcedStrumMarker(RemapColumn(col, gd.cols), gd.cols)
    requires gd.inTapSection
    ensures var (g, gd') := AddGhrbNote(notes, col, start, end, gd, rowOf);
      var nc := NoteColumn(RemapColumn(col, gd.cols), gd);
      && 0 <= nc < gd.cols
      && CategoryOf(Get(g, (nc, rowOf(start))).kind) == 1
      && gd'.prevNoteMark[nc] == start && gd'.prevNoteTrack == nc
  {
  }

  /** A normal note on an empty row is a HOPO exactly when
      `checkHOPOConditions` says so, and a gem otherwise. */
  lemma LoneNoteFollowsHopoTest(notes: NoteData, col: int, start: int, end: int, gd: GuitarData, rowOf: int -> int)
    requires Valid(gd) && notes.tracks == gd.cols
    requires 0 <= col < gd.cols + BonusCols(gd.frets)
    requires !ForcedHopoMarker(RemapColumn(col, gd.cols), gd.cols) && !ForcedStrumMarker(RemapColumn(col, gd.cols), gd.cols)
    requires !gd.inTapSection
    requires forall t :: 0 <= t < gd.cols ==> Get(notes, (t, rowOf(start))) == TapEmpty
    ensures var (g, gd') := AddGhrbNote(notes, col, start, end, gd, rowOf);
      var nc := NoteColumn(RemapColumn(col, gd.cols), gd);
      && 0 <= nc < gd.cols
      && (IsHopo(Get(g, (nc, rowOf(start)))) <==> CheckHopoConditions(nc, start, gd))
      && CategoryOf(Get(g, (nc, rowOf(start))).kind) in {2, 3}
      && gd'.prevNoteMark[nc] == start && gd'.prevNoteTrack == nc
  {
    var taps := RowTaps(notes, rowOf(start), gd.cols);
    assert Highest(taps) == -1;
  }

  /** A note on an occupied row that is not a forced-HOPO row makes a chord:
      the new note is a gem, the highest previously occupied column holds
      no HOPO any more (a HOPO there is demoted to a gem of the same
      length), and the row is remembered as a chord row. */
  lemma ChordRowMakesGems(notes: NoteData, nc: int, start: int, realEnd: int, gd: GuitarData, rowOf: int -> int)
    requires Valid(gd) && notes.tracks == gd.cols && 0 <= nc < gd.cols
    requires !gd.inTapSection && start != gd.lastForcedHopo
    requires exists t :: 0 <= t < gd.cols && Get(notes, (t, rowOf(start))) != TapEmpty
    ensures var (g, gd') := NormalNote(notes, nc, start, realEnd, gd, rowOf);
      var row := rowOf(start);
      var h := Highest(RowTaps(notes, row, gd.cols));
      && 0 <= h < gd.cols
      && CategoryOf(Get(g, (nc, row)).kind) == 2
      && !IsHopo(Get(g, (h, row)))
      && gd'.lastChordRow == start && gd'.prevNoteMark[nc] == start && gd'.prevNoteTrack == nc
  {
    var row := rowOf(start);
    var taps := RowTaps(notes, row, gd.cols);
    var t0 :| 0 <= t0 < gd.cols && Get(notes, (t0, row)) != TapEmpty;
    assert taps[t0] != TapEmpty;
    var h := Highest(taps);
    assert h != -1;
  }

  /** On a forced-HOPO row only the highest note is kept: a lower note
      arriving there is dropped without any change, a note at or above
      the highest one replaces it and inherits its HOPO-ness. */
  lemma ForcedChordKeepsHighest(notes: NoteData, nc: int, start: int, realEnd: int, gd: GuitarData, rowOf: int -> int)
    requires Valid(gd) && notes.tracks == gd.cols && 0 <= nc < gd.cols
    requires !gd.inTapSection && start == gd.lastForcedHopo
    requires exists t :: 0 <= t < gd.cols && Get(notes, (t, rowOf(start))) != TapEmpty
    ensures var row := rowOf(start);
      var h := Highest(RowTaps(notes, row, gd.cols));
      && 0 <= h < gd.cols
      && (nc < h ==> NormalNote(notes, nc, start, realEnd, gd, rowOf) == (notes, gd))
      && (nc >= h ==>
            var (g, gd') := NormalNote(notes, nc, start, realEnd, gd, rowOf);
            && (IsHopo(Get(g, (nc, row))) <==> IsHopo(Get(notes, (h, row))))
            && (nc != h ==> Get(g, (h, row)) == TapEmpty)
            && gd'.lastChordRow == start && gd'.prevNoteMark[nc] == start)
  {
    var row := rowOf(start);
    var taps := RowTaps(notes, row, gd.cols);
    var t0 :| 0 <= t0 < gd.cols && Get(notes, (t0, row)) != TapEmpty;
    assert taps[t0] != TapEmpty;
  }
}

=== FILE: midi_organizer.dfy ===
/** Choosing which track of a MIDI file plays which role (`organizeMidi`)
    and which HOPO rule set and fret layout the song uses. */
module MidiOrganizer {
  import opened Wrappers
  import opened MidiEvents

  /** The characters of a NUL-terminated buffer before its first NUL. */
  function FirstNul(cstr: seq<char>): (n: nat)
    requires '\0' in cstr
    ensures n < |cstr| && cstr[n] == '\0'
    ensures forall i :: 0 <= i < n ==> cstr[i] != '\0'
  {
    if cstr[0] == '\0' then 0 else 1 + FirstNul(cstr[1..])
  }

  function CString(cstr: seq<char>): seq<char>
    requires '\0' in cstr
  {
    cstr[..FirstNul(cstr)]
  }

  /** `compareToString`: the NUL-terminated buffer holds exactly `str`.
      The literals it is used with contain no NUL, so the scan stops at
      the buffer's terminator at the latest. */
  method CompareToString(cstr: seq<char>, str: seq<char>) returns (r: bool)
    requires '\0' in cstr
    requires '\0' !in str
    ensures r <==> CString(cstr) == str
  {
    var n := FirstNul(cstr);
    var i := 0;
    while i < |str|
      invariant 0 <= i <= |str|
      invariant i <= n
      invariant cstr[..i] == str[..i]
    {
      if cstr[i] != str[i] {
        if i < n {
          assert CString(cstr)[i] == cstr[i];
        } else {
          assert |CString(cstr)| == i;
        }
        return false;
      }
      assert cstr[i] != '\0' by {
        assert str[i] in str;
      }
      i := i + 1;
    }
    r := cstr[|str|] == '\0';
    if r {
      assert FirstNul(cstr) == |str|;
      assert cstr[..|str|] == str;
    } else {
      assert |CString(cstr)| != |str|;
    }
  }

  /** The same test as a function, for use inside the organiser. */
  predicate NameIs(cstr: seq<char>, str: seq<char>)
    requires '\0' in cstr
  {
    CString(cstr) == str
  }

  datatype HopoRules = GhRules | RbRules | UnknownRules

  datatype ChartFrets = FiveFrets | SixFrets

  /** A pointer into a track: the events of track `track` from index `at`. */
  datatype TrackRef = TrackRef(track: nat, at: nat)

  datatype Organizer = Organizer(
    beat: Option<TrackRef>,
    guitar: Option<TrackRef>,
    bass: Option<TrackRef>,
    drum: Option<TrackRef>,
    vocal: Option<TrackRef>,
    event: Option<TrackRef>,
    venue: Option<TrackRef>,
    other: Option<TrackRef>,
    rules: HopoRules,
    frets: ChartFrets)

  const Empty: Organizer := Organizer(None, None, None, None, None, None, None, None, UnknownRules, FiveFrets)

  /** What a track name says about the track. */
  datatype Role = Guitar | GuitarGhl | Bass | BassGhl | Drums | Vocals | Events | Venue | Beat | Unnamed

  function RoleOfName(buffer: seq<char>): Role
    requires '\0' in buffer
  {
    if NameIs(buffer, "PART GUITAR") || NameIs(buffer, "PART_GUITAR") || NameIs(buffer, "T1 GEMS") then Guitar
    else if NameIs(buffer, "PART GUITAR GHL") then GuitarGhl
    else if NameIs(buffer, "PART BASS") || NameIs(buffer, "PART_BASS")
      || NameIs(buffer, "PART RHYTHM") || NameIs(buffer, "PART_RHYTHM") then Bass
    else if NameIs(buffer, "PART BASS GHL") then BassGhl
    else if NameIs(buffer, "PART DRUMS") || NameIs(buffer, "PART_DRUMS")
      || NameIs(buffer, "BAND DRUMS") || NameIs(buffer, "BAND_DRUMS") then Drums
    else if NameIs(buffer, "PART VOCALS") || NameIs(buffer, "PART_VOCALS")
      || NameIs(buffer, "BAND SINGER") || NameIs(buffer, "BAND_SINGER") then Vocals
    else if NameIs(buffer, "EVENTS") then Events
    else if NameIs(buffer, "VENUE") then Venue
    else if NameIs(buffer, "BEAT") then Beat
    else Unnamed
  }

  predicate Important(e: MidiEvent)
  {
    e.MetaEvent? && (e.meta.TrackName? || e.meta.Tempo? || e.meta.TimeSignature?)
  }

  /** What the organiser needs of a track to read it without running off
      its end or past a buffer: when the track starts with a meta event,
      some event is a track name, tempo or time signature; a track name
      is NUL-terminated; and an unrecognised name has an event after it.
      Any event may precede the first important one or follow the
      unrecognised name: a non-meta event there is simply not a track
      name, tempo or time signature. */
  predicate Scannable(events: seq<MidiEvent>)
  {
    |events| > 0 &&
    (events[0].MetaEvent? ==>
      (exists j :: 0 <= j < |events| && Important(events[j])) && ScannableAt(events, FirstImportant(events)))
  }

  predicate ScannableAt(events: seq<MidiEvent>, j: nat)
    requires j < |events| && Important(events[j])
  {
    events[j].meta.TrackName? ==>
      ('\0' in events[j].meta.buffer &&
       (RoleOfName(events[j].meta.buffer) == Unnamed ==> j + 1 < |events|))
  }

  /** The event is a tempo or time-signature change. */
  predicate TempoLike(e: MidiEvent)
  {
    e.MetaEvent? && (e.meta.Tempo? || e.meta.TimeSignature?)
  }

  /** Index of the first important event: the skip loop of `organizeMidi`. */
  function FirstImportant(events: seq<MidiEvent>): (j: nat)
    requires exists j :: 0 <= j < |events| && Important(events[j])
    ensures j < |events| && Important(events[j])
    ensures forall k :: 0 <= k < j ==> !Important(events[k])
  {
    if Important(events[0]) then 0
    else
      assert exists j :: 0 <= j < |events[1..]| && Important(events[1..][j]) by {
        var j :| 0 <= j < |events| && Important(events[j]);
        assert j != 0;
        assert Important(events[1..][j - 1]);
      }
      1 + FirstImportant(events[1..])
  }

  /** The role a scannable track plays, as the organiser classifies it. */
  function RoleOf(events: seq<MidiEvent>): Role
    requires Scannable(events)
  {
    if !events[0].MetaEvent? then Unnamed
    else
      var j := FirstImportant(events);
      if events[j].meta.TrackName? then RoleOfName(events[j].meta.buffer)
      else Unnamed
  }

  /** The body of the track loop of `organizeMidi` for track `i`. */
  function ScanTrack(o: Organizer, i: nat, events: seq<MidiEvent>): (r: Organizer)
    requires Scannable(events)
    ensures !events[0].MetaEvent? ==> r == o
    ensures r.rules == GhRules <==> o.rules == GhRules
  {
    if !events[0].MetaEvent? then o
    else
      var j := FirstImportant(events);
      var here := Some(TrackRef(i, j));
      var (o1, k) :=
        if !events[j].meta.TrackName? then (o, j)
        else
          match RoleOfName(events[j].meta.buffer)
          case Guitar => (o.(guitar := here), j)
          case GuitarGhl => (o.(guitar := here, frets := SixFrets), j)
          case Bass => (o.(bass := here), j)
          case BassGhl => (o.(bass := here, frets := SixFrets), j)
          case Drums => (o.(drum := here, rules := if o.rules == UnknownRules then RbRules else o.rules), j)
          case Vocals => (o.(vocal := here, rules := if o.rules == UnknownRules then RbRules else o.rules), j)
          case Events => (o.(event := here), j)
          case Venue => (o.(venue := here), j)
          case Beat => (o.(beat := here), j)
          case Unnamed => (o.(other := here), j + 1);
      if TempoLike(events[k]) then o1.(beat := Some(TrackRef(i, k)))
      else o1
  }

  /** Each role is assigned only by a track carrying it: a track leaves
      every other role as it was. */
  lemma ScanTrackFrame(o: Organizer, i: nat, events: seq<MidiEvent>)
    requires Scannable(events)
    ensures var r := ScanTrack(o, i, events);
      && (RoleOf(events) !in {Guitar, GuitarGhl} ==> r.guitar == o.guitar)
      && (RoleOf(events) !in {Bass, BassGhl} ==> r.bass == o.bass)
      && (RoleOf(events) != Drums ==> r.drum == o.drum)
      && (RoleOf(events) != Vocals ==> r.vocal == o.vocal)
      && (RoleOf(events) != Events ==> r.event == o.event)
      && (RoleOf(events) != Venue ==> r.venue == o.venue)
      && (RoleOf(events) != Unnamed ==> r.other == o.other)
  {
    if events[0].MetaEvent? {
      var j := FirstImportant(events);
      if events[j].meta.TrackName? {
        assert RoleOf(events) == RoleOfName(events[j].meta.buffer);
      } else {
        assert RoleOf(events) == Unnamed;
      }
    }
  }

  /** A track with an unrecognised name and a note right after it is read
      like any other: it becomes the "other" track, and the beat track is
      left alone. */
  lemma UnknownNameThenNote(o: Organizer, i: nat, name: seq<char>, note: MidiEvent)
    requires '\0' in name && RoleOfName(name) == Unnamed && note.NoteEvent?
    ensures Scannable([MetaEvent(0, TrackName(name)), note])
    ensures ScanTrack(o, i, [MetaEvent(0, TrackName(name)), note]) == o.(other := Some(TrackRef(i, 0)))
  {
  }

  /** Tracks n-1 down to 0, the order the source visits them. */
  function ScanDown(tracks: seq<seq<MidiEvent>>, n: nat, o: Organizer): (r: Organizer)
    requires n <= |tracks|
    requires forall i :: 0 <= i < |tracks| ==> Scannable(tracks[i])
    ensures r.rules == GhRules <==> o.rules == GhRules
    decreases n
  {
    if n == 0 then o
    else ScanDown(tracks, n - 1, ScanTrack(o, n - 1, tracks[n - 1]))
  }

  /** `organizeMidi`. */
  function OrganizeMidi(f: MidiFile): (o: Organizer)
    requires |f.tracks| != 1 ==> forall i :: 0 <= i < |f.tracks| ==> Scannable(f.tracks[i])
    ensures o.rules != UnknownRules
    ensures |f.tracks| == 1 ==>
      o == Empty.(guitar := Some(TrackRef(0, 0)), beat := Some(TrackRef(0, 0)), rules := GhRules)
    ensures |f.tracks| != 1 ==>
      (o.rules == RbRules <==> exists i :: 0 <= i < |f.tracks| && RoleOf(f.tracks[i]) in {Drums, Vocals})
    ensures |f.tracks| != 1 ==>
      (o.frets == SixFrets <==> exists i :: 0 <= i < |f.tracks| && RoleOf(f.tracks[i]) in {GuitarGhl, BassGhl})
  {
    if |f.tracks| == 1 then
      Empty.(guitar := Some(TrackRef(0, 0)), beat := Some(TrackRef(0, 0)), rules := GhRules)
    else
      var scanned := ScanDown(f.tracks, |f.tracks|, Empty);
      ScanDownRules(f.tracks, |f.tracks|, Empty);
      ScanDownFrets(f.tracks, |f.tracks|, Empty);
      if scanned.rules == UnknownRules then scanned.(rules := GhRules) else scanned
  }

  /** Some track below `n` has one of the roles in `roles`. */
  ghost predicate AnyRole(tracks: seq<seq<MidiEvent>>, n: nat, roles: set<Role>)
    requires n <= |tracks|
    requires forall i :: 0 <= i < |tracks| ==> Scannable(tracks[i])
  {
    exists i :: 0 <= i < n && RoleOf(tracks[i]) in roles
  }

  lemma AnyRoleStep(tracks: seq<seq<MidiEvent>>, n: nat, roles: set<Role>)
    requires 0 < n <= |tracks|
    requires forall i :: 0 <= i < |tracks| ==> Scannable(tracks[i])
    ensures AnyRole(tracks, n, roles) <==> AnyRole(tracks, n - 1, roles) || RoleOf(tracks[n - 1]) in roles
  {
    if AnyRole(tracks, n, roles) && RoleOf(tracks[n - 1]) !in roles {
      var i :| 0 <= i < n && RoleOf(tracks[i]) in roles;
      assert i < n - 1;
    }
  }

  /** Rules after the scan: RB rules exactly when a drum or vocal track was
      seen; the scan itself never chooses GH rules. */
  lemma {:induction false} ScanDownRules(tracks: seq<seq<MidiEvent>>, n: nat, o: Organizer)
    requires n <= |tracks|
    requires forall i :: 0 <= i < |tracks| ==> Scannable(tracks[i])
    requires o.rules != GhRules
    ensures ScanDown(tracks, n, o).rules != GhRules
    ensures ScanDown(tracks, n, o).rules == RbRules <==> (o.rules == RbRules || AnyRole(tracks, n, {Drums, Vocals}))
    decreases n
  {
    if n > 0 {
      var o' := ScanTrack(o, n - 1, tracks[n - 1]);
      ScanTrackRules(o, n - 1, tracks[n - 1]);
      ScanDownRules(tracks, n - 1, o');
      AnyRoleStep(tracks, n, {Drums, Vocals});
    }
  }

  /** Frets after the scan: six frets exactly when a GHL track was seen. */
  lemma {:induction false} ScanDownFrets(tracks: seq<seq<MidiEvent>>, n: nat, o: Organizer)
    requires n <= |tracks|
    requires forall i :: 0 <= i < |tracks| ==> Scannable(tracks[i])
    ensures ScanDown(tracks, n, o).frets == SixFrets <==> (o.frets == SixFrets || AnyRole(tracks, n, {GuitarGhl, BassGhl}))
    decreases n
  {
    if n > 0 {
      var o' := ScanTrack(o, n - 1, tracks[n - 1]);
      ScanTrackFrets(o, n - 1, tracks[n - 1]);
      ScanDownFrets(tracks, n - 1, o');
      AnyRoleStep(tracks, n, {GuitarGhl, BassGhl});
    }
  }

  /** One track's effect on the rule set. */
  lemma ScanTrackRules(o: Organizer, i: nat, events: seq<MidiEvent>)
    requires Scannable(events)
    requires o.rules != GhRules
    ensures ScanTrack(o, i, events).rules != GhRules
    ensures ScanTrack(o, i, events).rules == RbRules <==> (o.rules == RbRules || RoleOf(events) in {Drums, Vocals})
  {
  }

  /** One track's effect on the fret layout. */
  lemma ScanTrackFrets(o: Organizer, i: nat, events: seq<MidiEvent>)
    requires Scannable(events)
    ensures ScanTrack(o, i, events).frets == SixFrets <==> (o.frets == SixFrets || RoleOf(events) in {GuitarGhl, BassGhl})
  {
  }

  /** Every role the scan assigns points at the track-name event of a track
      carrying that role, so a named role is never a guess. */
  lemma {:induction false} ScanDownGuitarNamed(tracks: seq<seq<MidiEvent>>, n: nat, o: Organizer)
    requires n <= |tracks|
    requires forall i :: 0 <= i < |tracks| ==> Scannable(tracks[i])
    requires o.guitar.Some? ==> o.guitar.value.track < |tracks| && RoleOf(tracks[o.guitar.value.track]) in {Guitar, GuitarGhl}
    ensures var r := ScanDown(tracks, n, o);
      r.guitar.Some? ==> r.guitar.value.track < |tracks| && RoleOf(tracks[r.guitar.value.track]) in {Guitar, GuitarGhl}
    ensures var r := ScanDown(tracks, n, o);
      r.guitar.None? <==> (o.guitar.None? && forall i :: 0 <= i < n ==> RoleOf(tracks[i]) !in {Guitar, GuitarGhl})
    decreases n
  {
    if n > 0 {
      var o' := ScanTrack(o, n - 1, tracks[n - 1]);
      ScanTrackGuitar(o, n - 1, tracks[n - 1]);
      ScanDownGuitarNamed(tracks, n - 1, o');
    }
  }

  /** One track's effect on the guitar role. */
  lemma ScanTrackGuitar(o: Organizer, i: nat, events: seq<MidiEvent>)
    requires Scannable(events)
    ensures ScanTrack(o, i, events).guitar ==
      if RoleOf(events) in {Guitar, GuitarGhl} then Some(TrackRef(i, FirstImportant(events))) else o.guitar
  {
  }

  /** The track the loader takes guitar notes from carries a guitar name,
      and there is none exactly when no track has one, in a file of
      several tracks. */
  lemma GuitarTrackIsNamed(f: MidiFile)
    requires |f.tracks| != 1
    requires forall i :: 0 <= i < |f.tracks| ==> Scannable(f.tracks[i])
    ensures var o := OrganizeMidi(f);
      o.guitar.Some? ==> o.guitar.value.track < |f.tracks| && RoleOf(f.tracks[o.guitar.value.track]) in {Guitar, GuitarGhl}
    ensures OrganizeMidi(f).guitar.None? <==> forall i :: 0 <= i < |f.tracks| ==> RoleOf(f.tracks[i]) !in {Guitar, GuitarGhl}
  {
    ScanDownGuitarNamed(f.tracks, |f.tracks|, Empty);
  }

  /** The events a reference points at; no track gives no events. */
  function EventsAt(f: MidiFile, ref: Option<TrackRef>): (evs: seq<MidiEvent>)
    ensures ref.None? ==> evs == []
    ensures ref.Some? && ref.value.track < |f.tracks| && ref.value.at <= |f.tracks[ref.value.track]| ==>
      evs == f.tracks[ref.value.track][ref.value.at..]
  {
    if ref.None? || ref.value.track >= |f.tracks| || ref.value.at > |f.tracks[ref.value.track]| then []
    else f.tracks[ref.value.track][ref.value.at..]
  }
}

=== FILE: midi_sysex.dfy ===
/** Decoding of the Phase Shift style sysex messages that open and close tap
    sections and open-note sections in a guitar track (`translateSysex`),
    and their effect on the loader's section flags. */
module MidiSysex {
  import opened MidiEvents
  import opened Difficulties

  /** Result codes of the decoder: -1 means "ignore this message". */
  const IGNORE: int := -1
  const TAP_START: int := 1
  const TAP_STOP: int := 2
  const OPEN_START: int := 3
  const OPEN_STOP: int := 4

  /** Bytes 0..3 every recognised message starts with. */
  const Header: seq<int> := [0x50, 0x53, 0x00, 0x00]

  /** The value a payload byte has once read through a `char` and promoted
      to `int`: with a signed `char` the bytes 0x80..0xFF are negative. */
  function CharValue(b: byte, signedChars: bool): (v: int)
    ensures signedChars && b >= 0x80 ==> v < 0
    ensures !(signedChars && b >= 0x80) ==> v == b as int
  {
    if signedChars && b >= 0x80 then b as int - 256 else b as int
  }

  /** Byte 4 of an open-note message names the difficulty it applies to. */
  function DifficultyCode(d: Difficulty): (r: int)
    ensures r == -1 <==> d !in {Easy, Medium, Hard, Challenge}
  {
    match d
    case Easy => 0x00
    case Medium => 0x01
    case Hard => 0x02
    case Challenge => 0x03
    case _ => -1
  }

  /** Byte 4 of an open-note message matches the loaded difficulty. */
  predicate OpenIndicatorFor(b4: int, diff: Difficulty)
  {
    (b4 == 0x00 && diff == Easy) || (b4 == 0x01 && diff == Medium)
    || (b4 == 0x02 && diff == Hard) || (b4 == 0x03 && diff == Challenge)
  }

  predicate HeaderMatches(data: seq<byte>, signedChars: bool)
  {
    |data| >= 4 && forall i :: 0 <= i < 4 ==> CharValue(data[i], signedChars) == Header[i]
  }

  /** Bytes 0..3 are the common header.  Every header byte is below 0x80,
      so the comparison does not depend on the signedness of `char`. */
  predicate Framed(data: seq<byte>)
  {
    |data| >= 4 && data[..4] == [0x50, 0x53, 0x00, 0x00]
  }

  /** Bytes 4 and 5 are the tap indicator FF 04.  With a signed `char` the
      byte 0xFF reads as -1 and never matches. */
  predicate TapSelected(data: seq<byte>, signedChars: bool)
  {
    |data| >= 6 && !signedChars && data[4] == 0xFF && data[5] == 0x04
  }

  /** Byte 5 is the open-note indicator and byte 4 names the loaded
      difficulty. */
  predicate OpenSelected(data: seq<byte>, diff: Difficulty)
  {
    |data| >= 6 && data[5] == 0x01 && data[4] as int == DifficultyCode(diff)
  }

  /** Byte 7 reads as the trailer 0xF7, which a signed `char` never does. */
  predicate Trailed(data: seq<byte>, signedChars: bool)
  {
    |data| >= 8 && !signedChars && data[7] == 0xF7
  }

  /** The decoder compares bytes 0..3 until the first mismatch.  Once the
      header matches it reads bytes 4 and 5, and bytes 6 and 7 only when
      those select a message: it never reads past what it needs. */
  predicate Readable(data: seq<byte>, diff: Difficulty, signedChars: bool)
  {
    (exists i :: 0 <= i < 4 && i < |data| && data[i] as int != Header[i])
    || (|data| >= 6 && (TapSelected(data, signedChars) || OpenSelected(data, diff) ==> |data| >= 8))
  }

  /** `translateSysex`.  Every comparison is between a payload byte read as
      a `char` and an unsigned constant, so whether 0xFF and 0xF7 ever match
      depends on the signedness of `char` on the platform (`signedChars`). */
  function TranslateSysex(data: seq<byte>, diff: Difficulty, signedChars: bool): (r: int)
    requires Readable(data, diff, signedChars)
    ensures r == IGNORE || TAP_START <= r <= OPEN_STOP
    ensures r != IGNORE ==> |data| >= 8 && data[..4] == [0x50, 0x53, 0x00, 0x00]
    ensures (r == TAP_START || r == TAP_STOP) ==> data[4] == 0xFF && data[5] == 0x04
    ensures (r == OPEN_START || r == OPEN_STOP) ==> data[5] == 0x01 && data[4] as int == DifficultyCode(diff)
    ensures (r == TAP_STOP || r == OPEN_STOP) ==> data[6] == 0x00 && data[7] == 0xF7
    // and conversely, message by message
    ensures !Framed(data) ==> r == IGNORE
    ensures Framed(data) && !TapSelected(data, signedChars) && !OpenSelected(data, diff) ==> r == IGNORE
    ensures Framed(data) && (TapSelected(data, signedChars) || OpenSelected(data, diff)) ==> |data| >= 8
    ensures Framed(data) && TapSelected(data, signedChars) && !Trailed(data, signedChars) ==> r == TAP_START
    ensures Framed(data) && OpenSelected(data, diff) && !Trailed(data, signedChars) ==> r == OPEN_START
    ensures Framed(data) && TapSelected(data, signedChars) && Trailed(data, signedChars) ==>
      r == (if data[6] == 0x00 then TAP_STOP else if data[6] == 0x01 then TAP_START else IGNORE)
    ensures Framed(data) && OpenSelected(data, diff) && Trailed(data, signedChars) ==>
      r == (if data[6] == 0x00 then OPEN_STOP else if data[6] == 0x01 then OPEN_START else IGNORE)
  {
    if !HeaderMatches(data, signedChars) then IGNORE
    else
      HeaderFacts(data, diff, signedChars);
      var b4 := CharValue(data[4], signedChars);
      var b5 := CharValue(data[5], signedChars);
      var base :=
        if b4 == 0xFF && b5 == 0x04 then TAP_START
        else if b5 == 0x01 && OpenIndicatorFor(b4, diff) then OPEN_START
        else IGNORE;
      if base == IGNORE then IGNORE
      else
        var b6 := CharValue(data[6], signedChars);
        var b7 := CharValue(data[7], signedChars);
        if b7 == 0xF7 then
          if b6 == 0x00 then base + 1
          else if b6 != 0x01 then IGNORE
          else base
        else base
  }

  /** A matching header pins bytes 0..3 whatever the signedness; a readable
      payload with a matching header has bytes 4 and 5, and bytes 6 and 7
      too when those select a message. */
  lemma HeaderFacts(data: seq<byte>, diff: Difficulty, signedChars: bool)
    requires Readable(data, diff, signedChars)
    requires HeaderMatches(data, signedChars)
    ensures |data| >= 6 && Framed(data)
    ensures TapSelected(data, signedChars) || OpenSelected(data, diff) ==> |data| >= 8
  {
    forall i | 0 <= i < 4
      ensures data[i] as int == Header[i]
    {
      assert CharValue(data[i], signedChars) == Header[i];
    }
    assert data[..4] == [0x50, 0x53, 0x00, 0x00] by {
      forall i | 0 <= i < 4 ensures data[..4][i] == [0x50, 0x53, 0x00, 0x00][i] {
        assert data[i] as int == Header[i];
      }
    }
  }

  /** The four messages the decoder recognises, as named by the comment
      that documents its result codes. */
  datatype SysexCommand = TapStart | TapStop | OpenStart(forDiff: Difficulty) | OpenStop(forDiff: Difficulty)

  predicate Encodable(c: SysexCommand)
  {
    (c.OpenStart? || c.OpenStop?) ==> DifficultyCode(c.forDiff) != -1
  }

  function CodeOf(c: SysexCommand): int
  {
    match c
    case TapStart => TAP_START
    case TapStop => TAP_STOP
    case OpenStart(_) => OPEN_START
    case OpenStop(_) => OPEN_STOP
  }

  /** The eight-byte payload of a message. */
  function EncodeSysex(c: SysexCommand): (data: seq<byte>)
    requires Encodable(c)
    ensures |data| == 8 && data[..4] == [0x50, 0x53, 0x00, 0x00] && data[7] == 0xF7
  {
    match c
    case TapStart => [0x50, 0x53, 0x00, 0x00, 0xFF, 0x04, 0x01, 0xF7]
    case TapStop => [0x50, 0x53, 0x00, 0x00, 0xFF, 0x04, 0x00, 0xF7]
    case OpenStart(d) => [0x50, 0x53, 0x00, 0x00, DifficultyCode(d) as byte, 0x01, 0x01, 0xF7]
    case OpenStop(d) => [0x50, 0x53, 0x00, 0x00, DifficultyCode(d) as byte, 0x01, 0x00, 0xF7]
  }

  /** With an unsigned `char`, decoding an encoded message gives back its
      code; an open-note message for another difficulty is ignored. */
  lemma DecodeEncodeUnsigned(c: SysexCommand, diff: Difficulty)
    requires Encodable(c)
    ensures Readable(EncodeSysex(c), diff, false)
    ensures (c.TapStart? || c.TapStop? || c.forDiff == diff) ==> TranslateSysex(EncodeSysex(c), diff, false) == CodeOf(c)
    ensures (c.OpenStart? || c.OpenStop?) && c.forDiff != diff ==> TranslateSysex(EncodeSysex(c), diff, false) == IGNORE
  {
    var data := EncodeSysex(c);
    assert HeaderMatches(data, false);
    if c.OpenStart? || c.OpenStop? {
      DifficultyCodeInjective(c.forDiff, diff);
    }
  }

  lemma DifficultyCodeInjective(a: Difficulty, b: Difficulty)
    requires DifficultyCode(a) != -1
    ensures DifficultyCode(a) == DifficultyCode(b) <==> a == b
  {
  }

  /** With a signed `char` neither 0xFF nor 0xF7 can match: tap messages are
      always ignored and an open-note stop reads as an open-note start. */
  lemma DecodeEncodeSigned(c: SysexCommand, diff: Difficulty)
    requires Encodable(c)
    ensures Readable(EncodeSysex(c), diff, true)
    ensures (c.TapStart? || c.TapStop?) ==> TranslateSysex(EncodeSysex(c), diff, true) == IGNORE
    ensures (c.OpenStart? || c.OpenStop?) && c.forDiff == diff ==> TranslateSysex(EncodeSysex(c), diff, true) == OPEN_START
  {
    var data := EncodeSysex(c);
    assert HeaderMatches(data, true);
  }

  /** A payload whose header differs is ignored whatever follows it. */
  lemma BadHeaderIgnored(data: seq<byte>, diff: Difficulty, signedChars: bool)
    requires Readable(data, diff, signedChars)
    requires |data| < 4 || data[..4] != [0x50, 0x53, 0x00, 0x00]
    ensures TranslateSysex(data, diff, signedChars) == IGNORE
  {
  }

  /** Which sections of a guitar track are active while events are read. */
  datatype Sections = Sections(inTap: bool, inOpen: bool)

  /** How the event loop of `getGHRBNotesFromTrack` applies a decoded code:
      codes 3 and 4 start and stop the TAP section and codes 1 and 2 the
      OPEN section, the reverse of the meaning the decoder documents. */
  function ApplySysexCode(s: Sections, code: int): (r: Sections)
    ensures code > 2 ==> r == s.(inTap := code % 2 == 1)
    ensures 0 < code <= 2 ==> r == s.(inOpen := code % 2 == 1)
    ensures code <= 0 ==> r == s
  {
    if code > 2 then s.(inTap := code % 2 == 1)
    else if code > 0 then s.(inOpen := code % 2 == 1)
    else s
  }

  /** End to end: an open-note start message for the loaded difficulty turns
      the tap section on, and an open-note stop turns it off (unsigned
      `char`); neither touches the open-note section. */
  lemma OpenMessagesDriveTapSection(s: Sections, d: Difficulty)
    requires DifficultyCode(d) != -1
    ensures Readable(EncodeSysex(OpenStart(d)), d, false) && Readable(EncodeSysex(OpenStop(d)), d, false)
    ensures ApplySysexCode(s, TranslateSysex(EncodeSysex(OpenStart(d)), d, false)) == s.(inTap := true)
    ensures ApplySysexCode(s, TranslateSysex(EncodeSysex(OpenStop(d)), d, false)) == s.(inTap := false)
  {
    DecodeEncodeUnsigned(OpenStart(d), d);
    DecodeEncodeUnsigned(OpenStop(d), d);
  }

  /** End to end: tap messages drive the open-note section (unsigned `char`). */
  lemma TapMessagesDriveOpenSection(s: Sections, d: Difficulty)
    ensures Readable(EncodeSysex(TapStart), d, false) && Readable(EncodeSysex(TapStop), d, false)
    ensures ApplySysexCode(s, TranslateSysex(EncodeSysex(TapStart), d, false)) == s.(inOpen := true)
    ensures ApplySysexCode(s, TranslateSysex(EncodeSysex(TapStop), d, false)) == s.(inOpen := false)
  {
    DecodeEncodeUnsigned(TapStart, d);
    DecodeEncodeUnsigned(TapStop, d);
  }

  /** The sections after a message as the event loop really treats it,
      written out message by message.  With an unsigned `char` each
      message lands on the other section; with a signed `char` the tap
      messages are ignored (0xFF and 0xF7 never match) and an open-note
      stop reads as a start, so both switch the tap section on. */
  function AsWrittenEffect(s: Sections, c: SysexCommand, diff: Difficulty, signedChars: bool): Sections
  {
    match c
    case TapStart => if signedChars then s else s.(inOpen := true)
    case TapStop => if signedChars then s else s.(inOpen := false)
    case OpenStart(d) => if d == diff then s.(inTap := true) else s
    case OpenStop(d) => if d == diff then s.(inTap := signedChars) else s
  }

  /** Decoding and applying every message, on either platform, gives
      `AsWrittenEffect`. */
  lemma MessagesAsWritten(s: Sections, c: SysexCommand, diff: Difficulty, signedChars: bool)
    requires Encodable(c)
    ensures Readable(EncodeSysex(c), diff, signedChars)
    ensures ApplySysexCode(s, TranslateSysex(EncodeSysex(c), diff, signedChars)) == AsWrittenEffect(s, c, diff, signedChars)
  {
    DecodeEncodeUnsigned(c, diff);
    DecodeEncodeSigned(c, diff);
    if signedChars && (c.OpenStart? || c.OpenStop?) && c.forDiff != diff {
      DifficultyCodeInjective(c.forDiff, diff);
      assert HeaderMatches(EncodeSysex(c), true);
    }
  }

  /** What the documented codes call for: codes 1 and 2 start and stop the
      tap section, codes 3 and 4 the open-note section, anything else
      changes nothing. */
  function ApplySysexCodeIntended(s: Sections, code: int): (r: Sections)
    ensures r.inTap != s.inTap ==> code == TAP_START || code == TAP_STOP
    ensures r.inOpen != s.inOpen ==> code == OPEN_START || code == OPEN_STOP
  {
    if code == TAP_START || code == TAP_STOP then s.(inTap := code == TAP_START)
    else if code == OPEN_START || code == OPEN_STOP then s.(inOpen := code == OPEN_START)
    else s
  }

  /** The sections after a message, as its name says: a tap message starts
      or stops the tap section, an open-note message for the loaded
      difficulty starts or stops the open-note section, and an open-note
      message for another difficulty changes nothing. */
  function Intent(s: Sections, c: SysexCommand, diff: Difficulty): Sections
  {
    match c
    case TapStart => s.(inTap := true)
    case TapStop => s.(inTap := false)
    case OpenStart(d) => if d == diff then s.(inOpen := true) else s
    case OpenStop(d) => if d == diff then s.(inOpen := false) else s
  }

  /** With the corrected application every message drives its own section. */
  lemma MessagesDriveTheirSections(s: Sections, c: SysexCommand, diff: Difficulty)
    requires Encodable(c)
    ensures Readable(EncodeSysex(c), diff, false)
    ensures ApplySysexCodeIntended(s, TranslateSysex(EncodeSysex(c), diff, false)) == Intent(s, c, diff)
  {
    DecodeEncodeUnsigned(c, diff);
  }
}

=== FILE: midi_tracks.dfy ===
/** Pairing note-on and note-off events of a MIDI track into grid notes:
    the Guitar Hero / Rock Band reader (`getGHRBNotesFromTrack`), the
    generic reader (`getGenericNotesFromTrack`), and the integer HOPO
    window taken from `song.ini` (`parseINI`). */
module MidiTracks {
  import opened Wrappers
  import opened CInt
  import opened Difficulties
  import opened NoteGrid
  import opened MidiEvents
  import opened MidiSysex
  import opened MidiOrganizer
  import opened MidiGuitar
  import opened IniSettings

  /** The reader's state: the grid, the classifier state, and per MIDI
      column the start tick of the note still held there, if any. */
  datatype GhrbState = GhrbState(notes: NoteData, gd: GuitarData, open: seq<Option<int>>)

  predicate GhrbValid(st: GhrbState)
  {
    Valid(st.gd) && st.notes.tracks == st.gd.cols && |st.open| == st.gd.cols + BonusCols(st.gd.frets)
  }

  /** Every sysex payload can be decoded without reading past its end. */
  predicate SysexReadable(events: seq<MidiEvent>, diff: Difficulty, signedChars: bool)
  {
    forall i :: 0 <= i < |events| && events[i].SysexEvent? ==> Readable(events[i].payload, diff, signedChars)
  }

  /** The pitch lies in the difficulty's window [low, high]. */
  predicate InRange(pitch: int, low: int, high: int)
  {
    pitch - low >= 0 && pitch <= high
  }

  predicate Releases(ev: MidiEvent)
    requires ev.NoteEvent?
  {
    ev.sub == NoteOff || (ev.sub == NoteOn && ev.velocity == 0)
  }

  /** A release of the pitch in slot `idx`: a note from the tick the slot
      opened, when that lies before the release. */
  function GhrbRelease(st: GhrbState, idx: int, tick: int, rowOf: int -> int): (r: GhrbState)
    requires GhrbValid(st) && 0 <= idx < |st.open|
    ensures GhrbValid(r) && r.gd.frets == st.gd.frets
    ensures WellFormed(st.notes) ==> WellFormed(r.notes)
    ensures st.open[idx].None? || tick <= st.open[idx].value ==> r == st
    ensures st.open[idx].Some? && tick > st.open[idx].value ==>
      && r.open == st.open[idx := None]
      && (r.notes, r.gd) == AddGhrbNote(st.notes, idx, st.open[idx].value, tick, st.gd, rowOf)
  {
    if st.open[idx].None? then st
    else
      var start := st.open[idx].value;
      if tick > start then
        var (notes, gd) := AddGhrbNote(st.notes, idx, start, tick, st.gd, rowOf);
        GhrbState(notes, gd, st.open[idx := None])
      else st
  }

  /** A sysex payload read through `char` of the platform's signedness:
      only the two section flags can change. */
  function GhrbSysex(st: GhrbState, payload: seq<byte>, diff: Difficulty, signedChars: bool): (r: GhrbState)
    requires GhrbValid(st) && Readable(payload, diff, signedChars)
    ensures GhrbValid(r) && r.gd.frets == st.gd.frets
    ensures r.notes == st.notes && r.open == st.open
    ensures Sections(r.gd.inTapSection, r.gd.inOpenSection)
            == ApplySysexCode(Sections(st.gd.inTapSection, st.gd.inOpenSection), TranslateSysex(payload, diff, signedChars))
  {
    var sections := ApplySysexCode(Sections(st.gd.inTapSection, st.gd.inOpenSection), TranslateSysex(payload, diff, signedChars));
    st.(gd := st.gd.(inTapSection := sections.inTap, inOpenSection := sections.inOpen))
  }

  /** One event of the loop in `getGHRBNotesFromTrack`.  A sysex payload
      is read through `char` of the platform's signedness, and its code is
      applied as the loop does it (codes 3 and 4 drive the tap section). */
  function GhrbStep(st: GhrbState, ev: MidiEvent, diff: Difficulty, signedChars: bool, low: int, high: int, rowOf: int -> int)
    : (r: GhrbState)
    requires GhrbValid(st) && 0 <= high - low < |st.open|
    requires ev.SysexEvent? ==> Readable(ev.payload, diff, signedChars)
    ensures GhrbValid(r) && r.gd.frets == st.gd.frets
    ensures WellFormed(st.notes) ==> WellFormed(r.notes)
    ensures ev.NoteEvent? && !InRange(ev.pitch as int, low, high) ==> r == st
    ensures !ev.NoteEvent? && !ev.SysexEvent? ==> r == st
    ensures ev.SysexEvent? ==> r.notes == st.notes && r.open == st.open
    ensures ev.NoteEvent? && InRange(ev.pitch as int, low, high) && ev.sub == NoteOn && ev.velocity > 0 ==>
      var idx := ev.pitch as int - low;
      r == st.(open := st.open[idx := if st.open[idx].None? then Some(ev.tick) else st.open[idx]])
    ensures ev.NoteEvent? && InRange(ev.pitch as int, low, high) && Releases(ev) ==>
      var idx := ev.pitch as int - low;
      (st.open[idx].None? || ev.tick <= st.open[idx].value ==> r == st)
    ensures ev.NoteEvent? && InRange(ev.pitch as int, low, high) && Releases(ev) ==>
      var idx := ev.pitch as int - low;
      (st.open[idx].Some? && ev.tick > st.open[idx].value ==>
        && r.open == st.open[idx := None]
        && (r.notes, r.gd) == AddGhrbNote(st.notes, idx, st.open[idx].value, ev.tick, st.gd, rowOf))
    ensures ev.NoteEvent? && InRange(ev.pitch as int, low, high) && !Releases(ev) && ev.sub != NoteOn ==> r == st
  {
    match ev
    case SysexEvent(_, payload) => GhrbSysex(st, payload, diff, signedChars)
    case NoteEvent(tick, sub, pitch, velocity) =>
      var idx := pitch as int - low;
      if !(idx >= 0 && pitch as int <= high) then st
      else if sub == NoteOn && velocity > 0 then
        if st.open[idx].None? then st.(open := st.open[idx := Some(tick)]) else st
      else if sub == NoteOff || (sub == NoteOn && velocity == 0) then
        GhrbRelease(st, idx, tick, rowOf)
      else st
    case _ => st
  }

  /** A sysex message changes only the sections, and changes them as the
      loop does: with an unsigned `char` open-note messages drive the tap
      section and tap messages the open-note section; with a signed `char`
      tap messages are ignored and both open-note messages switch the tap
      section on. */
  lemma SysexStepSetsSections(st: GhrbState, tick: int, c: SysexCommand, diff: Difficulty, signedChars: bool,
                              low: int, high: int, rowOf: int -> int)
    requires GhrbValid(st) && 0 <= high - low < |st.open| && Encodable(c)
    ensures Readable(EncodeSysex(c), diff, signedChars)
    ensures var r := GhrbStep(st, SysexEvent(tick, EncodeSysex(c)), diff, signedChars, low, high, rowOf);
      && Sections(r.gd.inTapSection, r.gd.inOpenSection)
         == AsWrittenEffect(Sections(st.gd.inTapSection, st.gd.inOpenSection), c, diff, signedChars)
      && r.notes == st.notes && r.open == st.open
  {
    MessagesAsWritten(Sections(st.gd.inTapSection, st.gd.inOpenSection), c, diff, signedChars);
  }

  function GhrbFold(events: seq<MidiEvent>, st: GhrbState, diff: Difficulty, signedChars: bool, low: int, high: int, rowOf: int -> int)
    : (r: GhrbState)
    requires GhrbValid(st) && 0 <= high - low < |st.open|
    requires SysexReadable(events, diff, signedChars)
    ensures GhrbValid(r) && r.gd.frets == st.gd.frets
    ensures WellFormed(st.notes) ==> WellFormed(r.notes)
    decreases |events|
  {
    if |events| == 0 then st
    else GhrbFold(events[1..], GhrbStep(st, events[0], diff, signedChars, low, high, rowOf), diff, signedChars, low, high, rowOf)
  }

  /** `getGHRBNotesFromTrack`: a grid of five (or six) fret columns plus the
      open column, every note of it valid.  An absent track gives no events
      and so an empty grid. */
  function GhrbNotesFromTrack(events: seq<MidiEvent>, diff: Difficulty, signedChars: bool, rules: HopoRules, frets: ChartFrets,
                              resolution: int, hopoResolution: int, rowOf: int -> int)
    : (r: NoteData)
    requires SysexReadable(events, diff, signedChars)
    ensures r.tracks == ColsFor(frets)
    ensures WellFormed(r)
    ensures events == [] ==> r == Blank(ColsFor(frets))
  {
    var (low, high) := NoteRange(diff, frets);
    var gd := NewGuitarData(resolution, hopoResolution, rules, frets);
    var st := GhrbState(Blank(gd.cols), gd, seq(gd.cols + BonusCols(frets), _ => None));
    GhrbFold(events, st, diff, signedChars, low, high, rowOf).notes
  }

  /** Events the reader does not ignore: sysex messages and notes inside
      the difficulty's window. */
  predicate Relevant(ev: MidiEvent, low: int, high: int)
  {
    ev.SysexEvent? || (ev.NoteEvent? && InRange(ev.pitch as int, low, high))
  }

  function RelevantOnly(events: seq<MidiEvent>, low: int, high: int): (r: seq<MidiEvent>)
    ensures |r| <= |events|
    ensures forall e :: e in r ==> e in events && Relevant(e, low, high)
  {
    if |events| == 0 then []
    else if Relevant(events[0], low, high) then [events[0]] + RelevantOnly(events[1..], low, high)
    else RelevantOnly(events[1..], low, high)
  }

  /** Notes of other difficulties, meta events and other channel events
      have no effect at all: reading only the relevant events gives the
      same state. */
  lemma {:induction false} IrrelevantEventsIgnored(events: seq<MidiEvent>, st: GhrbState, diff: Difficulty, signedChars: bool, low: int, high: int,
                                                   rowOf: int -> int)
    requires GhrbValid(st) && 0 <= high - low < |st.open|
    requires SysexReadable(events, diff, signedChars)
    ensures SysexReadable(RelevantOnly(events, low, high), diff, signedChars)
    ensures GhrbFold(events, st, diff, signedChars, low, high, rowOf)
         == GhrbFold(RelevantOnly(events, low, high), st, diff, signedChars, low, high, rowOf)
    decreases |events|
  {
    var rel := RelevantOnly(events, low, high);
    assert SysexReadable(rel, diff, signedChars) by {
      forall i | 0 <= i < |rel| && rel[i].SysexEvent?
        ensures Readable(rel[i].payload, diff, signedChars)
      {
        assert rel[i] in rel;
        var j :| 0 <= j < |events| && events[j] == rel[i];
      }
    }
    if |events| > 0 {
      assert SysexReadable(events[1..], diff, signedChars) by {
        forall i | 0 <= i < |events[1..]| && events[1..][i].SysexEvent?
          ensures Readable(events[1..][i].payload, diff, signedChars)
        {
          assert events[1..][i] == events[i + 1];
        }
      }
      var st1 := GhrbStep(st, events[0], diff, signedChars, low, high, rowOf);
      IrrelevantEventsIgnored(events[1..], st1, diff, signedChars, low, high, rowOf);
      if Relevant(events[0], low, high) {
        assert rel == [events[0]] + RelevantOnly(events[1..], low, high);
        assert rel[1..] == RelevantOnly(events[1..], low, high);
      } else {
        assert st1 == st;
        IrrelevantEventsIgnored(events[1..], st, diff, signedChars, low, high, rowOf);
      }
    }
  }

  /** The generic reader's state: the grid and, per column, the start tick
      of the note still held there. */
  datatype GenericState = GenericState(notes: NoteData, open: seq<Option<int>>)

  /** Every note the generic reader writes: a tap, or a hold head shorter
      than 24 rows (the reader's own threshold). */
  predicate GenericShaped(g: NoteData)
  {
    forall c :: c in g.cells ==> g.cells[c] == TapNote(Tap, 0) || (g.cells[c].kind == HoldHead && 0 < g.cells[c].duration < 24)
  }

  /** One event of the loop in `getGenericNotesFromTrack`. */
  function GenericStep(st: GenericState, ev: MidiEvent, cols: nat, rowOf: int -> int): (r: GenericState)
    requires cols > 0 && st.notes.tracks == cols && |st.open| == cols
    ensures r.notes.tracks == cols && |r.open| == cols
    ensures WellFormed(st.notes) ==> WellFormed(r.notes)
    ensures GenericShaped(st.notes) ==> GenericShaped(r.notes)
    ensures !ev.NoteEvent? ==> r == st
    ensures ev.NoteEvent? && ev.sub == NoteOn ==>
      var idx := ev.pitch as int % cols;
      r == st.(open := st.open[idx := if st.open[idx].None? then Some(ev.tick) else st.open[idx]])
    ensures ev.NoteEvent? && ev.sub == OtherNoteSub ==> r == st
    ensures ev.NoteEvent? && ev.sub == NoteOff && st.open[ev.pitch as int % cols].None? ==> r == st
    ensures ev.NoteEvent? && ev.sub == NoteOff && st.open[ev.pitch as int % cols].Some? ==>
      var idx := ev.pitch as int % cols;
      var start := rowOf(st.open[idx].value);
      var end := rowOf(ev.tick);
      if end > start then
        && r.open == st.open[idx := None]
        && Get(r.notes, (idx, start)) == (if end - start < 24 then TapNote(HoldHead, end - start) else TapNote(Tap, 0))
        && SameExcept(st.notes, r.notes, {(idx, start)})
      else r == st
  {
    match ev
    case NoteEvent(tick, sub, pitch, _) =>
      var idx := pitch as int % cols;
      if sub == NoteOn then
        if st.open[idx].None? then st.(open := st.open[idx := Some(tick)]) else st
      else if sub == NoteOff && st.open[idx].Some? then
        var start := rowOf(st.open[idx].value);
        var end := rowOf(tick);
        if end > start then
          var notes := if end - start < 24 then Place(st.notes, idx, start, end, 1) else Place(st.notes, idx, start, start, 1);
          GenericState(notes, st.open[idx := None])
        else st
      else st
    case _ => st
  }

  function GenericFold(events: seq<MidiEvent>, st: GenericState, cols: nat, rowOf: int -> int): (r: GenericState)
    requires cols > 0 && st.notes.tracks == cols && |st.open| == cols
    ensures r.notes.tracks == cols && |r.open| == cols
    ensures WellFormed(st.notes) ==> WellFormed(r.notes)
    ensures GenericShaped(st.notes) ==> GenericShaped(r.notes)
    decreases |events|
  {
    if |events| == 0 then st
    else GenericFold(events[1..], GenericStep(st, events[0], cols, rowOf), cols, rowOf)
  }

  /** `getGenericNotesFromTrack`: column = pitch modulo the column count; a
      note spanning fewer than 24 rows becomes a hold, a longer one a tap. */
  function GenericNotesFromTrack(events: seq<MidiEvent>, cols: nat, rowOf: int -> int): (r: NoteData)
    requires cols > 0
    ensures r.tracks == cols
    ensures WellFormed(r) && GenericShaped(r)
  {
    GenericFold(events, GenericState(Blank(cols), seq(cols, _ => None)), cols, rowOf).notes
  }

  /** A press and a later release of one pitch on an empty track give
      exactly one note in the pitch's column at the press row: a hold of
      the spanned rows under 24 rows, a tap from 24 rows on.  A release on
      the same or an earlier row leaves the track empty. */
  lemma GenericPressRelease(cols: nat, t0: int, t1: int, pitch: byte, v0: byte, v1: byte, rowOf: int -> int)
    requires cols > 0
    ensures var g := GenericNotesFromTrack([NoteEvent(t0, NoteOn, pitch, v0), NoteEvent(t1, NoteOff, pitch, v1)], cols, rowOf);
      var start := rowOf(t0);
      var end := rowOf(t1);
      var idx := pitch as int % cols;
      && (end > start ==> Get(g, (idx, start)) == (if end - start < 24 then TapNote(HoldHead, end - start) else TapNote(Tap, 0)))
      && (end > start ==> forall c :: c != (idx, start) ==> Get(g, c) == TapEmpty)
      && (end <= start ==> g == Blank(cols))
  {
    var events := [NoteEvent(t0, NoteOn, pitch, v0), NoteEvent(t1, NoteOff, pitch, v1)];
    var st0 := GenericState(Blank(cols), seq(cols, _ => None));
    var st1 := GenericStep(st0, events[0], cols, rowOf);
    var st2 := GenericStep(st1, events[1], cols, rowOf);
    assert GenericFold(events, st0, cols, rowOf) == GenericFold(events[1..], st1, cols, rowOf);
    assert events[1..][1..] == [];
    assert GenericFold(events[1..], st1, cols, rowOf) == st2;
  }

  /** `parseINI`'s HOPO window for the MIDI loader, starting from `prior`.
      Frequency 4 is computed in floating point by the source; its integer
      result is the parameter `mostHopos`. */
  function MidiHopoWindow(resolution: int, prior: int, ini: SongIni, mostHopos: int): (w: int)
    ensures ini == NoIni ==> w == Div(resolution, 3) + 10
    ensures ini.Ini? && ini.hopofreq.None? && ini.eighthNoteHopo != Some(true) ==> w == prior
  {
    match ini
    case NoIni => Div(resolution, 3) + 10
    case Ini(freq, eighth) =>
      var w0 :=
        if freq.None? then prior
        else match freq.value
          case 0 => Div(resolution, 6) + 10
          case 1 => Div(resolution, 4) + 10
          case 3 => Div(resolution, 2) + 10
          case 4 => mostHopos
          case 5 => resolution + 10
          case _ => Div(resolution, 3) + 10;
      if eighth == Some(true) then Div(w0, 2) else w0
  }

  /** `eighthnote_hopo = 1` halves whatever window the frequency chose. */
  lemma MidiEighthNoteHalves(resolution: int, prior: int, freq: Option<int>, mostHopos: int)
    ensures MidiHopoWindow(resolution, prior, Ini(freq, Some(true)), mostHopos)
         == Div(MidiHopoWindow(resolution, prior, Ini(freq, None), mostHopos), 2)
    ensures MidiHopoWindow(resolution, prior, Ini(freq, Some(false)), mostHopos)
         == MidiHopoWindow(resolution, prior, Ini(freq, None), mostHopos)
  {
  }

  /** The window the MIDI loader ends with: its caller starts from
      resolution/3 + 10 before reading `song.ini`. */
  function MidiLoaderHopoWindow(resolution: int, ini: SongIni, mostHopos: int): (w: int)
    ensures ini == NoIni ==> w == Div(resolution, 3) + 10
    ensures ini.Ini? && ini.hopofreq.None? && ini.eighthNoteHopo != Some(true) ==> w == Div(resolution, 3) + 10
    ensures ini.Ini? && ini.hopofreq.None? && ini.eighthNoteHopo == Some(true) ==> w == Div(Div(resolution, 3) + 10, 2)
  {
    MidiHopoWindow(resolution, Div(resolution, 3) + 10, ini, mostHopos)
  }

  /** For a non-negative resolution the frequencies 0, 1, 2, 3, 5 give ever
      wider windows (more HOPOs), and an unlisted frequency or none at all
      behaves as the normal frequency 2. */
  lemma MidiHopoWindowOrdered(resolution: int, mostHopos: int)
    requires resolution >= 0
    ensures var W := (f: int) => MidiLoaderHopoWindow(resolution, Ini(Some(f), None), mostHopos);
      W(0) <= W(1) <= W(2) <= W(3) <= W(5)
    ensures forall f :: f !in {0, 1, 3, 4, 5} ==>
      MidiLoaderHopoWindow(resolution, Ini(Some(f), None), mostHopos) == MidiLoaderHopoWindow(resolution, Ini(Some(2), None), mostHopos)
    ensures MidiLoaderHopoWindow(resolution, Ini(None, None), mostHopos) == MidiLoaderHopoWindow(resolution, NoIni, mostHopos)
  {
    DivOrdered(resolution);
  }

  lemma DivOrdered(x: int)
    requires x >= 0
    ensures x / 6 <= x / 4 <= x / 3 <= x / 2 <= x
  {
    assert (x / 6) * 6 <= x;
    assert x < (x / 4) * 4 + 4;
    assert x < (x / 3) * 3 + 3;
    assert x < (x / 2) * 2 + 2;
  }
}

=== FILE: steps.dfy ===
/** The storage life cycle of one `Steps` record: its note data lives as a
    filled grid, as the compressed SM text, or only on disk behind a file
    name, and an autogen record takes everything from its parent.  The
    record is a value; every operation returns the record it leaves. */
module StepsStorage {
  import opened Wrappers
  import opened Difficulties
  import opened NoteGrid
  import ChartText

  /** The steps types the life cycle tells apart; `Other` stands for the
      rest of the game manager's table. */
  datatype StepsType =
    | LightsCabinet
    | KickboxHuman | KickboxQuadarm | KickboxInsect | KickboxArachnid
    | Other(id: nat)

  /** `stepstype_is_kickbox`. */
  predicate IsKickbox(t: StepsType)
  {
    t.KickboxHuman? || t.KickboxQuadarm? || t.KickboxInsect? || t.KickboxArachnid?
  }

  /** Radar values of one player (floating point in the program). */
  type RadarValues = seq<real>

  const NUM_PLAYERS: nat := 2

  /** The simfile loaders `GetNoteDataFromSimfile` can call. */
  datatype Loader = SSC | SM | SMA | DWI | KSF | BMS | MID | CHART

  /** What a loader hands the record: the SM text (through
      `SetSMNoteData`) or a grid (through `SetNoteData`). */
  datatype Loaded = SmText(text: string) | Grid(grid: NoteData)

  /** The collaborators the record calls but this model does not define:
      the game manager's track counts and categories, the SM-text codec,
      the string hash, the autogen transforms, the loaders, the extension
      of a path, the radar calculation, and whether the step editor is
      open. */
  datatype Env = Env(
    numTracks: StepsType -> nat,
    isRoutine: StepsType -> bool,
    encode: NoteData -> string,
    decode: (string, nat, bool) -> NoteData,
    hashOf: string -> nat,
    lights: (NoteData, nat) -> NoteData,
    kickbox: (NoteData, StepsType) -> NoteData,
    slidingWindow: (NoteData, nat) -> NoteData,
    removeStretch: (NoteData, StepsType) -> NoteData,
    load: (Loader, string, StepsType) -> Option<Loaded>,
    extensionOf: string -> string,
    radarOf: (StepsType, NoteData) -> seq<RadarValues>,
    inStepEditor: bool)

  /** A grid a loader hands over has the track count of the steps type it
      was loaded for; `SetNoteData` asserts this. */
  ghost predicate LoadersFit(env: Env)
  {
    forall l: Loader, p: string, t: StepsType ::
      env.load(l, p, t).Some? && env.load(l, p, t).value.Grid? ==>
        env.load(l, p, t).value.grid.tracks == env.numTracks(t)
  }

  /** The codec hypothesis: decoding the SM text of a grid with the steps
      type's track count gives the grid back, and that text is not empty. */
  ghost predicate CodecRoundTrips(env: Env)
  {
    forall g: NoteData, t: StepsType {:trigger env.decode(env.encode(g), env.numTracks(t), env.isRoutine(t))} ::
      g.tracks == env.numTracks(t) ==>
        env.decode(env.encode(g), env.numTracks(t), env.isRoutine(t)) == g && env.encode(g) != ""
  }

  /** The fields of `Steps` the life cycle reads or writes.  `fromProfile`
      is `m_LoadedFromProfile != ProfileSlot_Invalid`. */
  datatype Steps = Steps(
    stepsType: StepsType,
    parent: Option<Steps>,
    noteData: NoteData,
    filled: bool,
    compressed: string,
    filename: string,
    fromProfile: bool,
    hash: nat,
    description: string,
    chartStyle: string,
    difficulty: Difficulty,
    meter: int,
    radar: seq<RadarValues>,
    radarJustLoaded: bool,
    credit: string)

  /** The fields `DeAutogen` copies from the parent. */
  predicate SameMetadata(a: Steps, b: Steps)
  {
    && a.description == b.description && a.chartStyle == b.chartStyle
    && a.difficulty == b.difficulty && a.meter == b.meter
    && a.radar == b.radar && a.credit == b.credit
  }

  /** The fields no storage operation touches. */
  predicate SameIdentity(a: Steps, b: Steps)
  {
    a.stepsType == b.stepsType && a.filename == b.filename && a.fromProfile == b.fromProfile
  }

  /** Whether the record holds note data in memory in either form. */
  predicate HasData(s: Steps)
  {
    s.compressed != "" || s.filled
  }

  /** `NoteData::Init` empties the grid. */
  function EmptyGrid(): NoteData
  {
    Blank(0)
  }

  /** The grid `decode` rebuilds from the compressed text. */
  function Decoded(env: Env, s: Steps): NoteData
  {
    env.decode(s.compressed, env.numTracks(s.stepsType), env.isRoutine(s.stepsType))
  }

  // ---------------------------------------------------------------------
  // The compressed form

  /** `GetSMNoteData`: the compressed text, produced from the grid and kept
      when the record has only the grid, and "" when it has neither. */
  function GetSMNoteData(env: Env, s: Steps): (r: (string, Steps))
    ensures r.1.(compressed := s.compressed) == s
    ensures r.1.compressed == (if HasData(s) then r.0 else "")
    ensures !HasData(s) <==> r.0 == "" && r.1 == s && s.compressed == "" && !s.filled
    ensures s.compressed != "" ==> r == (s.compressed, s)
    ensures s.compressed == "" && s.filled ==> r.0 == env.encode(s.noteData)
  {
    if s.compressed == "" then
      if !s.filled then ("", s)
      else
        var text := env.encode(s.noteData);
        (text, s.(compressed := text))
    else (s.compressed, s)
  }

  /** `SetSMNoteData`: store the text, empty the grid, forget the hash. */
  function SetSMNoteData(s: Steps, text: string): (r: Steps)
    ensures !r.filled && r.compressed == text && r.hash == 0 && r.noteData == EmptyGrid()
    ensures r.parent == s.parent && SameMetadata(r, s) && SameIdentity(r, s)
    ensures r.radarJustLoaded == s.radarJustLoaded
  {
    s.(noteData := EmptyGrid(), filled := false, compressed := text, hash := 0)
  }

  /** Reading the text back after storing it gives the text. */
  lemma SMNoteDataRoundTrip(env: Env, s: Steps, text: string)
    ensures GetSMNoteData(env, SetSMNoteData(s, text)).0 == text
    ensures GetSMNoteData(env, SetSMNoteData(s, text)).1 == SetSMNoteData(s, text)
  {
  }

  /** A second `GetSMNoteData` gives the same text and changes nothing. */
  lemma GetSMNoteDataIdempotent(env: Env, s: Steps)
    ensures var (text, s1) := GetSMNoteData(env, s); GetSMNoteData(env, s1) == (text, s1)
  {
  }

  // ---------------------------------------------------------------------
  // The hash

  /** `GetHash`: the parent's hash, else the cached one, else 0 without
      data, else the hash of the compressed text, which it caches with the
      text.  (The parent's own cache is not written back.) */
  function GetHash(env: Env, s: Steps): (r: (nat, Steps))
    ensures r.1.(compressed := s.compressed, hash := s.hash) == s
    ensures s.parent.Some? || s.hash != 0 || !HasData(s) ==> r.1 == s
    ensures s.parent.None? && s.hash != 0 ==> r.0 == s.hash
    ensures s.parent.None? && !HasData(s) ==> r.0 == s.hash
    ensures s.parent.None? && s.hash == 0 && HasData(s) ==>
      r.0 == env.hashOf(GetSMNoteData(env, s).0) && r.1 == GetSMNoteData(env, s).1.(hash := r.0)
    decreases s
  {
    if s.parent.Some? then (GetHash(env, s.parent.value).0, s)
    else if s.hash != 0 then (s.hash, s)
    else if s.compressed == "" && !s.filled then (0, s)
    else
      var (text, s1) := GetSMNoteData(env, s);
      var h := env.hashOf(text);
      (h, s1.(hash := h))
  }

  /** An autogen record has its root's hash: the first record up the
      parent chain that has no parent. */
  function Root(s: Steps): (r: Steps)
    ensures r.parent.None?
    decreases s
  {
    if s.parent.Some? then Root(s.parent.value) else s
  }

  lemma {:induction false} AutogenHashIsRootHash(env: Env, s: Steps)
    ensures GetHash(env, s).0 == GetHash(env, Root(s)).0
    decreases s
  {
    if s.parent.Some? {
      AutogenHashIsRootHash(env, s.parent.value);
    }
  }

  /** Asking twice gives the same hash, and the second call changes
      nothing. */
  lemma GetHashIdempotent(env: Env, s: Steps)
    ensures var (h, s1) := GetHash(env, s); GetHash(env, s1) == (h, s1)
  {
  }

  // ---------------------------------------------------------------------
  // Filling the grid

  /** The file loaders need a grid of the right width (see `LoadersFit`). */
  function RunLoader(env: Env, loader: Loader, path: string, s: Steps): (r: (bool, Steps))
    requires LoadersFit(env)
    ensures !r.0 <==> env.load(loader, path, s.stepsType).None?
    ensures !r.0 ==> r.1 == s
    ensures SameIdentity(r.1, s)
    ensures s.parent.None? ==> r.1.parent.None? && SameMetadata(r.1, s)
    ensures r.1.radarJustLoaded == s.radarJustLoaded
    ensures r.0 ==> r.1.hash == 0
    ensures r.0 && !r.1.filled ==> env.load(loader, path, s.stepsType) == Some(SmText(r.1.compressed))
    ensures r.0 && r.1.filled ==> r.1.compressed == "" && env.load(loader, path, s.stepsType) == Some(Grid(r.1.noteData))
  {
    match env.load(loader, path, s.stepsType)
    case None => (false, s)
    case Some(SmText(text)) => (true, SetSMNoteData(s, text))
    case Some(Grid(g)) => (true, SetNoteData(env, s, g))
  }

  /** ASCII lower-casing, as `Rage::make_lower` does for extensions. */
  function Lower(s: string): (r: string)
    ensures |r| == |s|
    ensures forall i :: 0 <= i < |s| ==> r[i] == (if 'A' <= s[i] <= 'Z' then (s[i] - 'A' + 'a') else s[i])
  {
    if |s| == 0 then ""
    else [if 'A' <= s[0] <= 'Z' then (s[0] - 'A' + 'a') else s[0]] + Lower(s[1..])
  }

  /** `Rage::replace`: every occurrence of `from`, left to right and not
      overlapping, replaced by `to`. */
  function ReplaceAll(s: string, from: string, to: string): (r: string)
    requires |from| > 0
    ensures !ChartText.Contains(s, from) ==> r == s
    decreases |s|
  {
    if |s| < |from| then s
    else if s[..|from|] == from then
      assert ChartText.OccursAt(s, from, 0);
      to + ReplaceAll(s[|from|..], from, to)
    else
      ContainsTail(s, from);
      [s[0]] + ReplaceAll(s[1..], from, to)
  }

  lemma ContainsTail(s: string, from: string)
    requires |s| > 0
    ensures ChartText.Contains(s[1..], from) ==> ChartText.Contains(s, from)
  {
    if ChartText.Contains(s[1..], from) {
      var i :| 0 <= i <= |s[1..]| && ChartText.OccursAt(s[1..], from, i);
      assert s[1..][i..i + |from|] == s[i + 1..i + 1 + |from|];
      assert ChartText.OccursAt(s, from, i + 1);
    }
  }

  /** A path without `.ssc` is tried unchanged by the fallback loader. */
  lemma FallbackPathUnchanged(path: string)
    requires !ChartText.Contains(path, ".ssc")
    ensures ReplaceAll(path, ".ssc", ".sm") == path
  {
  }

  /** The extensions with a loader of their own. */
  function SingleLoader(ext: string): Option<Loader>
  {
    if ext == "sm" then Some(SM)
    else if ext == "sma" then Some(SMA)
    else if ext == "dwi" then Some(DWI)
    else if ext == "ksf" then Some(KSF)
    else if ext in {"bms", "bml", "bme", "pms"} then Some(BMS)
    else if ext == "mid" then Some(MID)
    else if ext == "chart" then Some(CHART)
    else None
  }

  /** `GetNoteDataFromSimfile`: the loader is chosen by the lower-cased
      extension of the file name. */
  function GetNoteDataFromSimfile(env: Env, s: Steps): (r: (bool, Steps))
    requires LoadersFit(env)
    ensures !r.0 ==> r.1 == s
    ensures SameIdentity(r.1, s)
    ensures s.parent.None? ==> r.1.parent.None? && SameMetadata(r.1, s)
    ensures r.1.radarJustLoaded == s.radarJustLoaded
  {
    var path := s.filename;
    var ext := Lower(env.extensionOf(path));
    if ext == "" || ext == "ssc" || ext == "ats" then
      var (ok, s1) := RunLoader(env, SSC, path, s);
      if !ok then RunLoader(env, SM, ReplaceAll(path, ".ssc", ".sm"), s)
      else (true, s1)
    else if SingleLoader(ext).Some? then
      RunLoader(env, SingleLoader(ext).value, path, s)
    else if ext == "edit" then
      var (ok, s1) := RunLoader(env, SSC, path, s);
      if !ok then RunLoader(env, SM, path, s)
      else (true, s1)
    else (false, s)
  }

  /** Which loaders each extension tries, in order, and on which path. */
  lemma DispatchTable(env: Env, s: Steps)
    requires LoadersFit(env)
    ensures var ext := Lower(env.extensionOf(s.filename));
      && (ext in {"sm", "sma", "dwi", "ksf", "bms", "bml", "bme", "pms", "mid", "chart"} ==>
           GetNoteDataFromSimfile(env, s) == RunLoader(env, SingleLoader(ext).value, s.filename, s))
      && (ext in {"", "ssc", "ats", "edit"} && RunLoader(env, SSC, s.filename, s).0 ==>
           GetNoteDataFromSimfile(env, s) == RunLoader(env, SSC, s.filename, s))
      && (ext in {"", "ssc", "ats"} && !RunLoader(env, SSC, s.filename, s).0 ==>
           GetNoteDataFromSimfile(env, s) == RunLoader(env, SM, ReplaceAll(s.filename, ".ssc", ".sm"), s))
      && (ext == "edit" && !RunLoader(env, SSC, s.filename, s).0 ==>
           GetNoteDataFromSimfile(env, s) == RunLoader(env, SM, s.filename, s))
      && (ext !in {"", "ssc", "ats", "edit", "sm", "sma", "dwi", "ksf", "bms", "bml", "bme", "pms", "mid", "chart"} ==>
           GetNoteDataFromSimfile(env, s) == (false, s))
  {
  }

  /** The compressed text, when there is one, rebuilt into the grid. */
  function FromCompressed(env: Env, s: Steps): (r: Steps)
    ensures s.compressed == "" ==> r == s
    ensures s.compressed != "" ==> r.filled && r.noteData == Decoded(env, s)
    ensures r.(noteData := s.noteData, filled := s.filled) == s
  {
    if s.compressed == "" then s
    else s.(filled := true, noteData := Decoded(env, s))
  }

  /** The autogen transforms hypothesis: the lights and sliding-window
      copies produce the track count they are given, the kickbox generator
      the track count of its steps type, and stretch removal keeps the
      track count. */
  ghost predicate TransformsFit(env: Env)
  {
    && (forall g: NoteData, n: nat :: env.lights(g, n).tracks == n)
    && (forall g: NoteData, t: StepsType :: env.kickbox(g, t).tracks == env.numTracks(t))
    && (forall g: NoteData, n: nat :: env.slidingWindow(g, n).tracks == n)
    && (forall g: NoteData, t: StepsType :: env.removeStretch(g, t).tracks == g.tracks)
  }

  /** The autogen grid: the parent's grid through the transform of this
      record's steps type. */
  function Autogen(env: Env, t: StepsType, parentGrid: NoteData): (g: NoteData)
    ensures TransformsFit(env) ==> g.tracks == env.numTracks(t)
    ensures t == LightsCabinet ==> g == env.lights(parentGrid, env.numTracks(t))
    ensures IsKickbox(t) ==> g == env.kickbox(parentGrid, t)
  {
    var n := env.numTracks(t);
    if t == LightsCabinet then env.lights(parentGrid, n)
    else if IsKickbox(t) then env.kickbox(parentGrid, t)
    else env.removeStretch(env.slidingWindow(parentGrid, n), t)
  }

  /** `Decompress`: nothing when the grid is filled; from the parent for
      an autogen record; else from disk when only a file name is known
      (a failed load leaves the record as it was), then from the
      compressed text. */
  function Decompress(env: Env, s: Steps): (r: Steps)
    requires LoadersFit(env)
    ensures s.filled ==> r == s
    ensures s.parent.Some? ==> r.filled
    ensures r.parent == s.parent && SameMetadata(r, s) && SameIdentity(r, s)
    ensures r.radarJustLoaded == s.radarJustLoaded
    ensures s.filled || s.parent.Some? || s.filename == "" || s.compressed != "" ==> r.hash == s.hash
    ensures !s.filled && s.parent.None? && s.compressed != "" ==> r == FromCompressed(env, s)
    ensures !s.filled && s.parent.None? && s.compressed == "" && s.filename == "" ==> r == s
    ensures !s.filled && s.parent.None? && s.filename != "" && s.compressed == "" ==>
      var (ok, loaded) := GetNoteDataFromSimfile(env, s);
      && (!ok ==> r == s)
      && (ok ==> r == FromCompressed(env, GetSMNoteData(env, loaded).1))
    decreases s, 1
  {
    if s.filled then s
    else if s.parent.Some? then
      s.(filled := true, noteData := Autogen(env, s.stepsType, GetNoteData(env, s.parent.value)))
    else if s.filename != "" && s.compressed == "" then
      var (ok, s1) := GetNoteDataFromSimfile(env, s);
      if !ok then s
      else FromCompressed(env, GetSMNoteData(env, s1).1)
    else FromCompressed(env, s)
  }

  /** `GetNoteData`: the grid after decompressing, or an empty grid of the
      steps type's width when there is none. */
  function GetNoteData(env: Env, s: Steps): (g: NoteData)
    requires LoadersFit(env)
    ensures s.filled ==> g == s.noteData
    ensures !Decompress(env, s).filled ==> g == Blank(env.numTracks(s.stepsType))
    decreases s, 2
  {
    var d := Decompress(env, s);
    if d.filled then d.noteData else Blank(env.numTracks(s.stepsType))
  }

  /** Decompressing twice is decompressing once. */
  lemma DecompressIdempotent(env: Env, s: Steps)
    requires LoadersFit(env)
    ensures Decompress(env, Decompress(env, s)) == Decompress(env, s)
  {
    var r := Decompress(env, s);
    if !r.filled && !s.filled && s.parent.None? && s.filename != "" && s.compressed == "" {
      var (ok, s1) := GetNoteDataFromSimfile(env, s);
      if ok {
        var s2 := GetSMNoteData(env, s1).1;
        assert r == s2 && s2.compressed == "";
        assert !s1.filled && s1.compressed == "";
        DecompressReloads(env, s, s1);
      }
    }
  }

  /** A load that leaves neither text nor grid leaves a record whose next
      load does the same. */
  lemma DecompressReloads(env: Env, s: Steps, s1: Steps)
    requires LoadersFit(env)
    requires s.parent.None? && !s.filled && s.filename != "" && s.compressed == ""
    requires GetNoteDataFromSimfile(env, s) == (true, s1)
    requires !s1.filled && s1.compressed == ""
    ensures Decompress(env, s1) == s1
  {
    assert s1 == s.(noteData := EmptyGrid(), hash := 0) by {
      LoadKeepsShape(env, s, s1);
    }
    LoadOfSamePath(env, s, s1);
  }

  /** A successful load that leaves the record without data stored empty
      text. */
  lemma LoadKeepsShape(env: Env, s: Steps, s1: Steps)
    requires LoadersFit(env)
    requires s.parent.None? && !s.filled && s.compressed == ""
    requires GetNoteDataFromSimfile(env, s) == (true, s1)
    requires !s1.filled && s1.compressed == ""
    ensures s1 == s.(noteData := EmptyGrid(), hash := 0)
  {
  }

  /** The loader sees the same path and steps type from the loaded record,
      so it loads the same thing again. */
  lemma LoadOfSamePath(env: Env, s: Steps, s1: Steps)
    requires LoadersFit(env)
    requires s.parent.None? && !s.filled && s.filename != "" && s.compressed == ""
    requires GetNoteDataFromSimfile(env, s) == (true, s1)
    requires s1 == s.(noteData := EmptyGrid(), hash := 0)
    ensures Decompress(env, s1) == s1
  {
    assert GetNoteDataFromSimfile(env, s1) == (true, s1);
  }

  // ---------------------------------------------------------------------
  // Dropping the grid

  /** `Compress`: lights keep their grid and drop the text; in the editor
      nothing happens; a record with its own file (not from a profile)
      drops both forms; otherwise the text is made if needed and the grid
      dropped. */
  function Compress(env: Env, s: Steps): (r: Steps)
    ensures r.hash == s.hash && r.parent == s.parent
    ensures SameMetadata(r, s) && SameIdentity(r, s) && r.radarJustLoaded == s.radarJustLoaded
    ensures r.filled ==> r.noteData == s.noteData && (s.stepsType == LightsCabinet || env.inStepEditor)
    ensures s.stepsType == LightsCabinet && s.filled ==> r.filled && r.compressed == ""
    ensures !(s.stepsType == LightsCabinet && s.filled) && env.inStepEditor ==> r == s
    ensures !(s.stepsType == LightsCabinet && s.filled) && !env.inStepEditor ==> !r.filled
    ensures !(s.stepsType == LightsCabinet && s.filled) && !env.inStepEditor && s.filename != "" && !s.fromProfile ==>
      r.compressed == "" && r.noteData == EmptyGrid()
    ensures !(s.stepsType == LightsCabinet && s.filled) && !env.inStepEditor && (s.filename == "" || s.fromProfile) ==>
      r.compressed == GetSMNoteData(env, s).0
  {
    if s.stepsType == LightsCabinet && s.filled then s.(compressed := "")
    else if env.inStepEditor then s
    else if s.filename != "" && !s.fromProfile then
      s.(noteData := EmptyGrid(), filled := false, compressed := "")
    else if s.compressed == "" && !s.filled then s
    else
      var s1 := GetSMNoteData(env, s).1;
      s1.(noteData := EmptyGrid(), filled := false)
  }

  /** The compressed text, if any, decodes to the filled grid. */
  predicate Synced(env: Env, s: Steps)
  {
    s.compressed == "" || Decoded(env, s) == s.noteData
  }

  /** Compressing a record that has no file of its own to reload from, and
      reading the grid back, gives the grid it had. */
  lemma CompressRoundTrip(env: Env, s: Steps)
    requires LoadersFit(env) && CodecRoundTrips(env)
    requires s.parent.None? && s.filled && Synced(env, s)
    requires s.noteData.tracks == env.numTracks(s.stepsType)
    requires s.filename == "" || s.fromProfile
    ensures GetNoteData(env, Compress(env, s)) == s.noteData
  {
    var r := Compress(env, s);
    if !r.filled {
      if s.compressed == "" {
        assert r.compressed == env.encode(s.noteData);
        assert env.decode(env.encode(s.noteData), env.numTracks(s.stepsType), env.isRoutine(s.stepsType)) == s.noteData;
      }
      assert Decompress(env, r) == FromCompressed(env, r);
    }
  }

  // ---------------------------------------------------------------------
  // Detaching from the parent, and setting the grid

  /** The part of `DeAutogen` that copies the parent's metadata and
      forgets the parent. */
  function Detach(s: Steps): (r: Steps)
    ensures r.parent.None?
    ensures s.parent.None? ==> r == s
    ensures s.parent.Some? ==> SameMetadata(r, s.parent.value)
    ensures SameIdentity(r, s) && r.hash == s.hash && r.radarJustLoaded == s.radarJustLoaded
    ensures r.noteData == s.noteData && r.filled == s.filled && r.compressed == s.compressed
  {
    if s.parent.None? then s
    else
      var p := s.parent.value;
      s.(description := p.description, chartStyle := p.chartStyle,
         difficulty := p.difficulty, meter := p.meter, radar := p.radar,
         credit := p.credit, parent := None)
  }

  /** `DeAutogen`: an autogen record takes its parent's description,
      style, difficulty, meter, radar values and credit and forgets the
      parent; with `copyNoteData` it first decompresses (through the
      parent) and compresses afterwards. */
  function DeAutogen(env: Env, s: Steps, copyNoteData: bool): (r: Steps)
    requires LoadersFit(env)
    ensures r.parent.None?
    ensures s.parent.None? ==> r == s
    ensures s.parent.Some? ==> SameMetadata(r, s.parent.value)
    ensures SameIdentity(r, s) && r.hash == s.hash && r.radarJustLoaded == s.radarJustLoaded
    ensures !copyNoteData ==> r == Detach(s)
    ensures copyNoteData && s.parent.Some? ==> r == Compress(env, Detach(Decompress(env, s)))
  {
    if s.parent.None? then s
    else if copyNoteData then Compress(env, Detach(Decompress(env, s)))
    else Detach(s)
  }

  /** Copying the parent's data keeps the notes: an autogen record with no
      text of its own and no file of its own to reload from reads, after
      `DeAutogen`, the grid it read through its parent. */
  lemma DeAutogenKeepsNotes(env: Env, s: Steps)
    requires LoadersFit(env) && CodecRoundTrips(env) && TransformsFit(env)
    requires s.parent.Some? && s.compressed == ""
    requires s.filled ==> s.noteData.tracks == env.numTracks(s.stepsType)
    requires s.filename == "" || s.fromProfile
    ensures GetNoteData(env, DeAutogen(env, s, true)) == GetNoteData(env, s)
  {
    var d := Decompress(env, s);
    var e := Detach(d);
    assert e.parent.None? && e.filled && e.compressed == "";
    assert e.noteData.tracks == env.numTracks(e.stepsType);
    CompressRoundTrip(env, e);
  }

  /** `SetNoteData`: detach from the parent and take the grid as the only
      form, forgetting the hash. */
  function SetNoteData(env: Env, s: Steps, g: NoteData): (r: Steps)
    requires LoadersFit(env)
    requires g.tracks == env.numTracks(s.stepsType)
    ensures r.parent.None? && r.filled && r.noteData == g && r.compressed == "" && r.hash == 0
    ensures s.parent.None? ==> SameMetadata(r, s)
    ensures s.parent.Some? ==> SameMetadata(r, s.parent.value)
    ensures SameIdentity(r, s) && r.radarJustLoaded == s.radarJustLoaded
  {
    Detach(s).(noteData := g, filled := true, compressed := "", hash := 0)
  }

  /** The grid set is the grid read, and its hash is the hash of its text. */
  lemma SetNoteDataRoundTrip(env: Env, s: Steps, g: NoteData)
    requires LoadersFit(env)
    requires g.tracks == env.numTracks(s.stepsType)
    ensures GetNoteData(env, SetNoteData(env, s, g)) == g
    ensures GetHash(env, SetNoteData(env, s, g)).0 == env.hashOf(env.encode(g))
  {
  }

  /** Stored text is what an unattached record hashes. */
  lemma SetSMNoteDataHash(env: Env, s: Steps, text: string)
    requires s.parent.None? && text != ""
    ensures GetHash(env, SetSMNoteData(s, text)).0 == env.hashOf(text)
  {
  }

  // ---------------------------------------------------------------------
  // Metadata

  /** `TidyUpData`'s difficulty from the meter: 1 is Beginner, up to 3
      Easy, up to 6 Medium, above that Hard. */
  function DifficultyForMeter(meter: int): (d: Difficulty)
    ensures d in {Beginner, Easy, Medium, Hard}
    ensures d == Beginner <==> meter == 1
    ensures d == Hard <==> meter > 6
  {
    if meter == 1 then Beginner
    else if meter <= 3 then Easy
    else if meter <= 6 then Medium
    else Hard
  }

  function Rank(d: Difficulty): int
  {
    match d
    case Beginner => 0
    case Easy => 1
    case Medium => 2
    case Hard => 3
    case Challenge => 4
    case Edit => 5
    case Invalid => 6
  }

  /** From meter 1 on, a higher meter never gives an easier difficulty;
      a meter below 1 gives Easy, above Beginner. */
  lemma MeterOrdersDifficulty(m1: int, m2: int)
    ensures 1 <= m1 <= m2 ==> Rank(DifficultyForMeter(m1)) <= Rank(DifficultyForMeter(m2))
    ensures m1 < 1 ==> DifficultyForMeter(m1) == Easy
  {
  }

  /** `TidyUpData`'s difficulty: kept when valid, else read from the
      description (`StringToDifficulty`, a parameter here), else inferred
      from the meter.  The result is never invalid. */
  function TidyDifficulty(d: Difficulty, description: string, meter: int, fromString: string -> Difficulty): (r: Difficulty)
    ensures r != Invalid
    ensures d != Invalid ==> r == d
    ensures d == Invalid && fromString(description) != Invalid ==> r == fromString(description)
    ensures d == Invalid && fromString(description) == Invalid ==> r == DifficultyForMeter(meter)
  {
    var d1 := if d == Invalid then fromString(description) else d;
    if d1 == Invalid then DifficultyForMeter(meter) else d1
  }

  /** Tidying twice is tidying once. */
  lemma TidyDifficultyIdempotent(d: Difficulty, description: string, meter: int, fromString: string -> Difficulty)
    ensures TidyDifficulty(TidyDifficulty(d, description, meter, fromString), description, meter, fromString)
      == TidyDifficulty(d, description, meter, fromString)
  {
  }

  /** `MakeValidEditDescription`: cut to `maxLength` bytes, saying whether
      it cut.  As everywhere in this model, a `string` is the byte sequence
      of the source's `std::string`, one `char` per byte, so `size()` and
      `Rage::head` count bytes and the cut can split a UTF-8 sequence. */
  function MakeValidEditDescription(description: string, maxLength: nat): (r: (string, bool))
    ensures r.1 <==> |description| > maxLength
    ensures |r.0| <= maxLength || r.0 == description
    ensures |r.0| == if r.1 then maxLength else |description|
    ensures r.0 == description[..|r.0|]
  {
    if |description| > maxLength then (description[..maxLength], true)
    else (description, false)
  }

  /** A valid description stays as it is. */
  lemma EditDescriptionIdempotent(description: string, maxLength: nat)
    ensures var (d1, _) := MakeValidEditDescription(description, maxLength);
      MakeValidEditDescription(d1, maxLength) == (d1, false)
  {
  }

  // ---------------------------------------------------------------------
  // Radar values

  /** `CalculateRadarValues` as far as the record goes: an autogen record
      keeps nothing of its own; values just loaded from a cache are kept
      once; otherwise they are computed from the grid. */
  function CalculateRadarValues(env: Env, s: Steps): (r: Steps)
    requires LoadersFit(env)
    ensures s.parent.Some? ==> r == s
    ensures s.parent.None? && s.radarJustLoaded ==> r == s.(radarJustLoaded := false)
    ensures s.parent.None? && !s.radarJustLoaded ==>
      r.radar == env.radarOf(s.stepsType, GetNoteData(env, s)) && !r.radarJustLoaded
    ensures SameIdentity(r, s) && r.parent == s.parent
  {
    if s.parent.Some? then s
    else if s.radarJustLoaded then s.(radarJustLoaded := false)
    else
      var d := Decompress(env, s);
      d.(radar := env.radarOf(s.stepsType, GetNoteData(env, s)))
  }

  /** `SetCachedRadarValues`: detach, store the values, and mark them as
      just loaded. */
  function SetCachedRadarValues(env: Env, s: Steps, v: seq<RadarValues>): (r: Steps)
    requires LoadersFit(env)
    requires |v| == NUM_PLAYERS
    ensures r.parent.None? && r.radar == v && r.radarJustLoaded
    ensures SameIdentity(r, s) && r.hash == s.hash
  {
    DeAutogen(env, s, true).(radar := v, radarJustLoaded := true)
  }

  /** Cached values survive exactly one calculation; the next one computes
      them from the grid. */
  lemma RadarSkippedOnce(env: Env, s: Steps, v: seq<RadarValues>)
    requires LoadersFit(env)
    requires |v| == NUM_PLAYERS
    ensures var r1 := CalculateRadarValues(env, SetCachedRadarValues(env, s, v));
      && r1.radar == v && !r1.radarJustLoaded
      && CalculateRadarValues(env, r1).radar == env.radarOf(r1.stepsType, GetNoteData(env, r1))
  {
  }
}

=== FILE: style.dfy ===
/** A style's column tables: which note track feeds each player's column,
    and which column each (controller, button) of the input scheme plays. */
module StyleColumns {
  import opened Wrappers
  import opened NoteGrid

  const NUM_PLAYERS: nat := 2
  const NUM_GAME_CONTROLLERS: nat := 2
  const MAX_COLS_PER_PLAYER: nat := 16
  /** The two sentinels of the input table (declared in Style.h, which is
      not part of this model): a button with no column, and the end of a
      controller's buttons. */
  const NO_MAPPING: int := -1
  const END_MAPPING: int := -2

  /** Whether a style uses one side of the pad per player. */
  datatype StyleType = OnePlayerOneSide | TwoPlayersTwoSides | OnePlayerTwoSides | TwoPlayersSharedSides

  predicate UsesOneSide(t: StyleType)
  {
    t != OnePlayerTwoSides && t != TwoPlayersSharedSides
  }

  datatype GameInput = GameInput(controller: nat, button: nat)

  /** `columnTrack[pn][c]` is `m_ColumnInfo[pn][c].track`; `inputColumn[gc][b]`
      is `m_iInputColumn[gc][b]`. */
  datatype Style = Style(
    styleType: StyleType,
    colsPerPlayer: nat,
    columnTrack: seq<seq<int>>,
    inputColumn: seq<seq<int>>)

  /** The shapes of the fixed-size tables: a row per player of
      `MAX_COLS_PER_PLAYER` columns, a row per controller of at least
      `buttons` entries (the input scheme's buttons per controller). */
  predicate Shaped(st: Style, buttons: nat)
  {
    && st.colsPerPlayer <= MAX_COLS_PER_PLAYER
    && |st.columnTrack| == NUM_PLAYERS
    && (forall pn :: 0 <= pn < NUM_PLAYERS ==> |st.columnTrack[pn]| == MAX_COLS_PER_PLAYER)
    && |st.inputColumn| == NUM_GAME_CONTROLLERS
    && (forall gc :: 0 <= gc < NUM_GAME_CONTROLLERS ==> |st.inputColumn[gc]| >= buttons)
  }

  // ---------------------------------------------------------------------
  // Columns to tracks

  /** The guard `GetTransformedNoteDataForStyle` asserts, as written:
      `pn <= NUM_PLAYERS` lets one player number past the table through. */
  predicate TransformGuardAsWritten(pn: int)
  {
    0 <= pn <= NUM_PLAYERS
  }

  /** The guard the player table needs. */
  predicate TransformGuard(pn: int)
  {
    0 <= pn < NUM_PLAYERS
  }

  /** Player number 2 passes the written guard but has no row in a shaped
      table; the corrected guard admits exactly the rows there are. */
  lemma TransformGuardOffByOne(st: Style, buttons: nat)
    requires Shaped(st, buttons)
    ensures TransformGuardAsWritten(NUM_PLAYERS) && !(NUM_PLAYERS < |st.columnTrack|)
    ensures forall pn :: TransformGuard(pn) <==> 0 <= pn < |st.columnTrack|
    ensures forall pn :: TransformGuard(pn) ==> TransformGuardAsWritten(pn)
  {
  }

  /** `iNewToOriginalTrack`: the track of each of the player's columns. */
  function TrackMap(st: Style, buttons: nat, pn: nat): (m: seq<int>)
    requires Shaped(st, buttons) && TransformGuard(pn)
    ensures |m| == st.colsPerPlayer
    ensures forall c :: 0 <= c < st.colsPerPlayer ==> m[c] == st.columnTrack[pn][c]
  {
    st.columnTrack[pn][..st.colsPerPlayer]
  }

  /** `GetTransformedNoteDataForStyle`: the player's view of the grid,
      one track per column, column c copied from its track. */
  function GetTransformedNoteDataForStyle(st: Style, buttons: nat, pn: nat, original: NoteData): (r: NoteData)
    requires Shaped(st, buttons) && TransformGuard(pn)
    ensures r.tracks == st.colsPerPlayer
    ensures forall c: Cell :: 0 <= c.0 < st.colsPerPlayer && 0 <= st.columnTrack[pn][c.0] < original.tracks ==>
      Get(r, c) == Get(original, (st.columnTrack[pn][c.0], c.1))
    ensures forall c: Cell :: !(0 <= c.0 < st.colsPerPlayer) ==> Get(r, c) == TapEmpty
    ensures WellFormed(original) ==> WellFormed(r)
  {
    LoadTransformed(original, st.colsPerPlayer, TrackMap(st, buttons, pn))
  }

  /** Two columns fed by the same track show the same notes. */
  lemma SharedTrackSameNotes(st: Style, buttons: nat, pn: nat, original: NoteData, c1: nat, c2: nat, row: int)
    requires Shaped(st, buttons) && TransformGuard(pn)
    requires c1 < st.colsPerPlayer && c2 < st.colsPerPlayer
    requires st.columnTrack[pn][c1] == st.columnTrack[pn][c2]
    ensures var r := GetTransformedNoteDataForStyle(st, buttons, pn, original);
      Get(r, (c1, row)) == Get(r, (c2, row))
  {
    var r := GetTransformedNoteDataForStyle(st, buttons, pn, original);
    if !(0 <= st.columnTrack[pn][c1] < original.tracks) {
      assert Get(r, (c1, row)) == TapEmpty && Get(r, (c2, row)) == TapEmpty;
    }
  }

  // ---------------------------------------------------------------------
  // Inputs to columns

  /** The button is before the end of its controller's list: no entry up
      to and including it is `END_MAPPING`. */
  predicate BeforeEnd(row: seq<int>, button: nat)
    requires button < |row|
  {
    forall k :: 0 <= k <= button ==> row[k] != END_MAPPING
  }

  /** `GameInputToColumn`: the column of a button, or `None`
      (`Column_INVALID`) when the button has no column or lies past the end
      of its controller's list. */
  function GameInputToColumn(st: Style, buttons: nat, gi: GameInput): (r: Option<int>)
    requires Shaped(st, buttons)
    requires gi.controller < NUM_GAME_CONTROLLERS && gi.button < |st.inputColumn[gi.controller]|
    ensures r.Some? <==>
      st.inputColumn[gi.controller][gi.button] != NO_MAPPING && BeforeEnd(st.inputColumn[gi.controller], gi.button)
    ensures r.Some? ==> r.value == st.inputColumn[gi.controller][gi.button] && r.value != END_MAPPING && r.value != NO_MAPPING
  {
    var row := st.inputColumn[gi.controller];
    if row[gi.button] == NO_MAPPING then None
    else if exists k :: 0 <= k <= gi.button && row[k] == END_MAPPING then None
    else Some(row[gi.button])
  }

  /** The buttons `StyleInputToGameInput` looks at for player `pn`: on the
      player's own controller only in a one-side style, within the
      scheme's buttons and before the end of the list. */
  predicate Scanned(st: Style, buttons: nat, pn: nat, gi: GameInput)
    requires Shaped(st, buttons)
  {
    && gi.controller < NUM_GAME_CONTROLLERS
    && (UsesOneSide(st.styleType) ==> gi.controller == pn)
    && gi.button < buttons
    && BeforeEnd(st.inputColumn[gi.controller], gi.button)
  }

  /** Scan order: controller by controller, button by button. */
  predicate Before(a: GameInput, b: GameInput)
  {
    a.controller < b.controller || (a.controller == b.controller && a.button < b.button)
  }

  predicate Plays(st: Style, gi: GameInput, col: int)
    requires gi.controller < |st.inputColumn| && gi.button < |st.inputColumn[gi.controller]|
  {
    st.inputColumn[gi.controller][gi.button] == col
  }

  /** `StyleInputToGameInput`: the first scanned button whose entry is the
      column, or `None` where the program fails. */
  method StyleInputToGameInput(st: Style, buttons: nat, col: int, pn: nat) returns (r: Option<GameInput>)
    requires Shaped(st, buttons)
    requires pn < NUM_PLAYERS && col < MAX_COLS_PER_PLAYER
    ensures r.Some? ==> Scanned(st, buttons, pn, r.value) && Plays(st, r.value, col)
    ensures r.Some? ==> forall gi :: Scanned(st, buttons, pn, gi) && Before(gi, r.value) ==> !Plays(st, gi, col)
    ensures r.None? ==> forall gi :: Scanned(st, buttons, pn, gi) ==> !Plays(st, gi, col)
  {
    var oneSide := UsesOneSide(st.styleType);
    var gc := 0;
    while gc < NUM_GAME_CONTROLLERS
      invariant 0 <= gc <= NUM_GAME_CONTROLLERS
      invariant forall gi :: Scanned(st, buttons, pn, gi) && gi.controller < gc ==> !Plays(st, gi, col)
    {
      if !(oneSide && gc != pn) {
        var row := st.inputColumn[gc];
        var i := 0;
        while i < buttons && row[i] != END_MAPPING
          invariant 0 <= i <= buttons
          invariant forall k :: 0 <= k < i ==> row[k] != END_MAPPING && row[k] != col
        {
          if row[i] == col {
            r := Some(GameInput(gc, i));
            return;
          }
          i := i + 1;
        }
        forall gi | Scanned(st, buttons, pn, gi) && gi.controller == gc
          ensures !Plays(st, gi, col)
        {
          assert gi.button < i;
        }
      }
      gc := gc + 1;
    }
    r := None;
  }

  /** Round trip: the button found for a column plays that column. */
  lemma InputRoundTrip(st: Style, buttons: nat, col: int, pn: nat, gi: GameInput)
    requires Shaped(st, buttons) && pn < NUM_PLAYERS
    requires Scanned(st, buttons, pn, gi) && Plays(st, gi, col) && col != NO_MAPPING
    ensures GameInputToColumn(st, buttons, gi) == Some(col)
  {
  }

  /** Completeness: a scanned button with a column is found by the scan
      for that column, at that button or an earlier one. */
  method FindsEveryColumn(st: Style, buttons: nat, pn: nat, gi: GameInput) returns (found: GameInput)
    requires Shaped(st, buttons) && pn < NUM_PLAYERS
    requires Scanned(st, buttons, pn, gi)
    requires GameInputToColumn(st, buttons, gi).Some?
    requires GameInputToColumn(st, buttons, gi).value < MAX_COLS_PER_PLAYER
    ensures Scanned(st, buttons, pn, found)
    ensures found == gi || Before(found, gi)
    ensures GameInputToColumn(st, buttons, found) == GameInputToColumn(st, buttons, gi)
  {
    var col := GameInputToColumn(st, buttons, gi).value;
    var r := StyleInputToGameInput(st, buttons, col, pn);
    assert Plays(st, gi, col);
    found := r.value;
    if found != gi && !Before(found, gi) {
      assert false;
    }
  }
}
